=== FILE: README.md ===
# ng-vrbpmn process store and connection router, in Dafny

ng-vrbpmn is an Angular and three.js editor that draws BPMN process
diagrams in a 3D scene. Two classes of it are modelled here.

- `ProcessStateService` is the store behind the editor. It holds:
  - the node list and the connection list;
  - the selection, drag and hover state;
  - the editing mode and the node type to add;
  - the process id and name;
  - the id counters, the dirty flag and the status line.
- `ConnectionPathBuilder` computes the path a connection is drawn along. It
  routes through the connection's waypoints when it has at least two;
  otherwise it routes automatically with axis-parallel elbows. Either
  route is then drawn with rounded corners.

The service's methods update its fields in place, so it is a Dafny
`class` (`State.ProcessStateService`). Each method is proved against
value-level functions, and the properties are proved about those
functions as lemmas. The builder never changes its fields after
construction, so it is a datatype with pure functions, plus methods for
the loops the source runs.

Modules:

- `Diagram` (types.dfy): nodes, connections, node kinds, points, and the JavaScript helpers the source relies on (truthiness of a parent id, indexing out of range).
- `Text` (text.dfy): numerals for ids, the `Flow_<n>_…` pattern, the XML-id pattern, the XML escaping and the white-space normalisation a parser applies to attribute values.
- `Graph` (graph.dfy): lookup, deletion, the link checks of `addConnection`, the counters derived from the ids, and the store's consistency invariant with the lemmas that show each operation keeps it.
- `Hierarchy` (hierarchy.dfy): the parent relation, the breadth-first collection of a node's descendants in `moveNode`, and its termination.
- `Move` (move.dfy): how `moveNode` translates a node and its descendants.
- `Rerouting` (reroute.dfy): how `moveNode` moves, extends or leaves the waypoints of each connection.
- `Snapshot` (snapshot.dfy): the JSON export record and what the JSON import accepts from one.
- `Bpmn` (bpmn.dfy): the element tree of a BPMN document, the tag for each node kind and back, and the multi-instance markers.
- `BpmnExport` (bpmn_export.dfy): the process elements and diagram layout `exportBpmnXml` writes.
- `BpmnImport` (bpmn_import.dfy): what `importBpmnXml` reads from a parsed document, and its in-place passes (recentring, shifting the waypoints, fitting each subprocess to its children).
- `BpmnRoundTrip` (bpmn_roundtrip.dfy): what reading back an exported document gives.
- `State` (state.dfy): the service class.
- `Footprint` (footprint.dfy): node sizes, side anchors and ray hits used by the builder.
- `ConnectionPath` (connection_path.dfy): the waypoint route, the automatic route, `orthogonalizePath` and `buildRoundedPath`.

Floating-point numbers are modelled as exact reals. A computation that
needs a square root takes JavaScript's `Math.sqrt` as a parameter `sqrt`
of type `real -> real`. That parameter must satisfy `IsSqrt`: it returns
a non-negative root whose square is its argument.

## Model

| member | source | states |
|---|---|---|
| Diagram.At | ng-vrbpmn/src/app/process-view-ngthree/process-state.service.ts:394 | JavaScript indexing: defined exactly for an index in range, and then the element there |
| Text.NatToStringValue | ng-vrbpmn/src/app/process-view-ngthree/process-state.service.ts:106-108 | the id `getNextId` produces is a numeral whose value is the counter, so `deriveNodeCounter` reads it back |
| Text.LeadingDigitsOfNumeral | ng-vrbpmn/src/app/process-view-ngthree/process-state.service.ts:661 | the greedy `\d+` of the `Flow_` pattern stops exactly at the end of a numeral followed by a non-digit |
| Text.FlowNumberOfFlowId | ng-vrbpmn/src/app/process-view-ngthree/process-state.service.ts:110-113 | every `Flow_<n>_<source>_<target>` id yields n under the `/^Flow_(\d+)_/` match of `deriveConnectionCounter` |
| Text.ValidXmlIdIsNotNumeral | ng-vrbpmn/src/app/process-view-ngthree/process-state.service.ts:1037-1039 | an id passing `isValidXmlId` is never all digits, so it cannot collide with a generated node id |
| Text.WhiteBefore | ng-vrbpmn/src/app/process-view-ngthree/process-state.service.ts:407 | the first index from i on that is not white space, with only white space skipped |
| Text.WhiteAfter | ng-vrbpmn/src/app/process-view-ngthree/process-state.service.ts:407 | the end of the text once trailing white space is dropped, with only white space dropped |
| Text.TrimProperties | ng-vrbpmn/src/app/process-view-ngthree/process-state.service.ts:407 | `trim()` yields a substring of the input with no white space at either end, empty exactly when the input is all white space |
| Text.TrimIdempotent | ng-vrbpmn/src/app/process-view-ngthree/process-state.service.ts:407 | trimming twice equals trimming once |
| Text.TrimOfTrimmed | ng-vrbpmn/src/app/process-view-ngthree/process-state.service.ts:407 | a string with no white space at either end is its own trim |
| Text.ReplaceAllAppend | ng-vrbpmn/src/app/process-view-ngthree/process-state.service.ts:733-739 | a global single-character replace distributes over concatenation |
| Text.EscapeXmlAppend | ng-vrbpmn/src/app/process-view-ngthree/process-state.service.ts:733-739 | `escapeXml` distributes over concatenation |
| Text.ReplaceAllSingle | ng-vrbpmn/src/app/process-view-ngthree/process-state.service.ts:733-739 | a replace on one character yields the replacement exactly when it matches |
| Text.EntityUntouched | ng-vrbpmn/src/app/process-view-ngthree/process-state.service.ts:735-739 | the replacements after the one that wrote an entity leave that entity alone |
| Text.EscapeXmlOneChar | ng-vrbpmn/src/app/process-view-ngthree/process-state.service.ts:733-739 | the five-step chain turns one character into its entity |
| Text.ReplaceAllAbsent | ng-vrbpmn/src/app/process-view-ngthree/process-state.service.ts:733-739 | replacing a character that does not occur changes nothing |
| Text.EscapeXmlIsPerCharacter | ng-vrbpmn/src/app/process-view-ngthree/process-state.service.ts:733-739 | because `&` is replaced first, the chain escapes each character on its own |
| Text.UnescapeEntity | ng-vrbpmn/src/app/process-view-ngthree/process-state.service.ts:733-739 | each of the five entities reads back as its character |
| Text.UnescapePlain | ng-vrbpmn/src/app/process-view-ngthree/process-state.service.ts:733-739 | a character other than `&` reads back as itself |
| Text.UnescapeChar | ng-vrbpmn/src/app/process-view-ngthree/process-state.service.ts:733-739 | an escaped character reads back as that character |
| Text.EscapeXmlRoundTrip | ng-vrbpmn/src/app/process-view-ngthree/process-state.service.ts:733-739 | escaped text reads back as the original, and holds no raw `<`, `>`, `"` or `'` |
| Text.EscapeCharNoMarkup | ng-vrbpmn/src/app/process-view-ngthree/process-state.service.ts:733-739 | an entity holds no markup character |
| Text.EscapeEachRoundTrip | ng-vrbpmn/src/app/process-view-ngthree/process-state.service.ts:733-739 | per-character escaping reads back as the original and holds no markup character |
| Text.NormalizeSpacesProperties | ng-vrbpmn/src/app/process-view-ngthree/process-state.service.ts:915-940 | the value `getAttribute` reports, as `Text.NormalizeSpaces` computes it: no tab, LF or CR is left, text without them is unchanged, and the value is empty exactly when the text is |
| Text.EscapeEachNormalized | ng-vrbpmn/src/app/process-view-ngthree/process-state.service.ts:733-739 | escaping touches no white space, so it commutes with the parser's normalisation |
| Text.EscapedAttributeRoundTrip | ng-vrbpmn/src/app/process-view-ngthree/process-state.service.ts:733-739 | an escaped attribute value reads back as the original with its white space normalised |
| Graph.FindNode | ng-vrbpmn/src/app/process-view-ngthree/process-state.service.ts:289-290 | `find` returns a node with the id from the list, and nothing exactly when no node has the id |
| Graph.Ids | ng-vrbpmn/src/app/process-view-ngthree/process-state.service.ts:609 | the id set of the nodes, both directions |
| Graph.FindUnique | ng-vrbpmn/src/app/process-view-ngthree/process-state.service.ts:160 | with unique ids, `find` returns the node holding the id |
| Graph.FindAt | ng-vrbpmn/src/app/process-view-ngthree/process-state.service.ts:160 | `find` returns the node at k when no earlier node has its id |
| Graph.WithoutNode | ng-vrbpmn/src/app/process-view-ngthree/process-state.service.ts:266 | the kept nodes are exactly those without the id, so the id is gone |
| Graph.WithoutIncident | ng-vrbpmn/src/app/process-view-ngthree/process-state.service.ts:267 | the kept connections are exactly those with neither endpoint equal to the id |
| Graph.WithoutConnection | ng-vrbpmn/src/app/process-view-ngthree/process-state.service.ts:276 | the kept connections are exactly those with another id |
| Graph.DeleteAllEffects | ng-vrbpmn/src/app/process-view-ngthree/process-state.service.ts:373-381 | deleting the selected ids one by one keeps exactly the nodes with none of the ids and exactly the connections touching none |
| Graph.DeleteAllKeepsEndpoints | ng-vrbpmn/src/app/process-view-ngthree/process-state.service.ts:373-381 | deleting several nodes leaves every connection's endpoints naming nodes |
| Graph.DeleteKeepsConsistent | ng-vrbpmn/src/app/process-view-ngthree/process-state.service.ts:265-273 | `deleteNode` keeps the store invariant: counters cover the ids, endpoints exist |
| Graph.DisconnectKeepsConsistent | ng-vrbpmn/src/app/process-view-ngthree/process-state.service.ts:275-280 | `deleteConnection` keeps the store invariant |
| Graph.AddNodeKeepsConsistent | ng-vrbpmn/src/app/process-view-ngthree/process-state.service.ts:135-152 | the next numeric id is new, and appending the node keeps the store invariant |
| Graph.LinkKeepsConsistent | ng-vrbpmn/src/app/process-view-ngthree/process-state.service.ts:282-316 | `addConnection` keeps the store invariant, whatever its verdict |
| Graph.SameIdsKeepConsistent | ng-vrbpmn/src/app/process-view-ngthree/process-state.service.ts:406-426 | editing names, descriptions or multi-instance markers keeps the id set and the store invariant |
| Graph.DeleteKeepsEndpoints | ng-vrbpmn/src/app/process-view-ngthree/process-state.service.ts:265-267 | removing a node with its incident connections leaves no dangling endpoint |
| Graph.SameIdsKeepInvariants | ng-vrbpmn/src/app/process-view-ngthree/process-state.service.ts:1021 | a pass that keeps every node's id in place keeps the id set, the endpoints and the counter cover |
| Graph.AcceptedExactly | ng-vrbpmn/src/app/process-view-ngthree/process-state.service.ts:282-310 | a link is accepted iff the ids differ, the pair is new, both nodes exist, the target is no start event and the source no end event |
| Graph.LinkAppendsFresh | ng-vrbpmn/src/app/process-view-ngthree/process-state.service.ts:312-313 | with a covering counter, an accepted link keeps the old connections and appends exactly one for the pair, under an id no connection had and numbered by the new counter, which still covers; a refused link keeps the list |
| Graph.LinkIdempotent | ng-vrbpmn/src/app/process-view-ngthree/process-state.service.ts:285-287 | connecting the same pair twice adds the connection once |
| Graph.LinkKeepsInvariants | ng-vrbpmn/src/app/process-view-ngthree/process-state.service.ts:312-313 | an accepted link keeps endpoints existing and the connection counter covering |
| Graph.MaxNodeNumberIsMax | ng-vrbpmn/src/app/process-view-ngthree/process-state.service.ts:647-656 | the recovered node counter is at least every numeric id and is one of them, or 0 |
| Graph.MaxConnectionNumberIsMax | ng-vrbpmn/src/app/process-view-ngthree/process-state.service.ts:658-668 | the recovered connection counter is at least every `Flow_<n>_` number and is one of them, or 0 |
| Graph.NodeCoverIsMax | ng-vrbpmn/src/app/process-view-ngthree/process-state.service.ts:647-656 | a counter covers the numeric ids iff it is at least the recovered one |
| Graph.ConnectionCoverIsMax | ng-vrbpmn/src/app/process-view-ngthree/process-state.service.ts:658-668 | a counter covers the flow numbers iff it is at least the recovered one |
| Graph.MaxConnectionStep | ng-vrbpmn/src/app/process-view-ngthree/process-state.service.ts:660-666 | one more connection raises the running maximum to the larger of the two |
| Graph.DeriveNodeCounter | ng-vrbpmn/src/app/process-view-ngthree/process-state.service.ts:647-656 | the `forEach` loop returns the greatest numeric node id |
| Graph.DeriveConnectionCounter | ng-vrbpmn/src/app/process-view-ngthree/process-state.service.ts:658-668 | the `forEach` loop returns the greatest `Flow_<n>_` number |
| Graph.FreshNodeId | ng-vrbpmn/src/app/process-view-ngthree/process-state.service.ts:106-108 | after a covering counter, `getNextId` yields an id no node has |
| Graph.FreshConnectionId | ng-vrbpmn/src/app/process-view-ngthree/process-state.service.ts:110-113 | after a covering counter, `makeConnectionId` yields an id no connection has, carrying the new counter |
| Graph.CheckRename | ng-vrbpmn/src/app/process-view-ngthree/process-state.service.ts:429-444 | `updateNodeId` goes ahead iff the trimmed id is a valid XML id, differs from the old one and is unused |
| Graph.RenameNodes | ng-vrbpmn/src/app/process-view-ngthree/process-state.service.ts:445 | every node with the old id gets the new one, nothing else changes |
| Graph.RegeneratedIds | ng-vrbpmn/src/app/process-view-ngthree/process-state.service.ts:446-455 | after the rename every connection has a fresh, pairwise distinct id numbered counter+i+1, covered by the advanced counter |
| Graph.RenameKeepsInvariants | ng-vrbpmn/src/app/process-view-ngthree/process-state.service.ts:445-457 | renaming to an unused valid id keeps endpoints existing and the node counter covering |
| Graph.RenameKeepsConsistent | ng-vrbpmn/src/app/process-view-ngthree/process-state.service.ts:428-463 | an accepted rename keeps the store invariant with the counter advanced by the number of connections |
| Graph.Dedup | ng-vrbpmn/src/app/process-view-ngthree/process-state.service.ts:390 | `Array.from(new Set(s))` has no duplicates and the same members |
| Graph.DedupOfDistinct | ng-vrbpmn/src/app/process-view-ngthree/process-state.service.ts:390 | a selection without duplicates is its own de-duplication |
| Graph.Remove | ng-vrbpmn/src/app/process-view-ngthree/process-state.service.ts:269 | the filter keeps exactly the other ids and keeps them distinct |
| Graph.NoDupSplit | ng-vrbpmn/src/app/process-view-ngthree/process-state.service.ts:390 | a sequence has no duplicates iff its head is not in its tail and its tail has none |
| Graph.ToggledIds | ng-vrbpmn/src/app/process-view-ngthree/process-state.service.ts:388-401 | the toggled selection has no duplicates and holds an id iff it held it before XOR it is the toggled one |
| Graph.ToggledPrimary | ng-vrbpmn/src/app/process-view-ngthree/process-state.service.ts:391-400 | selecting a new id makes it primary; deselecting the primary picks the last remaining one; otherwise the primary stays |
| Graph.ToggleTwice | ng-vrbpmn/src/app/process-view-ngthree/process-state.service.ts:388-401 | toggling an unselected id on and off gives back the de-duplicated selection |
| Graph.RemoveLast | ng-vrbpmn/src/app/process-view-ngthree/process-state.service.ts:392 | removing the last-added id gives back the selection before it |
| Hierarchy.ParentKey | ng-vrbpmn/src/app/process-view-ngthree/process-state.service.ts:176 | a node is grouped under its `parentId` exactly when that is truthy (neither null nor empty) |
| Hierarchy.ChildrenOf | ng-vrbpmn/src/app/process-view-ngthree/process-state.service.ts:174-180 | `childrenByParent.get(p) ?? []` holds exactly the nodes whose truthy `parentId` is p |
| Hierarchy.ChildrenBelow | ng-vrbpmn/src/app/process-view-ngthree/process-state.service.ts:182-190 | in a ranked (acyclic) hierarchy every child of p ranks below p |
| Hierarchy.Weight | ng-vrbpmn/src/app/process-view-ngthree/process-state.service.ts:183-190 | the number of queue steps the walk from a node takes is at least one |
| Hierarchy.BoundIrrelevant | ng-vrbpmn/src/app/process-view-ngthree/process-state.service.ts:183-190 | the rank bound only measures termination: the walk's weight and reached ids do not depend on it |
| Hierarchy.ForestAppend | ng-vrbpmn/src/app/process-view-ngthree/process-state.service.ts:189 | queueing two lists sums their weights and unites the ids they reach |
| Hierarchy.PopStep | ng-vrbpmn/src/app/process-view-ngthree/process-state.service.ts:184-189 | one `queue.shift()` plus queueing the grandchildren lowers the queue's weight by one and keeps the ids still to reach apart from the popped one |
| Hierarchy.ForestRank | ng-vrbpmn/src/app/process-view-ngthree/process-state.service.ts:183-190 | every id reached from the queue ranks below the bound |
| Hierarchy.SubtreeRank | ng-vrbpmn/src/app/process-view-ngthree/process-state.service.ts:183-190 | every id reached below k ranks lower than k, so it is not k |
| Hierarchy.ForestClosed | ng-vrbpmn/src/app/process-view-ngthree/process-state.service.ts:188-189 | the ids reached from a queue are closed under children |
| Hierarchy.SubtreeClosed | ng-vrbpmn/src/app/process-view-ngthree/process-state.service.ts:188-189 | the walk from k reaches every transitive descendant of k |
| Hierarchy.ForestHasSubtree | ng-vrbpmn/src/app/process-view-ngthree/process-state.service.ts:182-190 | every queued node is reached |
| Hierarchy.SubtreeOnlyDescendants | ng-vrbpmn/src/app/process-view-ngthree/process-state.service.ts:182-190 | every id reached from k other than k is a node whose parent was reached: only descendants are visited |
| Hierarchy.ForestOnlyDescendants | ng-vrbpmn/src/app/process-view-ngthree/process-state.service.ts:182-190 | every id reached from a queue of k's children is a node whose parent is in k's subtree |
| Hierarchy.SubtreeWithin | ng-vrbpmn/src/app/process-view-ngthree/process-state.service.ts:188-189 | a child's subtree lies inside its parent's |
| Hierarchy.ForestWithin | ng-vrbpmn/src/app/process-view-ngthree/process-state.service.ts:182-190 | the subtree of a queued node lies inside what the queue reaches |
| Move.MovedDeltas | ng-vrbpmn/src/app/process-view-ngthree/process-state.service.ts:158-187 | `movedDeltas` has exactly the moved ids as keys |
| Move.MoveUnknownId | ng-vrbpmn/src/app/process-view-ngthree/process-state.service.ts:160-161 | an unknown id moves nothing: nodes and connections come back unchanged |
| Move.MoveIsTranslation | ng-vrbpmn/src/app/process-view-ngthree/process-state.service.ts:154-199 | with unique ids, every node of the target's subtree is displaced by the same delta and every other node keeps its position; only positions change |
| Move.DescendantsMove | ng-vrbpmn/src/app/process-view-ngthree/process-state.service.ts:182-190 | every transitive child of the target moves |
| Move.OnlyDescendantsMove | ng-vrbpmn/src/app/process-view-ngthree/process-state.service.ts:182-190 | a moved id other than the target is a child of a moved id |
| Move.MoveCarriesInnerConnections | ng-vrbpmn/src/app/process-view-ngthree/process-state.service.ts:241-261 | a connection with both endpoints moved has every waypoint translated by the delta; one touching no moved node is unchanged |
| Move.WalkStep | ng-vrbpmn/src/app/process-view-ngthree/process-state.service.ts:183-190 | one iteration of the `while (queue.length)` loop keeps the walk invariant and strictly lowers the queue's weight |
| Move.WalkStart | ng-vrbpmn/src/app/process-view-ngthree/process-state.service.ts:163-182 | the walk starts with the target at its new position and its children queued |
| Move.WalkDone | ng-vrbpmn/src/app/process-view-ngthree/process-state.service.ts:183-190 | when the queue is empty the positions collected cover exactly the subtree, the target at the new position and every other moved node at its position plus the delta |
| Move.CollectMoves | ng-vrbpmn/src/app/process-view-ngthree/process-state.service.ts:163-191 | the breadth-first walk terminates on an acyclic hierarchy and returns `nextPositions` for exactly the target's subtree and `movedDeltas` |
| Move.MoveInList | ng-vrbpmn/src/app/process-view-ngthree/process-state.service.ts:159-199 | the `nodes.update` callback moves the subtree as above, and `changed` holds exactly when the target exists |
| Move.Relocated | ng-vrbpmn/src/app/process-view-ngthree/process-state.service.ts:193-198 | the `map` keeps every node's length and order |
| Move.RelocatedEffects | ng-vrbpmn/src/app/process-view-ngthree/process-state.service.ts:193-198 | writing back the collected positions changes positions only, leaves unmoved nodes untouched and puts the target at the new position |
| Move.RerouteAll | ng-vrbpmn/src/app/process-view-ngthree/process-state.service.ts:241-261 | every connection is rerouted with the moved deltas, in order |
| Rerouting.AxisFrom | ng-vrbpmn/src/app/process-view-ngthree/process-state.service.ts:208-212 | a leg runs along z iff its x agree within 1e-4, along x iff only its z agree, and has no axis otherwise |
| Rerouting.RunEnd | ng-vrbpmn/src/app/process-view-ngthree/process-state.service.ts:219-224 | the forward run from an index stays on the axis line and stops at the first point that leaves it |
| Rerouting.RunStart | ng-vrbpmn/src/app/process-view-ngthree/process-state.service.ts:233-238 | the backward run ending at an index stays on the axis line and stops at the first point that leaves it |
| Rerouting.StartRunLength | ng-vrbpmn/src/app/process-view-ngthree/process-state.service.ts:213-225 | `shiftStart` moves at least the first point and never more than all of them |
| Rerouting.EndRunStart | ng-vrbpmn/src/app/process-view-ngthree/process-state.service.ts:226-239 | `shiftEnd` moves at least the last point |
| Rerouting.Translated | ng-vrbpmn/src/app/process-view-ngthree/process-state.service.ts:251-255 | every waypoint is moved by the same delta |
| Rerouting.Reroute | ng-vrbpmn/src/app/process-view-ngthree/process-state.service.ts:242-259 | the rerouted connection keeps its id and endpoints |
| Rerouting.ShiftStart | ng-vrbpmn/src/app/process-view-ngthree/process-state.service.ts:213-225 | the in-place loop leaves the array equal to `ShiftedStart` of the old contents |
| Rerouting.ShiftEnd | ng-vrbpmn/src/app/process-view-ngthree/process-state.service.ts:226-239 | the in-place backward loop leaves the array equal to `ShiftedEnd` of the old contents |
| Rerouting.RerouteConnection | ng-vrbpmn/src/app/process-view-ngthree/process-state.service.ts:242-259 | the per-connection step computes `Reroute` |
| Rerouting.RerouteCases | ng-vrbpmn/src/app/process-view-ngthree/process-state.service.ts:243-259 | an untouched connection is kept; a touched one with fewer than two waypoints loses them; equal deltas translate every waypoint; one moved endpoint shifts exactly its end run and nothing else; two unequal deltas shift the start run by the source's and then the end run by the target's |
| Rerouting.StartRunIsMaximal | ng-vrbpmn/src/app/process-view-ngthree/process-state.service.ts:216-224 | with an axis, `shiftStart` moves the first point and the maximal run after it on the first leg's axis line, at least two points |
| Rerouting.EndRunIsMaximal | ng-vrbpmn/src/app/process-view-ngthree/process-state.service.ts:230-238 | with an axis, `shiftEnd` moves the last point and the maximal run before it on the last leg's axis line, at least two points |
| Rerouting.ShiftKeepsRunLegs | ng-vrbpmn/src/app/process-view-ngthree/process-state.service.ts:217-224 | legs inside the shifted run keep their exact direction, so an axis-parallel first leg stays axis-parallel |
| Snapshot.ExportNodes | ng-vrbpmn/src/app/process-view-ngthree/process-state.service.ts:512-525 | one record per node, in order |
| Snapshot.ExportConnections | ng-vrbpmn/src/app/process-view-ngthree/process-state.service.ts:526-531 | one record per connection, in order |
| Snapshot.ImportNodes | ng-vrbpmn/src/app/process-view-ngthree/process-state.service.ts:594-607 | one node per record, each read with the defaults for absent fields |
| Snapshot.ImportConnections | ng-vrbpmn/src/app/process-view-ngthree/process-state.service.ts:609-617 | exactly the records whose endpoints are imported node ids come back, and nothing else |
| Snapshot.ImportDiagram | ng-vrbpmn/src/app/process-view-ngthree/process-state.service.ts:585-617 | a missing node array refuses the file, a missing connection array with nodes present refuses it too, and an accepted file has every endpoint naming an imported node |
| Snapshot.NodesRoundTrip | ng-vrbpmn/src/app/process-view-ngthree/process-state.service.ts:512-525 | exported nodes import back unchanged |
| Snapshot.ConnectionsRoundTrip | ng-vrbpmn/src/app/process-view-ngthree/process-state.service.ts:526-531 | connections whose endpoints all exist export and import back whole and in order |
| Snapshot.SnapshotRoundTrip | ng-vrbpmn/src/app/process-view-ngthree/process-state.service.ts:507-534 | export then import gives back the same nodes and connections, a valid process id and a trimmed non-blank process name |
| Snapshot.ImportIsConsistent | ng-vrbpmn/src/app/process-view-ngthree/process-state.service.ts:619-636 | an accepted import with the recovered counters satisfies the store invariant, and the next node and connection ids are fresh |
| State.DefaultIdIsCounter | ng-vrbpmn/src/app/process-view-ngthree/process-state.service.ts:85 | the id of the i-th initial node is the counter's next value as a string |
| State.DefaultTypesLinkable | ng-vrbpmn/src/app/process-view-ngthree/process-state.service.ts:80 | in the initial chain no target is a start event and no source a terminal |
| State.DefaultLinkStep | ng-vrbpmn/src/app/process-view-ngthree/process-state.service.ts:99-102 | each link of the initial chain passes every check of `addConnection` and appends the next initial connection |
| State.DefaultConnectionsExtend | ng-vrbpmn/src/app/process-view-ngthree/process-state.service.ts:99-102 | appending the next initial connection extends the chain by one |
| State.DefaultBuiltStep | ng-vrbpmn/src/app/process-view-ngthree/process-state.service.ts:84-103 | one round of the initial loop adds the next node and, after the first, the link to it, with the counters to match |
| State.DefaultDiagramConsistent | ng-vrbpmn/src/app/process-view-ngthree/process-state.service.ts:79-104 | the initial diagram satisfies the store invariant with counters 6 and 5 |
| State.ProcessStateService.constructor | ng-vrbpmn/src/app/process-view-ngthree/process-state.service.ts:40-77 | the service starts with the six chained default nodes, counters 6 and 5, the default process id and name, move mode, nothing selected and dirty |
| State.ProcessStateService.InitializeDefaultNodes | ng-vrbpmn/src/app/process-view-ngthree/process-state.service.ts:79-104 | six nodes left to right and five connections between neighbours; status is the last `Connected` message |
| State.ProcessStateService.AddDefaultNode | ng-vrbpmn/src/app/process-view-ngthree/process-state.service.ts:84-103 | one `forEach` round keeps the built prefix growing by one node and, after the first, one connection |
| State.ProcessStateService.LinkDefault | ng-vrbpmn/src/app/process-view-ngthree/process-state.service.ts:99-102 | linking node i to node i+1 appends exactly the next initial connection |
| State.ProcessStateService.GetNextId | ng-vrbpmn/src/app/process-view-ngthree/process-state.service.ts:106-108 | the counter grows by one and the id is its decimal numeral |
| State.ProcessStateService.MakeConnectionId | ng-vrbpmn/src/app/process-view-ngthree/process-state.service.ts:110-113 | the counter grows by one and the id is `Flow_<counter>_<source>_<target>` |
| State.ProcessStateService.HoverNode | ng-vrbpmn/src/app/process-view-ngthree/process-state.service.ts:60-62 | the hovered node is the id while hovered, none otherwise |
| State.ProcessStateService.HoverConnection | ng-vrbpmn/src/app/process-view-ngthree/process-state.service.ts:64-66 | the hovered connection is the id while hovered, none otherwise |
| State.ProcessStateService.SetMode | ng-vrbpmn/src/app/process-view-ngthree/process-state.service.ts:115-127 | leaving link mode clears the node selection; delete mode also clears the connection selection |
| State.ProcessStateService.SetNodeType | ng-vrbpmn/src/app/process-view-ngthree/process-state.service.ts:129-133 | the current type and its status |
| State.ProcessStateService.AddNode | ng-vrbpmn/src/app/process-view-ngthree/process-state.service.ts:135-152 | appends a node of the current type under the next numeric id |
| State.ProcessStateService.MoveNode | ng-vrbpmn/src/app/process-view-ngthree/process-state.service.ts:154-263 | the node list changes as `MoveEffect` says, connections are rerouted, and the diagram is dirty exactly when the id exists |
| State.ProcessStateService.DeleteNode | ng-vrbpmn/src/app/process-view-ngthree/process-state.service.ts:265-273 | the node and exactly its incident connections go; selections are updated; drag and hover ids are kept |
| State.ProcessStateService.DeleteConnection | ng-vrbpmn/src/app/process-view-ngthree/process-state.service.ts:275-280 | exactly the connections with the id go, and the selection is cleared if it named them |
| State.ProcessStateService.AddConnection | ng-vrbpmn/src/app/process-view-ngthree/process-state.service.ts:282-316 | the new connections and counter are `Linked`, and the status follows the verdict, silent for a self-loop or duplicate |
| State.ProcessStateService.SelectNode | ng-vrbpmn/src/app/process-view-ngthree/process-state.service.ts:318-347 | each mode's effect: link clicks, delete, drag selection in move mode, plain selection in add mode; the connection selection is always cleared |
| State.ProcessStateService.LinkClick | ng-vrbpmn/src/app/process-view-ngthree/process-state.service.ts:320-334 | the first click picks the source, a click on the source deselects it, another node gets connected |
| State.ProcessStateService.EndDrag | ng-vrbpmn/src/app/process-view-ngthree/process-state.service.ts:349-351 | no node is dragged |
| State.ProcessStateService.SelectConnection | ng-vrbpmn/src/app/process-view-ngthree/process-state.service.ts:353-358 | only the connection is selected |
| State.ProcessStateService.ClearSelection | ng-vrbpmn/src/app/process-view-ngthree/process-state.service.ts:360-366 | nothing is selected or dragged |
| State.ProcessStateService.ToggleSnap | ng-vrbpmn/src/app/process-view-ngthree/process-state.service.ts:368-371 | snapping flips and the status reports the new value |
| State.ProcessStateService.DeleteSelected | ng-vrbpmn/src/app/process-view-ngthree/process-state.service.ts:373-386 | selected nodes are deleted one by one and the node selection cleared; otherwise the selected connection is deleted; with nothing selected nothing changes |
| State.ProcessStateService.DeleteNodes | ng-vrbpmn/src/app/process-view-ngthree/process-state.service.ts:377 | `deleteNode` on each id in turn removes exactly the nodes with those ids and the connections touching them |
| State.ProcessStateService.ToggleNodeSelection | ng-vrbpmn/src/app/process-view-ngthree/process-state.service.ts:388-404 | outside move mode nothing changes; in move mode the selection is toggled as `ToggledIds` and `ToggledPrimary` say |
| State.ProcessStateService.UpdateNodeName | ng-vrbpmn/src/app/process-view-ngthree/process-state.service.ts:406-412 | the node with the id takes the trimmed name unless it trims to nothing; other nodes are kept |
| State.ProcessStateService.UpdateNodeDescription | ng-vrbpmn/src/app/process-view-ngthree/process-state.service.ts:414-419 | only the description of the node with the id changes |
| State.ProcessStateService.UpdateNodeMultiInstance | ng-vrbpmn/src/app/process-view-ngthree/process-state.service.ts:421-426 | only the multi-instance marker of the node with the id changes |
| State.ProcessStateService.UpdateNodeId | ng-vrbpmn/src/app/process-view-ngthree/process-state.service.ts:428-463 | rejects an empty, invalid, unchanged or taken id with its status; otherwise renames, regenerates every connection id and follows the selection, drag and hover ids |
| State.ProcessStateService.RegenerateConnections | ng-vrbpmn/src/app/process-view-ngthree/process-state.service.ts:446-455 | the `map` over connections computes `Regenerated` and advances the counter once per connection |
| State.ProcessStateService.UpdateProcessId | ng-vrbpmn/src/app/process-view-ngthree/process-state.service.ts:465-481 | empty, invalid and unchanged ids are refused, each with its own status; otherwise the id is taken and the diagram is dirty |
| State.ProcessStateService.UpdateProcessName | ng-vrbpmn/src/app/process-view-ngthree/process-state.service.ts:483-495 | a blank name is refused, an unchanged one ignored; otherwise the trimmed name is taken |
| State.ProcessStateService.OpenModal | ng-vrbpmn/src/app/process-view-ngthree/process-state.service.ts:497-501 | the modal opens only with a selected node |
| State.ProcessStateService.CloseModal | ng-vrbpmn/src/app/process-view-ngthree/process-state.service.ts:503-505 | the modal is closed |
| State.ProcessStateService.ExportDiagramJson | ng-vrbpmn/src/app/process-view-ngthree/process-state.service.ts:507-534 | the record written is `ExportDiagram` of the store, and it imports back as the current diagram when every endpoint exists |
| State.ProcessStateService.ImportDiagramJson | ng-vrbpmn/src/app/process-view-ngthree/process-state.service.ts:566-645 | a file without node or connection arrays changes only the status; otherwise the diagram, process id and name and recovered counters are set, the primary selection, drag and hover ids are cleared, and the diagram is clean |
| State.ProcessStateService.Load | ng-vrbpmn/src/app/process-view-ngthree/process-state.service.ts:619-637 | the accepted lists and the recovered counters are stored and the primary selection, drag and hover ids cleared |
| State.ProcessStateService.ExportBpmnXml | ng-vrbpmn/src/app/process-view-ngthree/process-state.service.ts:670-844 | the document written carries the store's process id, when valid, and its name with white space normalised; with writable ids its elements read back as `Reimported`: the top-level nodes, each subprocess with the setting the descendant search finds, followed by its children |
| State.ProcessStateService.ImportBpmnXml | ng-vrbpmn/src/app/process-view-ngthree/process-state.service.ts:846-1035 | a parse error changes only the status; otherwise process id and name, the recentred and refitted nodes, the shifted connections and the recovered counters are stored and the diagram is clean; the nodes are `Import(doc)`, which reads each multi-instance setting by the same descendant search and each name and id with white space normalised |
| State.ProcessStateService.LoadBpmn | ng-vrbpmn/src/app/process-view-ngthree/process-state.service.ts:877-1026 | the fields after a parsed document: `Import(doc)`, built with the descendant multi-instance search and normalised attribute values, and the counters recovered from it |
| State.ProcessStateService.ReadBpmn | ng-vrbpmn/src/app/process-view-ngthree/process-state.service.ts:995-1021 | the in-place passes over what was read produce `Import(doc)` |
| State.ProcessStateService.ClearFocus | ng-vrbpmn/src/app/process-view-ngthree/process-state.service.ts:630-633 | `selectedNodeId` and the drag and hover ids are cleared; the multi-selection and the selected connection are not touched |
| Bpmn.LocalNameOfTag | ng-vrbpmn/src/app/process-view-ngthree/process-state.service.ts:706-731 | the parser's local name of each `bpmn:` tag is the element name the type is written as |
| Bpmn.TypeRoundTrip | ng-vrbpmn/src/app/process-view-ngthree/process-state.service.ts:706-731 | every node type is read back by `createNode` (lines 918-928) from its tag and message definition |
| Bpmn.TypeIgnoresMessage | ng-vrbpmn/src/app/process-view-ngthree/process-state.service.ts:918-928 | for types other than start and intermediate catch events the message definition does not change the type read |
| Bpmn.TypeDecodeSound | ng-vrbpmn/src/app/process-view-ngthree/process-state.service.ts:918-928 | every element read as type t has the local name the export writes for t; a message event always has a message definition and a plain start event none |
| Bpmn.FirstIn | ng-vrbpmn/src/app/process-view-ngthree/process-state.service.ts:904 | `getElementsByTagNameNS(...)[0]` returns an element with that name, if any |
| Bpmn.FirstChild | ng-vrbpmn/src/app/process-view-ngthree/process-state.service.ts:904 | the first child with the name is a child with that name, and none exists exactly when no child has it |
| Bpmn.PlainTextParses | ng-vrbpmn/src/app/process-view-ngthree/process-state.service.ts:787 | an id with no `&` and no markup reads back with only its white space normalised, although the export does not escape it |
| Bpmn.EscapedTextParses | ng-vrbpmn/src/app/process-view-ngthree/process-state.service.ts:767 | an escaped name reads back as the name with its white space normalised (read at line 938) |
| Bpmn.NodeElements | ng-vrbpmn/src/app/process-view-ngthree/process-state.service.ts:785-788 | one element per child node, in order |
| Bpmn.FlowElements | ng-vrbpmn/src/app/process-view-ngthree/process-state.service.ts:789-791 | one `sequenceFlow` element per flow, in order |
| Bpmn.LoopKind | ng-vrbpmn/src/app/process-view-ngthree/process-state.service.ts:905-907 | a present loop element always reads as parallel or sequential |
| Bpmn.LoopElementRoundTrip | ng-vrbpmn/src/app/process-view-ngthree/process-state.service.ts:771-773 | the loop element written for a setting reads back as that setting (lines 905-907) |
| Bpmn.NoOwnLoopAmong | ng-vrbpmn/src/app/process-view-ngthree/process-state.service.ts:792 | a subprocess's child and flow elements are never its loop characteristics |
| Bpmn.NodeElementsNoLoop | ng-vrbpmn/src/app/process-view-ngthree/process-state.service.ts:785-788 | child node elements are not loop elements |
| Bpmn.FlowElementsNoLoop | ng-vrbpmn/src/app/process-view-ngthree/process-state.service.ts:789-791 | flow elements are not loop elements |
| Bpmn.TagLocalNames | ng-vrbpmn/src/app/process-view-ngthree/process-state.service.ts:706-731 | no node tag collides with the loop, message-definition or sequence-flow names |
| Bpmn.FirstChildAppend | ng-vrbpmn/src/app/process-view-ngthree/process-state.service.ts:904 | the first match in a concatenation is the first match in the first part, else in the second |
| Bpmn.ContentMultiInstance | ng-vrbpmn/src/app/process-view-ngthree/process-state.service.ts:765-778 | the loop element among a node's content is the one written for its own setting |
| Bpmn.SubprocessMultiInstanceRoundTrip | ng-vrbpmn/src/app/process-view-ngthree/process-state.service.ts:792 | with the corrected reading a subprocess element gives back its own multi-instance setting, whatever its children hold |
| Bpmn.NodeMultiInstanceRoundTrip | ng-vrbpmn/src/app/process-view-ngthree/process-state.service.ts:794 | a plain node element gives back its setting under both readings |
| Bpmn.FrontLeaves | ng-vrbpmn/src/app/process-view-ngthree/process-state.service.ts:768-776 | the documentation and message definition elements have no children and are not loop elements |
| Bpmn.MessageDefinitionRoundTrip | ng-vrbpmn/src/app/process-view-ngthree/process-state.service.ts:774-776 | a node element holds a message definition exactly when the node is a message event (lines 910-911) |
| Bpmn.FirstInAppend | ng-vrbpmn/src/app/process-view-ngthree/process-state.service.ts:904 | the descendant search over a concatenation finds the first part's match first |
| Bpmn.FirstInLeaves | ng-vrbpmn/src/app/process-view-ngthree/process-state.service.ts:904 | the search skips childless elements that do not match |
| Bpmn.ParseMultiInstanceReadsChild | ng-vrbpmn/src/app/process-view-ngthree/process-state.service.ts:903-908 | as written, a subprocess with no setting whose first child is multi-instance is read as multi-instance; the corrected reading gives none |
| Bpmn.FirstSetting | ng-vrbpmn/src/app/process-view-ngthree/process-state.service.ts:903-908 | the first multi-instance setting among the nodes: one of theirs, and none exactly when none has one |
| Bpmn.ChildrenLoopBelow | ng-vrbpmn/src/app/process-view-ngthree/process-state.service.ts:903-908 | below the children's elements the search finds the loop element of the first multi-instance child |
| Bpmn.SubprocessMultiInstanceAsWritten | ng-vrbpmn/src/app/process-view-ngthree/process-state.service.ts:903-908 | as written, a subprocess element reads as its own setting, or without one as its first multi-instance child's |
| BpmnExport.LowestX | ng-vrbpmn/src/app/process-view-ngthree/process-state.service.ts:683 | `Math.min(..., 0)` is at most 0 and every scaled x, and is 0 or one of them |
| BpmnExport.LowestY | ng-vrbpmn/src/app/process-view-ngthree/process-state.service.ts:684 | the same for the scaled, flipped y |
| BpmnExport.Shapes | ng-vrbpmn/src/app/process-view-ngthree/process-state.service.ts:801-811 | `shapesXml` holds one shape per node |
| BpmnExport.CentersClearMargin | ng-vrbpmn/src/app/process-view-ngthree/process-state.service.ts:683-686 | every centre the layout draws lies at least the 120 margin from both axes |
| BpmnExport.ShapesClearMargin | ng-vrbpmn/src/app/process-view-ngthree/process-state.service.ts:801-811 | every shape's centre clears the margin, so every shape lies at non-negative coordinates |
| BpmnExport.EdgeOfCases | ng-vrbpmn/src/app/process-view-ngthree/process-state.service.ts:813-823 | a connection gets an edge exactly when both endpoints are nodes, and the edge's waypoints clear the margin |
| BpmnExport.LastWithId | ng-vrbpmn/src/app/process-view-ngthree/process-state.service.ts:741 | `nodeById` returns a node holding the id, and none exactly when no node has it |
| BpmnExport.GroupOf | ng-vrbpmn/src/app/process-view-ngthree/process-state.service.ts:754-756 | a flow is nested exactly when both endpoints have the same truthy parent, and then under that parent |
| BpmnExport.TopLevelFlows | ng-vrbpmn/src/app/process-view-ngthree/process-state.service.ts:752-763 | `topLevelFlows` holds exactly the flows that are not nested |
| BpmnExport.NestedFlows | ng-vrbpmn/src/app/process-view-ngthree/process-state.service.ts:751-759 | `connectionByParent.get(p)` holds exactly the flows nested under p |
| BpmnExport.FlowsPartitioned | ng-vrbpmn/src/app/process-view-ngthree/process-state.service.ts:753-763 | every flow lands in exactly one group: the top level, or one parent |
| BpmnExport.PartitionFlows | ng-vrbpmn/src/app/process-view-ngthree/process-state.service.ts:751-763 | the `forEach` fills the top-level list and the parent map with exactly those groups, with no empty list in the map |
| BpmnExport.FileFlow | ng-vrbpmn/src/app/process-view-ngthree/process-state.service.ts:754-762 | one step of the `forEach` files the next connection into its group |
| BpmnExport.TopElementsOf | ng-vrbpmn/src/app/process-view-ngthree/process-state.service.ts:780-795 | every element of `nodeXml` is the element of a top-level node |
| BpmnExport.TopElementsHave | ng-vrbpmn/src/app/process-view-ngthree/process-state.service.ts:780-795 | every top-level node's element is written |
| BpmnExport.NestedNodeWritten | ng-vrbpmn/src/app/process-view-ngthree/process-state.service.ts:783-788 | a child of a top-level subprocess is written inside that subprocess's element |
| BpmnExport.TopSubprocessWritten | ng-vrbpmn/src/app/process-view-ngthree/process-state.service.ts:783-792 | a top-level subprocess's element is among the process's children |
| BpmnExport.ChildInSubprocess | ng-vrbpmn/src/app/process-view-ngthree/process-state.service.ts:785-788 | each child node is written inside its subprocess's element |
| BpmnExport.FlowInSubprocess | ng-vrbpmn/src/app/process-view-ngthree/process-state.service.ts:789-791 | each inner flow is written inside its subprocess's element |
| BpmnExport.NestedFlowWritten | ng-vrbpmn/src/app/process-view-ngthree/process-state.service.ts:789-792 | a flow between children of a top-level subprocess is written inside that subprocess's element |
| BpmnImport.BoundsById | ng-vrbpmn/src/app/process-view-ngthree/process-state.service.ts:885-896 | every key names a shape holding exactly those bounds, and every shape that names an element and holds bounds gets an entry |
| BpmnImport.EdgePoints | ng-vrbpmn/src/app/process-view-ngthree/process-state.service.ts:969-978 | every point read is a waypoint with two numeric coordinates, mirrored in x and scaled down by 40; none is dropped exactly when every waypoint has both |
| BpmnImport.EdgeWaypoints | ng-vrbpmn/src/app/process-view-ngthree/process-state.service.ts:963-982 | every entry is for a non-empty flow id and holds at least two points, and every edge naming a flow with two numeric waypoints gets one |
| BpmnImport.CreateNode | ng-vrbpmn/src/app/process-view-ngthree/process-state.service.ts:913-945 | an element gives a node exactly when its id is non-empty and its tag (with its message definition) names a known kind; the node keeps that id and the parent given |
| BpmnImport.Yield | ng-vrbpmn/src/app/process-view-ngthree/process-state.service.ts:950-960 | an element gives at most one node, and one exactly when `createNode` does |
| BpmnImport.ImportChildren | ng-vrbpmn/src/app/process-view-ngthree/process-state.service.ts:952-956 | every node read from a subprocess's children has a non-empty id and that subprocess as parent |
| BpmnImport.ImportElementOneLevel | ng-vrbpmn/src/app/process-view-ngthree/process-state.service.ts:947-961 | one element's nodes nest one level deep: each child follows a top-level subprocess holding its parent id |
| BpmnImport.ImportElementsOneLevel | ng-vrbpmn/src/app/process-view-ngthree/process-state.service.ts:947-961 | the same holds for the nodes of all the process's elements |
| BpmnImport.AppendOneLevel | ng-vrbpmn/src/app/process-view-ngthree/process-state.service.ts:947-961 | appending the nodes of one element to those of the earlier ones keeps them one level deep |
| BpmnImport.NodeElementRoundTrip | ng-vrbpmn/src/app/process-view-ngthree/process-state.service.ts:913-945 | the element written for a node with a writable id reads back with the node's kind and marker, its id and name white-space normalised, placed by its shape |
| BpmnImport.NodeElementsRoundTrip | ng-vrbpmn/src/app/process-view-ngthree/process-state.service.ts:952-956 | the elements written for a subprocess's children read back as those children, ids and names normalised, in order, under the subprocess |
| BpmnImport.FlowElementsGiveNoNodes | ng-vrbpmn/src/app/process-view-ngthree/process-state.service.ts:913-928 | sequence flow elements are never read as nodes |
| BpmnImport.ContentGivesNoNodes | ng-vrbpmn/src/app/process-view-ngthree/process-state.service.ts:913-928 | the documentation and loop characteristics inside a subprocess are never read as nodes |
| BpmnImport.IdlessGivesNoNode | ng-vrbpmn/src/app/process-view-ngthree/process-state.service.ts:915-916 | an element without an id is skipped |
| BpmnImport.SubprocessRoundTrip | ng-vrbpmn/src/app/process-view-ngthree/process-state.service.ts:949-957 | a written subprocess reads back as the subprocess, with its own multi-instance setting or else its first multi-instance child's, then each of its children under its normalised id |
| BpmnImport.SubprocessChildrenRoundTrip | ng-vrbpmn/src/app/process-view-ngthree/process-state.service.ts:952-956 | of a written subprocess's children, only the node elements give nodes, and they give the children, ids and names normalised |
| BpmnImport.SubprocessCreated | ng-vrbpmn/src/app/process-view-ngthree/process-state.service.ts:949-951 | a written subprocess is a `subProcess` element read back as the subprocess with the setting `parseMultiInstance` finds below it: its own, else its first multi-instance child's |
| BpmnImport.FlowElementRoundTrip | ng-vrbpmn/src/app/process-view-ngthree/process-state.service.ts:986-992 | a written flow reads back with its id and endpoints white-space normalised, and the waypoints filed under that id |
| BpmnImport.FlowElementsRoundTrip | ng-vrbpmn/src/app/process-view-ngthree/process-state.service.ts:984-993 | written flows read back in order, normalised, keeping exactly those whose read endpoints are imported ids |
| BpmnImport.ImportFlows | ng-vrbpmn/src/app/process-view-ngthree/process-state.service.ts:984-993 | a flow is kept exactly when both its endpoints are imported node ids |
| BpmnImport.LeastX | ng-vrbpmn/src/app/process-view-ngthree/process-state.service.ts:999 | `Math.min` of the x coordinates is at most every one and equal to one |
| BpmnImport.GreatestX | ng-vrbpmn/src/app/process-view-ngthree/process-state.service.ts:1000 | `Math.max` of the x coordinates is at least every one and equal to one |
| BpmnImport.LeastZ | ng-vrbpmn/src/app/process-view-ngthree/process-state.service.ts:1001 | the same for the least z |
| BpmnImport.GreatestZ | ng-vrbpmn/src/app/process-view-ngthree/process-state.service.ts:1002 | the same for the greatest z |
| BpmnImport.Recenter | ng-vrbpmn/src/app/process-view-ngthree/process-state.service.ts:995-1009 | the centre is the middle of the nodes' extent (the origin for none), and every node is moved by minus the centre, nothing else changing |
| BpmnImport.TranslateAll | ng-vrbpmn/src/app/process-view-ngthree/process-state.service.ts:1005-1008 | every node of the array is moved by the same amount, in place |
| BpmnImport.RecenteredIsCentred | ng-vrbpmn/src/app/process-view-ngthree/process-state.service.ts:995-1008 | after recentring, the nodes' extent is centred on the origin in x and in z |
| BpmnImport.ShiftWaypoints | ng-vrbpmn/src/app/process-view-ngthree/process-state.service.ts:1011-1019 | every connection's waypoints move by minus the centre, in place |
| BpmnImport.ShiftKeepsEndpoints | ng-vrbpmn/src/app/process-view-ngthree/process-state.service.ts:1012-1018 | moving waypoints keeps each connection's id and endpoints, and whether it has waypoints |
| BpmnImport.NodeSize | ng-vrbpmn/src/app/process-view-ngthree/process-state.service.ts:1073-1090 | a node's bounds when set, otherwise 1.5 by 1.5 for the round kinds and 1.2 by 1.2 for the others |
| BpmnImport.ExtentX | ng-vrbpmn/src/app/process-view-ngthree/process-state.service.ts:1056-1064 | `maxX` is non-negative and at least every child's reach in x, footprint included |
| BpmnImport.ExtentZ | ng-vrbpmn/src/app/process-view-ngthree/process-state.service.ts:1056-1064 | `maxZ` is non-negative and at least every child's reach in z |
| BpmnImport.HasChild | ng-vrbpmn/src/app/process-view-ngthree/process-state.service.ts:1053-1054 | the children list is non-empty exactly when some node has that parent |
| BpmnImport.AdjustedUpTo | ng-vrbpmn/src/app/process-view-ngthree/process-state.service.ts:1051-1070 | the pass changes only bounds, and only of subprocesses it has visited |
| BpmnImport.ChildExtent | ng-vrbpmn/src/app/process-view-ngthree/process-state.service.ts:1053-1064 | the loop over the nodes computes both reaches and whether there is a child |
| BpmnImport.AdjustSubprocessBounds | ng-vrbpmn/src/app/process-view-ngthree/process-state.service.ts:1041-1071 | the array after the pass is the pass over the old list, step by step |
| BpmnImport.RefitHoldsChildren | ng-vrbpmn/src/app/process-view-ngthree/process-state.service.ts:1066-1069 | a refitted subprocess is at least 1 by 1 and holds every child's footprint with the 0.6 padding to spare |
| BpmnImport.AdjustedHoldsLeafChildren | ng-vrbpmn/src/app/process-view-ngthree/process-state.service.ts:1041-1071 | after the whole pass, a subprocess holds each of its non-subprocess children with the padding to spare |
| BpmnImport.LaterStepsKeep | ng-vrbpmn/src/app/process-view-ngthree/process-state.service.ts:1051-1070 | later steps of the pass leave an earlier node as its own step left it |
| BpmnImport.ReadDiagram | ng-vrbpmn/src/app/process-view-ngthree/process-state.service.ts:995-1021 | the nodes stored are the recentred and refitted nodes read, and the waypoints move only when the centre is not the origin |
| BpmnImport.ImportedProcessId | ng-vrbpmn/src/app/process-view-ngthree/process-state.service.ts:877-881 | the process id changes only to the process element's own id, and stays a valid XML id |
| BpmnImport.ImportedProcessName | ng-vrbpmn/src/app/process-view-ngthree/process-state.service.ts:877-882 | the process name becomes the element's non-empty name, and stays otherwise |
| BpmnImport.ImportedConsistent | ng-vrbpmn/src/app/process-view-ngthree/process-state.service.ts:1023-1026 | the stored diagram is consistent: every endpoint names an imported node, and the derived counters cover every id |
| BpmnImport.RecentredConsistent | ng-vrbpmn/src/app/process-view-ngthree/process-state.service.ts:995-1026 | recentring, refitting and shifting the waypoints keep the read diagram consistent |
| BpmnRoundTrip.TopNodeRoundTrip | ng-vrbpmn/src/app/process-view-ngthree/process-state.service.ts:959-960 | the element written for a top-level node that is not a subprocess reads back as that node alone, id and name normalised |
| BpmnRoundTrip.TopElementRoundTrip | ng-vrbpmn/src/app/process-view-ngthree/process-state.service.ts:947-961 | the element written for a top-level node reads back as the node; a subprocess with the setting the descendant search finds, then its children under its id |
| BpmnRoundTrip.TopElementsRoundTrip | ng-vrbpmn/src/app/process-view-ngthree/process-state.service.ts:780-795 | the elements `nodeXml` writes read back, in order, as each top-level node, a subprocess (with the setting the descendant search finds) followed by its children |
| BpmnRoundTrip.FlowsImportNoNodes | ng-vrbpmn/src/app/process-view-ngthree/process-state.service.ts:947-948 | the process's own sequence flows give no nodes |
| BpmnRoundTrip.ProcessRoundTrip | ng-vrbpmn/src/app/process-view-ngthree/process-state.service.ts:833-836 | the children of the process element written read back as the top-level nodes and their direct children, ids and names normalised, each subprocess with its own setting or else its first multi-instance child's, when every id is non-empty and holds no markup |
| BpmnRoundTrip.NoChildrenInFlat | ng-vrbpmn/src/app/process-view-ngthree/process-state.service.ts:784 | in a diagram without nesting no subprocess has children |
| BpmnRoundTrip.FlatReimported | ng-vrbpmn/src/app/process-view-ngthree/process-state.service.ts:780-795 | without nesting, what is read back is every node, in order, at the top level |
| BpmnRoundTrip.FlatFlowsTopLevel | ng-vrbpmn/src/app/process-view-ngthree/process-state.service.ts:751-763 | without nesting every connection is written at the process level |
| BpmnRoundTrip.FlatRoundTrip | ng-vrbpmn/src/app/process-view-ngthree/process-state.service.ts:984-993 | a diagram without nesting is read back node for node, and every flow between the nodes read back with its id and endpoints, white space normalised |
| BpmnRoundTrip.NestedFlowRoundTrip | ng-vrbpmn/src/app/process-view-ngthree/process-state.service.ts:984-993 | a flow between children of a top-level subprocess is written inside it and, collected by `//bpmn:sequenceFlow`, read back when both its endpoints were |
| BpmnRoundTrip.ValidIdIsPlain | ng-vrbpmn/src/app/process-view-ngthree/process-state.service.ts:1037-1039 | an id matching `isValidXmlId` is non-empty and holds no character the export would have to escape and no white space a parser would normalise |
| BpmnRoundTrip.ProcessAttributesRoundTrip | ng-vrbpmn/src/app/process-view-ngthree/process-state.service.ts:833 | the process element carries the store's id, when valid, and its name unescaped with its white space normalised |
| Footprint.NewBuilder | ng-vrbpmn/src/app/process-view-ngthree/connection-path.builder.ts:11-16 | the builder joins the two nodes; its offset is 0 for a subprocess source and 0.75 otherwise, and it touches a subprocess exactly when either end is one |
| Footprint.NodeOffsetOf | ng-vrbpmn/src/app/process-view-ngthree/connection-path.builder.ts:215-218 | a connection leaves a node 0 out exactly when it is a subprocess, and 0.75 out otherwise |
| Footprint.HalfExtents | ng-vrbpmn/src/app/process-view-ngthree/connection-path.builder.ts:300-311 | half extents of 0.75 for round kinds and 0.6 for tasks; for a subprocess half its outer shell (bounds, or 4 by 3, scaled by 1.05); the radius is the smaller half extent |
| Footprint.Normal | ng-vrbpmn/src/app/process-view-ngthree/connection-path.builder.ts:223-230 | the side normal is a unit axis vector along the dominant axis of the offset, x on a tie, pointing the offset's way, the positive way for a zero component |
| Footprint.SideAnchorAndDir | ng-vrbpmn/src/app/process-view-ngthree/connection-path.builder.ts:249-263 | the anchor is the midpoint of the footprint side facing the other point, and the direction is that side's normal |
| Footprint.NodeAnchor | ng-vrbpmn/src/app/process-view-ngthree/connection-path.builder.ts:220-234 | a subprocess is left at its side anchor; another node 0.8625 (round) or 0.69 (task) from its centre along the normal |
| Footprint.WaypointAnchor | ng-vrbpmn/src/app/process-view-ngthree/connection-path.builder.ts:236-247 | a subprocess uses its node anchor; another node's anchor lies on the ray toward the waypoint, at most 0.75 from its centre |
| Footprint.RayCircleIntersect | ng-vrbpmn/src/app/process-view-ngthree/connection-path.builder.ts:274-283 | nothing exactly when the start is within 1e-4 of the centre; otherwise a point on the segment toward the centre, on the circle from outside, the start itself from inside |
| Footprint.RayRectIntersect | ng-vrbpmn/src/app/process-view-ngthree/connection-path.builder.ts:285-298 | nothing when the start is within 1e-4 of the centre; any hit lies on the segment between start and centre |
| Footprint.FootprintHit | ng-vrbpmn/src/app/process-view-ngthree/connection-path.builder.ts:265-272 | the hit lies on the segment toward the node's centre; a node other than a subprocess is hit on its circle of radius 0.75 |
| ConnectionPath.Elbow | ng-vrbpmn/src/app/process-view-ngthree/connection-path.builder.ts:131-147 | the elbow takes x from one point and z from the other |
| ConnectionPath.ElbowStep | ng-vrbpmn/src/app/process-view-ngthree/connection-path.builder.ts:124-152 | each step of the elbow loop appends at least the next point |
| ConnectionPath.ElbowStepShape | ng-vrbpmn/src/app/process-view-ngthree/connection-path.builder.ts:124-152 | a step keeps what came before, adds at most an elbow and the point, ends at the point, and lines up each point it adds with its predecessor |
| ConnectionPath.ElbowedShape | ng-vrbpmn/src/app/process-view-ngthree/connection-path.builder.ts:123-152 | the elbow stage starts at the first input point, ends at the last one, and each of its points lines up with the next on x or z to within 1e-4 |
| ConnectionPath.DedupedShape | ng-vrbpmn/src/app/process-view-ngthree/connection-path.builder.ts:154-161 | the de-duplicated list starts at the first point, ends within 1e-4 of the last, keeps only input points and has no two consecutive points within 1e-4 |
| ConnectionPath.OrthogonalizedShape | ng-vrbpmn/src/app/process-view-ngthree/connection-path.builder.ts:121-180 | at most two points are returned unchanged; otherwise the result starts at the first input point, ends within 1e-4 of the last, with no two consecutive points within 1e-4 |
| ConnectionPath.Orthogonalize | ng-vrbpmn/src/app/process-view-ngthree/connection-path.builder.ts:121-180 | the three loops compute `Orthogonalized` |
| ConnectionPath.CleanCollinear | ng-vrbpmn/src/app/process-view-ngthree/connection-path.builder.ts:163-179 | the collinear loop, as written, returns its input unchanged |
| ConnectionPath.RoundCorner | ng-vrbpmn/src/app/process-view-ngthree/connection-path.builder.ts:110-115 | the corner radius is positive, at most the requested radius and half of either leg, and the corner is entered and left on the legs at that distance from the point |
| ConnectionPath.CornerTurn | ng-vrbpmn/src/app/process-view-ngthree/connection-path.builder.ts:93-115 | a middle point gives no piece exactly when a leg is shorter than 1e-6; a rounded corner is clamped |
| ConnectionPath.BuildRoundedPath | ng-vrbpmn/src/app/process-view-ngthree/connection-path.builder.ts:78-119 | no piece for fewer than two points, one straight line for two points or a non-positive radius, otherwise the path the loop builds |
| ConnectionPath.RoundedPathChained | ng-vrbpmn/src/app/process-view-ngthree/connection-path.builder.ts:78-119 | the rounded path through at least two points runs without a gap from the first point to the last |
| ConnectionPath.RoundedPathClamped | ng-vrbpmn/src/app/process-view-ngthree/connection-path.builder.ts:110-115 | every rounded corner is drawn about a middle point, entered and left within the radius of it |
| ConnectionPath.FirstFar | ng-vrbpmn/src/app/process-view-ngthree/connection-path.builder.ts:23-26 | the scan stops at the first waypoint more than 1e-4 from the first, past only near ones |
| ConnectionPath.LastFar | ng-vrbpmn/src/app/process-view-ngthree/connection-path.builder.ts:27-30 | the scan back stops at the last waypoint more than 1e-4 from the last, past only near ones |
| ConnectionPath.Anchored | ng-vrbpmn/src/app/process-view-ngthree/connection-path.builder.ts:31-36 | only the two end waypoints are replaced; the middle ones are kept |
| ConnectionPath.ElbowPoints | ng-vrbpmn/src/app/process-view-ngthree/connection-path.builder.ts:59-71 | the automatic polyline has three or four points, from the start to the end, and every leg runs exactly along x or z |
| ConnectionPath.AutoRoute | ng-vrbpmn/src/app/process-view-ngthree/connection-path.builder.ts:42-72 | the automatic route has three or four points and axis-parallel legs |
| ConnectionPath.AnchorWaypoints | ng-vrbpmn/src/app/process-view-ngthree/connection-path.builder.ts:19-37 | the copy into an array, the two scans and the overwrite of the ends compute `Anchored` |
| ConnectionPath.FirstFarIndex | ng-vrbpmn/src/app/process-view-ngthree/connection-path.builder.ts:23-26 | the forward scan finds `FirstFar` |
| ConnectionPath.LastFarIndex | ng-vrbpmn/src/app/process-view-ngthree/connection-path.builder.ts:27-30 | the backward scan finds `LastFar` |
| ConnectionPath.ComputeConnPath | ng-vrbpmn/src/app/process-view-ngthree/connection-path.builder.ts:18-76 | the waypoint route for two or more waypoints, the automatic route otherwise, rounded with radius 0.5 |
| ConnectionPath.AutoRouteEnds | ng-vrbpmn/src/app/process-view-ngthree/connection-path.builder.ts:42-75 | the automatic route is drawn without a gap from its start to its end |
| ConnectionPath.WaypointRouteEnds | ng-vrbpmn/src/app/process-view-ngthree/connection-path.builder.ts:19-40 | a waypoint route is drawn from the source anchor to within 1e-4 of the target anchor, exactly to it for two waypoints, and not at all when fewer than two points remain |
| ConnectionPath.ConnPathEnds | ng-vrbpmn/src/app/process-view-ngthree/connection-path.builder.ts:18-76 | where `computeConnPath` starts and ends drawing, for either kind of route |
| ConnectionPath.BuilderConnPath | ng-vrbpmn/src/app/process-view-ngthree/connection-path.builder.ts:182-184 | the builder's own path is the automatic route between its nodes |
| ConnectionPath.BuilderTubeArgs | ng-vrbpmn/src/app/process-view-ngthree/connection-path.builder.ts:186-189 | the builder's tube is the automatic route, 20 by 8 segments, open, of radius 0.45 when it touches a subprocess and 0.3 otherwise |
| ConnectionPath.GetConnPath | ng-vrbpmn/src/app/process-view-ngthree/connection-path.builder.ts:329-335 | nothing when an endpoint is missing, else the builder's path for the connection |
| ConnectionPath.GetTubeArgs | ng-vrbpmn/src/app/process-view-ngthree/connection-path.builder.ts:342-351 | an empty path of radius 0.3 when an endpoint is missing; otherwise the automatic route, of radius 0.45 exactly when either node is a subprocess |
| ConnectionPath.SideTowardPlusX | ng-vrbpmn/src/app/process-view-ngthree/connection-path.builder.ts:249-263 | a node faces a point straight ahead along +x with its +x side |
| ConnectionPath.SideTowardMinusX | ng-vrbpmn/src/app/process-view-ngthree/connection-path.builder.ts:249-263 | and a point straight behind along -x with its -x side |
| ConnectionPath.ElbowAlongX | ng-vrbpmn/src/app/process-view-ngthree/connection-path.builder.ts:59-69 | facing ends on one line along x get no second elbow: the route repeats its end point |
| ConnectionPath.RoundedRepeatedEnd | ng-vrbpmn/src/app/process-view-ngthree/connection-path.builder.ts:97-99 | a corner whose outgoing leg has length zero is skipped, so three points ending in a repeat draw one line |
| ConnectionPath.TwoNodeRoute | ng-vrbpmn/src/app/process-view-ngthree/connection-path.builder.ts:42-72 | two non-subprocess nodes at (0, 0) and (5, 0) are routed from (0.75, 0) to (4.25, 0) |
| ConnectionPath.TwoNodePath | ng-vrbpmn/src/app/process-view-ngthree/connection-path.builder.ts:18-76 | and drawn as the one straight segment between those points |

## Left out

- JSON text, `localStorage` and the clock (`save`, `loadFromLocalStorage`, ng-vrbpmn/src/app/process-view-ngthree/process-state.service.ts:536-564) are I/O. The JSON export and import are modelled on the record that is written or parsed, not on its text.
- XML text is not modelled: `DOMParser`, XPath evaluation, namespace resolution and the serialised XML string. The export is modelled as the element tree and layout it writes. The import is modelled on the parsed document, given as records.
- `Number` parsing of attribute text is not modelled. A waypoint coordinate that is absent or not a number is `None`, and such a waypoint is skipped, as lines 971-976 do. A shape's `BpmnImport.Box` holds the numbers the parse gives, with an absent `dc:Bounds` attribute counted as 0 (lines 891-894). A non-numeric bounds attribute is not represented. In the source it gives NaN, which passes through `Math.min`/`Math.max` (lines 999-1002) into the centre of that axis, so that coordinate of every imported node becomes NaN. Because NaN differs from 0 (line 1010), every waypoint is then shifted to NaN on that axis as well.
- The `toFixed(1)` rounding of the layout is not modelled.
- The `catch` path of `importBpmnXml` (lines 1030-1034) is not modelled: it is only reached when the DOM or XPath calls throw, and those calls are outside the model.
- Console logging is left out.
- `getArrowPos`, `getArrowQuat`, `getFootprintPos` and `getConnGeometry` sample a three.js curve or build a three.js object, in both the builder and the module. Curve sampling and quaternions are not modelled.
- `isSubprocessNode` (ng-vrbpmn/src/app/process-view-ngthree/connection-path.builder.ts:377-379) is not modelled: nothing in the two classes calls it.
- The anchors `a` and `b` that `computeConnPath` computes and never uses (ng-vrbpmn/src/app/process-view-ngthree/connection-path.builder.ts:42-45) are not modelled. The same goes for the unused `offset` parameter of `getSideAnchorAndDir`.
- Floating-point rounding is not modelled; every tolerance (1e-4, 1e-6, 0.999) is compared exactly.
- ConnectionPath.ElbowedShape: the alignment of consecutive points is stated with `<=` 1e-4 on one axis. Under real arithmetic an elbow can be exactly 1e-4 from its predecessor and so be dropped: for example prevPrev (-5, 0), prev (0, 0) and next (1e-4, 1).
- Footprint.RayRectIntersect: the contract says only that a hit lies on the segment toward the centre. It does not say which side of the rectangle is hit.
- BpmnRoundTrip.ProcessRoundTrip: positions and bounds are not shown to round-trip. The export scales by 80 and the import reads back at 40 with x mirrored, so the layout is not the same after a round trip. Descriptions are not read back either: the import sets them empty. Ids are required to be non-empty and free of markup. Flows nested in a subprocess are read back only under the hypothesis of `BpmnRoundTrip.NestedFlowRoundTrip`: the list `//bpmn:sequenceFlow` selects is given with the parsed document, and the XPath search that builds it is not modelled.
- BpmnExport.NestedNodeWritten: the export writes a node with a set `parentId` only inside the element of a top-level subprocess that its `parentId` names (ng-vrbpmn/src/app/process-view-ngthree/process-state.service.ts:780-795). Every other node with a set `parentId` is left out of the process element. That covers:
  - nodes nested deeper than one level;
  - children of a top-level task, event or gateway, which a JSON import accepts;
  - children whose parent `deleteNode` removed, because it keeps their `parentId`;
  - nodes whose `parentId` names no node.
  The flows grouped under such a parent (lines 754-758) are not written either. Their shapes and edges are still written (lines 801-823), as `BpmnExport.Shapes` and `BpmnExport.EdgeOfCases` state. The model states only what is written.
- The store invariant `Graph.Consistent` is not a postcondition of the service's methods. It is proved at the value level by the `…KeepsConsistent` lemmas of `Graph` and by `State.DefaultDiagramConsistent` and `BpmnImport.ImportedConsistent`.
- State.ProcessStateService.MoveNode: the proof that the breadth-first walk over descendants ends uses a ghost rank that shows the whole parent relation is acyclic. The source loops forever only on a cycle reachable from the moved node. The precondition therefore also excludes hierarchies with a cycle elsewhere, on which the source terminates.

## Notes on the source

- `deleteNode` (ng-vrbpmn/src/app/process-view-ngthree/process-state.service.ts:265-273) leaves the dragged and hovered ids as they were. The model follows the code.
- `deleteNode` also keeps the children of a deleted node, with their `parentId` unchanged. A later BPMN export therefore leaves them out of the process element and writes only their shapes. `BpmnExport.TopElements` filters on `Hierarchy.ParentKey` in the same way.
- `updateNodeId` (ng-vrbpmn/src/app/process-view-ngthree/process-state.service.ts:446-455) regenerates the id of every connection, not only of those touching the renamed node. The model follows the code.
- `importDiagramJson` (lines 630-633) clears only `selectedNodeId` and the drag and hover ids. `selectedNodeIds` and `selectedConnectionId` survive the import and may name elements that no longer exist. `importBpmnXml` clears none of them. The model follows the code.
- `escapeXml` (lines 733-739) leaves tab, line feed and carriage return as they are, and ids are written unescaped. A parser turns each of these characters into a space in an attribute value (sections 2.11 and 3.3.3 of XML 1.0), so a name or id holding one reads back with a space in its place. The round-trip lemmas state the read-back value as `Text.NormalizeSpaces` of the original.
- The collinear pass of `orthogonalizePath` (ng-vrbpmn/src/app/process-view-ngthree/connection-path.builder.ts:163-179) reads its previous point at `cleaned[simplified.length - 1]`. That index is past the end of the list being built, so no point is ever dropped. `ConnectionPath.CleanCollinear` models this as written. The drawn path is unaffected: `buildRoundedPath` draws a straight run through a collinear point.

## Findings

| source | as written | input that shows it | evidently intended | confidence | as-written member | corrected member |
|---|---|---|---|---|---|---|
| ng-vrbpmn/src/app/process-view-ngthree/process-state.service.ts:903-908 | `parseMultiInstance` takes the first `multiInstanceLoopCharacteristics` element anywhere below the element, so inside a subprocess it can find a child's | a subprocess without a multi-instance setting whose first child is a multi-instance task: it is read back as multi-instance | only the subprocess's own loop characteristics count | not executed | Bpmn.ParseMultiInstanceReadsChild | Bpmn.SubprocessMultiInstanceRoundTrip |

The import, `BpmnImport.CreateNode`, reads the marker as the code does, with `Bpmn.ParseMultiInstance`. Its round trips state what the program reads back: `Bpmn.SubprocessMultiInstanceAsWritten` says which setting that is. `Bpmn.OwnMultiInstance` is the corrected reading, which looks only at the element's own children. `Bpmn.SubprocessMultiInstanceRoundTrip` proves that it recovers the subprocess's own setting whatever the children hold.

=== FILE: bpmn.dfy ===
/**
 * The BPMN 2.0 vocabulary shared by `exportBpmnXml` and `importBpmnXml`:
 * the element each node type is written as, the tag rules that read it back,
 * and the parsed form of the elements the export writes.
 *
 * XML text is not modelled.  An `Element` is what a namespace-aware parser
 * reports for one element of the `bpmn:` namespace: its local name, its
 * attribute values after entity expansion, and its child elements in
 * document order.
 */
module Bpmn {
  import opened Diagram
  import Text

  // ---------------------------------------------------------------------------
  // Node types and element names
  // ---------------------------------------------------------------------------

  /** The local part of the element name each node type is written as. */
  function LocalTag(t: NodeType): string {
    match t
    case Start => "startEvent"
    case MessageStart => "startEvent"
    case Terminal => "endEvent"
    case UserTask => "userTask"
    case ServiceTask => "serviceTask"
    case Subprocess => "subProcess"
    case ExclusiveGateway => "exclusiveGateway"
    case ParallelGateway => "parallelGateway"
    case EventGateway => "eventBasedGateway"
    case MessageCatch => "intermediateCatchEvent"
  }

  /** `tagForType`: the qualified element name, in the `bpmn:` namespace. */
  function TagForType(t: NodeType): string {
    "bpmn:" + LocalTag(t)
  }

  /** The local name a parser reports for a `bpmn:`-prefixed tag. */
  function LocalName(tag: string): string {
    if |tag| >= 5 && tag[..5] == "bpmn:" then tag[5..] else tag
  }

  lemma LocalNameOfTag(t: NodeType)
    ensures LocalName(TagForType(t)) == LocalTag(t)
  {
    var tag := TagForType(t);
    assert tag[..5] == "bpmn:" && tag[5..] == LocalTag(t);
  }

  /** The message events, the only nodes written with a `messageEventDefinition`. */
  predicate IsMessageEvent(t: NodeType) {
    t == MessageStart || t == MessageCatch
  }

  /**
   * `createNode`'s tag rules: the type an element's local name decodes to,
   * given whether it holds a message definition; `None` for an element the
   * import skips.  The source's rules test distinct names, so at most one
   * applies and they read as one chain.
   */
  function TypeForElement(localName: string, hasMessageDef: bool): Option<NodeType> {
    if localName == "startEvent" then Some(if hasMessageDef then MessageStart else Start)
    else if localName == "endEvent" then Some(Terminal)
    else if localName == "userTask" then Some(UserTask)
    else if localName == "serviceTask" then Some(ServiceTask)
    else if localName == "exclusiveGateway" then Some(ExclusiveGateway)
    else if localName == "parallelGateway" then Some(ParallelGateway)
    else if localName == "eventBasedGateway" then Some(EventGateway)
    else if localName == "subProcess" then Some(Subprocess)
    else if localName == "intermediateCatchEvent" then (if hasMessageDef then Some(MessageCatch) else None)
    else None
  }

  /** Every node type is read back from its element name and message definition. */
  lemma TypeRoundTrip(t: NodeType)
    ensures TypeForElement(LocalName(TagForType(t)), IsMessageEvent(t)) == Some(t)
  {
    LocalNameOfTag(t);
  }

  /** Only start and intermediate catch events depend on a message definition. */
  lemma TypeIgnoresMessage(t: NodeType, hasMessageDef: bool)
    requires !IsMessageEvent(t) && t != Start
    ensures TypeForElement(LocalName(TagForType(t)), hasMessageDef) == Some(t)
  {
    LocalNameOfTag(t);
  }

  /**
   * Conversely, every element the import turns into a node of type `t` is
   * named as the export writes `t`, and a message event always carries its
   * message definition.
   */
  lemma TypeDecodeSound(localName: string, hasMessageDef: bool, t: NodeType)
    requires TypeForElement(localName, hasMessageDef) == Some(t)
    ensures LocalName(TagForType(t)) == localName
    ensures IsMessageEvent(t) ==> hasMessageDef
    ensures t != Start || !hasMessageDef
  {
    LocalNameOfTag(t);
  }

  // ---------------------------------------------------------------------------
  // Parsed elements
  // ---------------------------------------------------------------------------

  datatype Element = Element(localName: string, attributes: map<string, string>, children: seq<Element>)

  /** `getAttribute`: `None` stands for `null`. */
  function Attr(e: Element, name: string): Option<string> {
    if name in e.attributes then Some(e.attributes[name]) else None
  }

  /**
   * The first element named `name` in the subtrees `cs`, in document order:
   * `getElementsByTagNameNS(ns, name)[0]` on the parent of `cs`, which never
   * returns the element it is called on.
   */
  function FirstIn(cs: seq<Element>, name: string): (r: Option<Element>)
    ensures r.Some? ==> r.value.localName == name
    decreases cs
  {
    if cs == [] then None
    else if cs[0].localName == name then Some(cs[0])
    else match FirstIn(cs[0].children, name)
      case Some(d) => Some(d)
      case None => FirstIn(cs[1..], name)
  }

  /** The first child element named `name`. */
  function FirstChild(cs: seq<Element>, name: string): (r: Option<Element>)
    ensures r.Some? ==> r.value in cs && r.value.localName == name
    ensures r.None? <==> forall c :: c in cs ==> c.localName != name
    decreases |cs|
  {
    if cs == [] then None
    else if cs[0].localName == name then Some(cs[0])
    else FirstChild(cs[1..], name)
  }

  /**
   * The value a parser reports for attribute text written as `raw`: white
   * space normalised (sections 2.11 and 3.3.3 of XML 1.0), then the five
   * predefined entities expanded.
   */
  function ParsedAttribute(raw: string): string {
    Text.Unescape(Text.NormalizeSpaces(raw))
  }

  /** Text the export writes unescaped (ids) holds no `&` and no markup. */
  predicate PlainText(s: string) {
    forall i :: 0 <= i < |s| ==> s[i] != '&' && !Text.IsMarkup(s[i])
  }

  /** Plain text reads back with only its white space normalised, although the export does not escape it. */
  lemma {:induction false} PlainTextParses(s: string)
    requires PlainText(s)
    ensures ParsedAttribute(s) == Text.NormalizeSpaces(s)
    decreases |s|
  {
    if s != [] {
      var k := if |s| >= 2 && s[0] == '\r' && s[1] == '\n' then 2 else 1;
      var tail := s[k..];
      assert PlainText(tail) by {
        forall i | 0 <= i < |tail| ensures tail[i] != '&' && !Text.IsMarkup(tail[i]) {
          assert tail[i] == s[i + k];
        }
      }
      PlainTextParses(tail);
      var head := if Text.IsAttributeSpace(s[0]) then ' ' else s[0];
      assert Text.NormalizeSpaces(s) == [head] + Text.NormalizeSpaces(tail);
      Text.UnescapePlain(head, Text.NormalizeSpaces(tail));
    }
  }

  /** An escaped name reads back with only its white space normalised. */
  lemma EscapedTextParses(s: string)
    ensures ParsedAttribute(Text.EscapeXml(s)) == Text.NormalizeSpaces(s)
  {
    Text.EscapedAttributeRoundTrip(s);
  }

  /** `isSequential="${node.multiInstance === 'sequential'}"`. */
  function SequentialFlag(mi: MultiInstance): string {
    if mi == Sequential then "true" else "false"
  }

  /** The loop characteristics element `buildNodeXml` writes for a multi-instance node. */
  function LoopElement(mi: MultiInstance): Element {
    Element("multiInstanceLoopCharacteristics", map["isSequential" := SequentialFlag(mi)], [])
  }

  /** The documentation element, written when the description is not blank; its text is not modelled. */
  function DocumentationPart(n: Node): seq<Element> {
    if Text.Trim(n.description) != "" then [Element("documentation", map[], [])] else []
  }

  /** The message definition of a message event. */
  function MessagePart(n: Node): seq<Element> {
    if IsMessageEvent(n.nodeType)
    then [Element("messageEventDefinition", map["id" := ParsedAttribute("MessageEvent_" + n.id)], [])]
    else []
  }

  /** The loop characteristics of a multi-instance node. */
  function LoopPart(n: Node): seq<Element> {
    if n.multiInstance != NoMultiInstance then [LoopElement(n.multiInstance)] else []
  }

  /**
   * The content `buildNodeXml` writes inside a node's element: documentation,
   * then the message definition, then the loop characteristics.
   */
  function NodeContent(n: Node): seq<Element> {
    DocumentationPart(n) + MessagePart(n) + LoopPart(n)
  }

  /** The attributes of a node's element: the id as written and the escaped name. */
  function NodeAttributes(n: Node): map<string, string> {
    map["id" := ParsedAttribute(n.id), "name" := ParsedAttribute(Text.EscapeXml(n.name))]
  }

  /** The element of a node without nested content: every node but a top-level subprocess. */
  function NodeElement(n: Node): Element {
    Element(LocalName(TagForType(n.nodeType)), NodeAttributes(n), NodeContent(n))
  }

  function NodeElements(ns: seq<Node>): (r: seq<Element>)
    ensures |r| == |ns|
    ensures forall i :: 0 <= i < |ns| ==> r[i] == NodeElement(ns[i])
    decreases |ns|
  {
    if ns == [] then [] else [NodeElement(ns[0])] + NodeElements(ns[1..])
  }

  /** A `bpmn:sequenceFlow` element. */
  function FlowElement(c: Connection): Element {
    Element("sequenceFlow",
      map["id" := ParsedAttribute(c.id), "sourceRef" := ParsedAttribute(c.sourceId),
          "targetRef" := ParsedAttribute(c.targetId)], [])
  }

  function FlowElements(cs: seq<Connection>): (r: seq<Element>)
    ensures |r| == |cs|
    ensures forall i :: 0 <= i < |cs| ==> r[i] == FlowElement(cs[i])
    decreases |cs|
  {
    if cs == [] then [] else [FlowElement(cs[0])] + FlowElements(cs[1..])
  }

  /** A top-level subprocess's element: its own content, then its children, then its inner flows. */
  function SubprocessElement(n: Node, children: seq<Node>, flows: seq<Connection>): Element {
    Element(LocalName(TagForType(n.nodeType)), NodeAttributes(n),
      NodeContent(n) + NodeElements(children) + FlowElements(flows))
  }

  // ---------------------------------------------------------------------------
  // Reading an element back
  // ---------------------------------------------------------------------------

  /** `hasMessageDef`: some element below holds a `messageEventDefinition`. */
  predicate HasMessageDefinition(e: Element) {
    FirstIn(e.children, "messageEventDefinition").Some?
  }

  /** How one loop characteristics element reads: sequential only for `isSequential="true"`. */
  function LoopKind(mi: Element): (r: MultiInstance)
    ensures r != NoMultiInstance
  {
    if Attr(mi, "isSequential") == Some("true") then Sequential else Parallel
  }

  /**
   * `parseMultiInstance`, as the import calls it: the first loop
   * characteristics element anywhere below `e`, so inside a subprocess it
   * may belong to a child.
   */
  function ParseMultiInstance(e: Element): MultiInstance {
    match FirstIn(e.children, "multiInstanceLoopCharacteristics")
    case None => NoMultiInstance
    case Some(mi) => LoopKind(mi)
  }

  /** The corrected reading: only a loop characteristics child of `e` itself counts. */
  function OwnMultiInstance(e: Element): MultiInstance {
    match FirstChild(e.children, "multiInstanceLoopCharacteristics")
    case None => NoMultiInstance
    case Some(mi) => LoopKind(mi)
  }

  /** Each multi-instance setting is read back from the loop element written for it. */
  lemma LoopElementRoundTrip(mi: MultiInstance)
    requires mi != NoMultiInstance
    ensures LoopKind(LoopElement(mi)) == mi
  {
  }

  /** Node and flow elements are never loop characteristics. */
  lemma NoOwnLoopAmong(ns: seq<Node>, cs: seq<Connection>)
    ensures FirstChild(NodeElements(ns) + FlowElements(cs), "multiInstanceLoopCharacteristics").None?
  {
    NodeElementsNoLoop(ns);
    FlowElementsNoLoop(cs);
    FirstChildAppend(NodeElements(ns), FlowElements(cs), "multiInstanceLoopCharacteristics");
  }

  lemma NodeElementsNoLoop(ns: seq<Node>)
    ensures FirstChild(NodeElements(ns), "multiInstanceLoopCharacteristics").None?
  {
    var es := NodeElements(ns);
    forall i | 0 <= i < |es| ensures es[i].localName != "multiInstanceLoopCharacteristics" {
      TagLocalNames(ns[i].nodeType);
    }
  }

  lemma FlowElementsNoLoop(cs: seq<Connection>)
    ensures FirstChild(FlowElements(cs), "multiInstanceLoopCharacteristics").None?
  {
    var es := FlowElements(cs);
    forall i | 0 <= i < |es| ensures es[i].localName != "multiInstanceLoopCharacteristics" {
      assert es[i].localName == "sequenceFlow";
    }
  }

  /** The local name of every node element starts with a lower-case letter other than `m`. */
  lemma TagLocalNames(t: NodeType)
    ensures LocalName(TagForType(t)) != "multiInstanceLoopCharacteristics"
    ensures LocalName(TagForType(t)) != "messageEventDefinition"
    ensures LocalName(TagForType(t)) != "sequenceFlow"
  {
    LocalNameOfTag(t);
  }

  /**
   * `FirstChild` over a concatenation: the first match in the first part,
   * else the first in the second.
   */
  lemma {:induction false} FirstChildAppend(a: seq<Element>, b: seq<Element>, name: string)
    ensures FirstChild(a + b, name) == if FirstChild(a, name).Some? then FirstChild(a, name) else FirstChild(b, name)
    decreases |a|
  {
    if a != [] {
      assert (a + b)[0] == a[0];
      assert (a + b)[1..] == a[1..] + b;
      if a[0].localName != name {
        FirstChildAppend(a[1..], b, name);
        assert FirstChild(a + b, name) == FirstChild(a[1..] + b, name);
        assert FirstChild(a, name) == FirstChild(a[1..], name);
      }
    } else {
      assert a + b == b;
    }
  }

  /** The loop characteristics a node's content holds are its own. */
  lemma ContentMultiInstance(n: Node)
    ensures FirstChild(NodeContent(n), "multiInstanceLoopCharacteristics") ==
      if n.multiInstance == NoMultiInstance then None else Some(LoopElement(n.multiInstance))
  {
    var front := DocumentationPart(n) + MessagePart(n);
    FirstChildAppend(front, LoopPart(n), "multiInstanceLoopCharacteristics");
    FirstChildAppend(DocumentationPart(n), MessagePart(n), "multiInstanceLoopCharacteristics");
  }

  /**
   * With the corrected reading, a subprocess element gives back the
   * subprocess's own multi-instance setting whatever its children hold.
   */
  lemma SubprocessMultiInstanceRoundTrip(n: Node, children: seq<Node>, flows: seq<Connection>)
    ensures OwnMultiInstance(SubprocessElement(n, children, flows)) == n.multiInstance
  {
    var inner := NodeElements(children) + FlowElements(flows);
    var name := "multiInstanceLoopCharacteristics";
    assert SubprocessElement(n, children, flows).children == NodeContent(n) + inner;
    FirstChildAppend(NodeContent(n), inner, name);
    ContentMultiInstance(n);
    if n.multiInstance == NoMultiInstance {
      NoOwnLoopAmong(children, flows);
      assert FirstChild(NodeContent(n) + inner, name) == None;
    } else {
      LoopElementRoundTrip(n.multiInstance);
      assert FirstChild(NodeContent(n) + inner, name) == Some(LoopElement(n.multiInstance));
    }
  }

  /** The setting of the first node among `ns` that has one. */
  function FirstSetting(ns: seq<Node>): (r: MultiInstance)
    ensures r != NoMultiInstance ==> exists i :: 0 <= i < |ns| && ns[i].multiInstance == r
    ensures r == NoMultiInstance <==> forall i :: 0 <= i < |ns| ==> ns[i].multiInstance == NoMultiInstance
    decreases |ns|
  {
    if ns == [] then NoMultiInstance
    else if ns[0].multiInstance != NoMultiInstance then ns[0].multiInstance
    else
      var r := FirstSetting(ns[1..]);
      assert forall i :: 1 <= i < |ns| ==> ns[i] == ns[1..][i - 1];
      r
  }

  /**
   * The setting `parseMultiInstance` reads from the element written for the
   * subprocess `n` with the children `children`: its own, or else the first
   * child's.
   */
  function ReadBackSetting(n: Node, children: seq<Node>): MultiInstance {
    if n.multiInstance != NoMultiInstance then n.multiInstance else FirstSetting(children)
  }

  /** The search below a node's content finds the node's own loop element. */
  lemma ContentLoopBelow(n: Node)
    ensures FirstIn(NodeContent(n), "multiInstanceLoopCharacteristics") ==
      if n.multiInstance == NoMultiInstance then None else Some(LoopElement(n.multiInstance))
  {
    var front := DocumentationPart(n) + MessagePart(n);
    FrontLeaves(n);
    FirstInLeaves(front, LoopPart(n), "multiInstanceLoopCharacteristics");
    if n.multiInstance != NoMultiInstance {
      assert FirstIn(LoopPart(n), "multiInstanceLoopCharacteristics") == Some(LoopElement(n.multiInstance));
    }
  }

  /** Below the children's elements, the search finds the loop element of the first child that has one. */
  lemma {:induction false} ChildrenLoopBelow(ns: seq<Node>)
    ensures FirstIn(NodeElements(ns), "multiInstanceLoopCharacteristics") ==
      if FirstSetting(ns) == NoMultiInstance then None else Some(LoopElement(FirstSetting(ns)))
    decreases |ns|
  {
    if ns != [] {
      var es := NodeElements(ns);
      assert es[0] == NodeElement(ns[0]) && es[1..] == NodeElements(ns[1..]);
      TagLocalNames(ns[0].nodeType);
      ContentLoopBelow(ns[0]);
      ChildrenLoopBelow(ns[1..]);
    }
  }

  lemma FlowsLoopBelow(cs: seq<Connection>)
    ensures FirstIn(FlowElements(cs), "multiInstanceLoopCharacteristics") == None
  {
    var es := FlowElements(cs);
    assert es + [] == es;
    FirstInLeaves(es, [], "multiInstanceLoopCharacteristics");
  }

  /**
   * As written, the import reads a subprocess's own setting when it has one,
   * and otherwise the setting of its first multi-instance child.
   */
  lemma SubprocessMultiInstanceAsWritten(n: Node, children: seq<Node>, flows: seq<Connection>)
    ensures ParseMultiInstance(SubprocessElement(n, children, flows)) == ReadBackSetting(n, children)
  {
    var name := "multiInstanceLoopCharacteristics";
    var content, kids, fs := NodeContent(n), NodeElements(children), FlowElements(flows);
    assert SubprocessElement(n, children, flows).children == (content + kids) + fs;
    FirstInAppend(content + kids, fs, name);
    FirstInAppend(content, kids, name);
    ContentLoopBelow(n);
    ChildrenLoopBelow(children);
    FlowsLoopBelow(flows);
    var m := ReadBackSetting(n, children);
    if m == NoMultiInstance {
      assert FirstIn(content + kids + fs, name) == None;
    } else {
      assert FirstIn(content + kids + fs, name) == Some(LoopElement(m));
      LoopElementRoundTrip(m);
    }
  }

  /** A node element gives back the node's multi-instance setting, read either way. */
  lemma NodeMultiInstanceRoundTrip(n: Node)
    ensures OwnMultiInstance(NodeElement(n)) == n.multiInstance
    ensures ParseMultiInstance(NodeElement(n)) == n.multiInstance
  {
    ContentMultiInstance(n);
    ContentLoopBelow(n);
  }

  /** The documentation and message definition elements are childless. */
  lemma FrontLeaves(n: Node)
    ensures forall e :: e in DocumentationPart(n) + MessagePart(n) ==>
      e.children == [] && e.localName != "multiInstanceLoopCharacteristics"
  {
    var d: seq<Element>, m: seq<Element> := DocumentationPart(n), MessagePart(n);
    assert |d| <= 1 && |m| <= 1;
    forall i | 0 <= i < |d + m|
      ensures (d + m)[i].children == [] && (d + m)[i].localName != "multiInstanceLoopCharacteristics"
    {
      if i < |d| { assert (d + m)[i] == d[i]; } else { assert (d + m)[i] == m[i - |d|]; }
    }
  }

  /** A node element holds a message definition exactly when the node is a message event. */
  lemma MessageDefinitionRoundTrip(n: Node)
    ensures HasMessageDefinition(NodeElement(n)) <==> IsMessageEvent(n.nodeType)
  {
    var d: seq<Element>, m: seq<Element>, l: seq<Element> := DocumentationPart(n), MessagePart(n), LoopPart(n);
    var name := "messageEventDefinition";
    FirstInAppend(d + m, l, name);
    FirstInAppend(d, m, name);
    assert FirstIn(d, name) == None;
    assert FirstIn(l, name) == None;
    if IsMessageEvent(n.nodeType) {
      assert FirstIn(m, name).Some?;
    }
  }

  /** The search over a concatenation: the first match in the first part, else the first in the second. */
  lemma {:induction false} FirstInAppend(a: seq<Element>, b: seq<Element>, name: string)
    ensures FirstIn(a + b, name) == if FirstIn(a, name).Some? then FirstIn(a, name) else FirstIn(b, name)
    decreases |a|
  {
    if a != [] {
      assert (a + b)[0] == a[0];
      assert (a + b)[1..] == a[1..] + b;
      if a[0].localName != name && FirstIn(a[0].children, name).None? {
        FirstInAppend(a[1..], b, name);
      }
    } else {
      assert a + b == b;
    }
  }

  /** Below childless elements that do not match, the search goes on to what follows. */
  lemma {:induction false} FirstInLeaves(a: seq<Element>, b: seq<Element>, name: string)
    requires forall e :: e in a ==> e.children == [] && e.localName != name
    ensures FirstIn(a + b, name) == FirstIn(b, name)
    decreases |a|
  {
    if a != [] {
      assert (a + b)[0] == a[0];
      assert (a + b)[1..] == a[1..] + b;
      assert forall e :: e in a[1..] ==> e in a;
      assert FirstIn(a[0].children, name) == None;
      FirstInLeaves(a[1..], b, name);
    } else {
      assert a + b == b;
    }
  }

  /**
   * As written, `parseMultiInstance` reports a subprocess without loop
   * characteristics as multi-instance as soon as its first child is: the
   * search runs into the child's element.
   */
  lemma ParseMultiInstanceReadsChild(sub: Node, task: Node)
    requires sub.multiInstance == NoMultiInstance && task.multiInstance != NoMultiInstance
    ensures ParseMultiInstance(SubprocessElement(sub, [task], [])) == task.multiInstance
    ensures OwnMultiInstance(SubprocessElement(sub, [task], [])) == NoMultiInstance
  {
    var te := NodeElement(task);
    var content := NodeContent(sub);
    assert LoopPart(sub) == [];
    assert content == DocumentationPart(sub) + MessagePart(sub);
    assert NodeElements([task]) == [te];
    assert SubprocessElement(sub, [task], []).children == content + [te];
    TagLocalNames(task.nodeType);
    FrontLeaves(sub);
    NodeMultiInstanceRoundTrip(task);
    assert FirstIn([te], "multiInstanceLoopCharacteristics") == FirstIn(te.children, "multiInstanceLoopCharacteristics");
    FirstInLeaves(content, [te], "multiInstanceLoopCharacteristics");
    SubprocessMultiInstanceRoundTrip(sub, [task], []);
  }
}

=== FILE: bpmn_export.dfy ===
/**
 * The structure `exportBpmnXml` writes, before it becomes text: which
 * elements go inside the process and where, and the diagram layout of the
 * shapes and edges.
 *
 * Layout: a node at (x, z) is drawn at (80x, -80z), then every drawing is
 * shifted so that the smallest coordinate (or 0, if none is smaller) lands
 * on the margin 120.  Flows: a connection whose two endpoints share a
 * parent is nested under that parent, every other one is written at the top
 * level.
 */
module BpmnExport {
  import opened Diagram
  import opened Graph
  import opened Hierarchy
  import opened Bpmn
  import Text

  // ---------------------------------------------------------------------------
  // Layout
  // ---------------------------------------------------------------------------

  const ExportScale: real := 80.0
  const Margin: real := 120.0

  /** A point of the diagram-interchange plane, y pointing down. */
  datatype DiPoint = DiPoint(x: real, y: real)

  /** `positions`: a node's scaled drawing position. */
  function Scaled(n: Node): DiPoint {
    DiPoint(n.position.x * ExportScale, -n.position.z * ExportScale)
  }

  /** `Math.min(...positions.map(p => p.x), 0)`. */
  function LowestX(nodes: seq<Node>): (r: real)
    ensures r <= 0.0
    ensures forall i :: 0 <= i < |nodes| ==> r <= Scaled(nodes[i]).x
    ensures r == 0.0 || exists i :: 0 <= i < |nodes| && r == Scaled(nodes[i]).x
    decreases |nodes|
  {
    if nodes == [] then 0.0
    else
      var rest := LowestX(nodes[1..]);
      assert forall i :: 1 <= i < |nodes| ==> nodes[1..][i - 1] == nodes[i];
      Min(Scaled(nodes[0]).x, rest)
  }

  /** `Math.min(...positions.map(p => p.y), 0)`. */
  function LowestY(nodes: seq<Node>): (r: real)
    ensures r <= 0.0
    ensures forall i :: 0 <= i < |nodes| ==> r <= Scaled(nodes[i]).y
    ensures r == 0.0 || exists i :: 0 <= i < |nodes| && r == Scaled(nodes[i]).y
    decreases |nodes|
  {
    if nodes == [] then 0.0
    else
      var rest := LowestY(nodes[1..]);
      assert forall i :: 1 <= i < |nodes| ==> nodes[1..][i - 1] == nodes[i];
      Min(Scaled(nodes[0]).y, rest)
  }

  /**
   * The centre of the shape drawn for `id`: the position of the first node
   * holding it (`positions.find`), shifted by the layout offset.
   */
  function CenterOf(nodes: seq<Node>, id: string): Option<DiPoint> {
    match FindNode(nodes, id)
    case None => None
    case Some(m) =>
      Some(DiPoint(Scaled(m).x + (Margin - LowestX(nodes)), Scaled(m).y + (Margin - LowestY(nodes))))
  }

  /** `shapeForType`: 50 by 50 for the round kinds, 100 by 80 for tasks and subprocesses. */
  function ShapeSize(t: NodeType): Bounds {
    if IsRound(t) then Bounds(50.0, 50.0) else Bounds(100.0, 80.0)
  }

  /** A `BPMNShape` with its `dc:Bounds`. */
  datatype Shape = Shape(bpmnElement: string, x: real, y: real, width: real, height: real)

  /** A `BPMNEdge` with its two waypoints. */
  datatype Edge = Edge(bpmnElement: string, from: DiPoint, to: DiPoint)

  /** The shape of one node of the diagram: its size, centred on its layout centre. */
  function ShapeOf(nodes: seq<Node>, n: Node): Shape
    requires n in nodes
  {
    var c := CenterOf(nodes, n.id).value;
    var size := ShapeSize(n.nodeType);
    Shape(n.id, c.x - size.width / 2.0, c.y - size.height / 2.0, size.width, size.height)
  }

  /** `shapesXml`: one shape per node, in list order. */
  function Shapes(nodes: seq<Node>): (r: seq<Shape>)
    ensures |r| == |nodes|
  {
    seq(|nodes|, i requires 0 <= i < |nodes| => ShapeOf(nodes, nodes[i]))
  }

  /** The edge of one connection: from the source centre to the target centre, when both are drawn. */
  function EdgeOf(nodes: seq<Node>, c: Connection): Option<Edge> {
    var s := CenterOf(nodes, c.sourceId);
    var t := CenterOf(nodes, c.targetId);
    if s.None? || t.None? then None else Some(Edge(c.id, s.value, t.value))
  }

  /** `edgesXml`: the edges of the connections whose endpoints are both drawn, in list order. */
  function Edges(nodes: seq<Node>, conns: seq<Connection>): seq<Edge>
    decreases |conns|
  {
    if conns == [] then []
    else
      (match EdgeOf(nodes, conns[0]) case Some(e) => [e] case None => []) + Edges(nodes, conns[1..])
  }

  /** Every centre the layout draws lies at least the margin away from both axes. */
  lemma CentersClearMargin(nodes: seq<Node>, id: string)
    requires CenterOf(nodes, id).Some?
    ensures CenterOf(nodes, id).value.x >= Margin && CenterOf(nodes, id).value.y >= Margin
  {
    var m := FindNode(nodes, id).value;
    var i :| 0 <= i < |nodes| && nodes[i] == m;
  }

  /**
   * Every shape's centre is at least the margin from both axes, so every
   * shape, whatever its kind, lies at non-negative coordinates.
   */
  lemma ShapesClearMargin(nodes: seq<Node>)
    ensures forall i :: 0 <= i < |nodes| ==>
      Shapes(nodes)[i].x + Shapes(nodes)[i].width / 2.0 >= Margin &&
      Shapes(nodes)[i].y + Shapes(nodes)[i].height / 2.0 >= Margin &&
      Shapes(nodes)[i].x >= 0.0 && Shapes(nodes)[i].y >= 0.0
  {
    forall i | 0 <= i < |nodes|
      ensures Shapes(nodes)[i].x + Shapes(nodes)[i].width / 2.0 >= Margin &&
        Shapes(nodes)[i].y + Shapes(nodes)[i].height / 2.0 >= Margin &&
        Shapes(nodes)[i].x >= 0.0 && Shapes(nodes)[i].y >= 0.0
    {
      CentersClearMargin(nodes, nodes[i].id);
    }
  }

  /** A connection gets an edge exactly when both its endpoints are nodes, and the edge clears the margin. */
  lemma EdgeOfCases(nodes: seq<Node>, c: Connection)
    ensures EdgeOf(nodes, c).Some? <==> c.sourceId in Ids(nodes) && c.targetId in Ids(nodes)
    ensures EdgeOf(nodes, c).Some? ==>
      var e := EdgeOf(nodes, c).value;
      e.bpmnElement == c.id && e.from.x >= Margin && e.from.y >= Margin && e.to.x >= Margin && e.to.y >= Margin
  {
    if EdgeOf(nodes, c).Some? {
      CentersClearMargin(nodes, c.sourceId);
      CentersClearMargin(nodes, c.targetId);
    }
  }

  // ---------------------------------------------------------------------------
  // Flow grouping
  // ---------------------------------------------------------------------------

  /** `nodeById.get(id)`: a `Map` built from the list keeps the last node holding an id. */
  function LastWithId(nodes: seq<Node>, id: string): (r: Option<Node>)
    ensures r.Some? ==> r.value in nodes && r.value.id == id
    ensures r.None? <==> id !in Ids(nodes)
    decreases |nodes|
  {
    if nodes == [] then None
    else if nodes[|nodes| - 1].id == id then Some(nodes[|nodes| - 1])
    else
      assert forall n :: n in nodes[..|nodes| - 1] ==> n in nodes;
      assert nodes == nodes[..|nodes| - 1] + [nodes[|nodes| - 1]];
      LastWithId(nodes[..|nodes| - 1], id)
  }

  /** The truthy parent of the node `nodeById` gives for `id`, if any. */
  function ParentOfId(nodes: seq<Node>, id: string): Option<string> {
    match LastWithId(nodes, id)
    case None => None
    case Some(n) => ParentKey(n)
  }

  /** The parent a connection is nested under, or `None` for the top level. */
  function GroupOf(nodes: seq<Node>, c: Connection): (r: Option<string>)
    ensures r.Some? <==> ParentOfId(nodes, c.sourceId).Some? && ParentOfId(nodes, c.sourceId) == ParentOfId(nodes, c.targetId)
    ensures r.Some? ==> r == ParentOfId(nodes, c.sourceId) && r.value != ""
  {
    var sp := ParentOfId(nodes, c.sourceId);
    if sp.Some? && sp == ParentOfId(nodes, c.targetId) then sp else None
  }

  /** `topLevelFlows`, in list order. */
  function TopLevelFlows(nodes: seq<Node>, conns: seq<Connection>): (r: seq<Connection>)
    ensures forall c :: c in r <==> c in conns && GroupOf(nodes, c).None?
    decreases |conns|
  {
    if conns == [] then []
    else
      var init := conns[..|conns| - 1];
      var last := conns[|conns| - 1];
      assert conns == init + [last];
      TopLevelFlows(nodes, init) + (if GroupOf(nodes, last).None? then [last] else [])
  }

  /** `connectionByParent.get(p) ?? []`, in list order. */
  function NestedFlows(nodes: seq<Node>, conns: seq<Connection>, p: string): (r: seq<Connection>)
    ensures forall c :: c in r <==> c in conns && GroupOf(nodes, c) == Some(p)
    decreases |conns|
  {
    if conns == [] then []
    else
      var init := conns[..|conns| - 1];
      var last := conns[|conns| - 1];
      assert conns == init + [last];
      NestedFlows(nodes, init, p) + (if GroupOf(nodes, last) == Some(p) then [last] else [])
  }

  /** Every connection lands in exactly one group: the top level, or under one parent. */
  lemma FlowsPartitioned(nodes: seq<Node>, conns: seq<Connection>, c: Connection)
    requires c in conns
    ensures c in TopLevelFlows(nodes, conns) <==> GroupOf(nodes, c).None?
    ensures forall p :: c in NestedFlows(nodes, conns, p) <==> GroupOf(nodes, c) == Some(p)
    ensures c in TopLevelFlows(nodes, conns) <==> forall p :: c !in NestedFlows(nodes, conns, p)
  {
    if GroupOf(nodes, c).Some? {
      assert c in NestedFlows(nodes, conns, GroupOf(nodes, c).value);
    }
  }

  /** `topLevel` and `byParent` hold the groups of the connections `filed`. */
  ghost predicate Filed(nodes: seq<Node>, filed: seq<Connection>, topLevel: seq<Connection>,
    byParent: map<string, seq<Connection>>)
  {
    topLevel == TopLevelFlows(nodes, filed) &&
    (forall p :: p in byParent ==> byParent[p] == NestedFlows(nodes, filed, p) && byParent[p] != []) &&
    (forall p :: p !in byParent ==> NestedFlows(nodes, filed, p) == [])
  }

  /**
   * The forEach that files each connection under its group: the list of
   * top-level flows and, for each parent with at least one nested flow, the
   * list of its flows.
   */
  method PartitionFlows(nodes: seq<Node>, conns: seq<Connection>)
    returns (topLevel: seq<Connection>, byParent: map<string, seq<Connection>>)
    ensures topLevel == TopLevelFlows(nodes, conns)
    ensures forall p :: p in byParent ==> byParent[p] == NestedFlows(nodes, conns, p) && byParent[p] != []
    ensures forall p :: p !in byParent ==> NestedFlows(nodes, conns, p) == []
  {
    topLevel, byParent := [], map[];
    for i := 0 to |conns|
      invariant Filed(nodes, conns[..i], topLevel, byParent)
    {
      assert conns[..i + 1] == conns[..i] + [conns[i]];
      topLevel, byParent := FileFlow(nodes, conns[..i], conns[i], topLevel, byParent);
    }
    assert conns[..|conns|] == conns;
  }

  /** One step of the forEach: file `c` after the connections `filed`. */
  method FileFlow(nodes: seq<Node>, filed: seq<Connection>, c: Connection,
    topLevel0: seq<Connection>, byParent0: map<string, seq<Connection>>)
    returns (topLevel: seq<Connection>, byParent: map<string, seq<Connection>>)
    requires Filed(nodes, filed, topLevel0, byParent0)
    ensures Filed(nodes, filed + [c], topLevel, byParent)
  {
    var next := filed + [c];
    assert next[..|next| - 1] == filed && next[|next| - 1] == c;
    var group := GroupOf(nodes, c);
    topLevel, byParent := topLevel0, byParent0;
    if group.Some? {
      var p := group.value;
      var list := if p in byParent then byParent[p] else [];
      byParent := byParent[p := list + [c]];
    } else {
      topLevel := topLevel + [c];
    }
    assert topLevel == TopLevelFlows(nodes, next);
    forall q ensures NestedFlows(nodes, next, q) ==
      NestedFlows(nodes, filed, q) + (if group == Some(q) then [c] else [])
    {
    }
    forall q | q in byParent ensures byParent[q] == NestedFlows(nodes, next, q) && byParent[q] != [] {
      if group != Some(q) {
        assert byParent[q] == byParent0[q];
      }
    }
  }

  // ---------------------------------------------------------------------------
  // The process element
  // ---------------------------------------------------------------------------

  /** The element of a top-level node: a subprocess carries its children and its nested flows. */
  function TopElement(all: seq<Node>, n: Node, conns: seq<Connection>): Element {
    if n.nodeType == Subprocess then SubprocessElement(n, ChildrenOf(all, n.id), NestedFlows(all, conns, n.id))
    else NodeElement(n)
  }

  /** `nodeXml`: the elements of the top-level nodes of `ns`, in list order. */
  function TopElements(all: seq<Node>, ns: seq<Node>, conns: seq<Connection>): seq<Element>
    decreases |ns|
  {
    if ns == [] then []
    else (if ParentKey(ns[0]).Some? then [] else [TopElement(all, ns[0], conns)]) + TopElements(all, ns[1..], conns)
  }

  /** The children of `bpmn:process`: the node elements, then the top-level flows. */
  function ProcessElements(nodes: seq<Node>, conns: seq<Connection>): seq<Element> {
    TopElements(nodes, nodes, conns) + FlowElements(TopLevelFlows(nodes, conns))
  }

  /** The top-level elements are exactly those of the top-level nodes. */
  lemma {:induction false} TopElementsOf(all: seq<Node>, ns: seq<Node>, conns: seq<Connection>, e: Element)
    requires e in TopElements(all, ns, conns)
    ensures exists i :: 0 <= i < |ns| && ParentKey(ns[i]).None? && e == TopElement(all, ns[i], conns)
    decreases |ns|
  {
    var here := if ParentKey(ns[0]).Some? then [] else [TopElement(all, ns[0], conns)];
    assert TopElements(all, ns, conns) == here + TopElements(all, ns[1..], conns);
    if e !in here {
      TopElementsOf(all, ns[1..], conns, e);
      var j :| 0 <= j < |ns[1..]| && ParentKey(ns[1..][j]).None? && e == TopElement(all, ns[1..][j], conns);
      assert ns[1..][j] == ns[j + 1];
    }
  }

  /** Every top-level node has its element among the process's children. */
  lemma {:induction false} TopElementsHave(all: seq<Node>, ns: seq<Node>, conns: seq<Connection>, i: nat)
    requires i < |ns| && ParentKey(ns[i]).None?
    ensures TopElement(all, ns[i], conns) in TopElements(all, ns, conns)
    decreases |ns|
  {
    var rest := TopElements(all, ns[1..], conns);
    if i == 0 {
      assert TopElements(all, ns, conns) == [TopElement(all, ns[0], conns)] + rest;
    } else {
      TopElementsHave(all, ns[1..], conns, i - 1);
      assert ns[1..][i - 1] == ns[i];
      assert TopElements(all, ns, conns) ==
        (if ParentKey(ns[0]).Some? then [] else [TopElement(all, ns[0], conns)]) + rest;
    }
  }

  /** A node nested under a top-level subprocess is written inside that subprocess's element. */
  lemma NestedNodeWritten(nodes: seq<Node>, conns: seq<Connection>, n: Node, i: nat)
    requires n in nodes && ParentKey(n).Some?
    requires i < |nodes| && nodes[i].id == ParentKey(n).value && ParentKey(nodes[i]).None? &&
      nodes[i].nodeType == Subprocess
    ensures var sub := SubprocessElement(nodes[i], ChildrenOf(nodes, nodes[i].id), NestedFlows(nodes, conns, nodes[i].id));
      sub in ProcessElements(nodes, conns) && NodeElement(n) in sub.children
  {
    TopSubprocessWritten(nodes, conns, i);
    var cs := ChildrenOf(nodes, nodes[i].id);
    assert n in cs;
    ChildInSubprocess(nodes[i], cs, NestedFlows(nodes, conns, nodes[i].id), n);
  }

  /** A top-level subprocess's element is among the process's children. */
  lemma TopSubprocessWritten(nodes: seq<Node>, conns: seq<Connection>, i: nat)
    requires i < |nodes| && ParentKey(nodes[i]).None? && nodes[i].nodeType == Subprocess
    ensures SubprocessElement(nodes[i], ChildrenOf(nodes, nodes[i].id), NestedFlows(nodes, conns, nodes[i].id))
      in ProcessElements(nodes, conns)
  {
    TopElementsHave(nodes, nodes, conns, i);
    assert ProcessElements(nodes, conns) == TopElements(nodes, nodes, conns) + FlowElements(TopLevelFlows(nodes, conns));
  }

  /** Each child node is written inside its subprocess's element. */
  lemma ChildInSubprocess(p: Node, cs: seq<Node>, fs: seq<Connection>, n: Node)
    requires n in cs
    ensures NodeElement(n) in SubprocessElement(p, cs, fs).children
  {
    var k :| 0 <= k < |cs| && cs[k] == n;
    var inner := NodeElements(cs);
    assert inner[k] == NodeElement(n);
    assert SubprocessElement(p, cs, fs).children == NodeContent(p) + inner + FlowElements(fs);
    assert SubprocessElement(p, cs, fs).children[|NodeContent(p)| + k] == NodeElement(n);
  }

  /** Each inner flow is written inside its subprocess's element. */
  lemma FlowInSubprocess(p: Node, cs: seq<Node>, fs: seq<Connection>, c: Connection)
    requires c in fs
    ensures FlowElement(c) in SubprocessElement(p, cs, fs).children
  {
    var k :| 0 <= k < |fs| && fs[k] == c;
    var front := NodeContent(p) + NodeElements(cs);
    assert SubprocessElement(p, cs, fs).children == front + FlowElements(fs);
    assert SubprocessElement(p, cs, fs).children[|front| + k] == FlowElement(c);
  }

  /** A flow between two children of a top-level subprocess is written inside that subprocess's element. */
  lemma NestedFlowWritten(nodes: seq<Node>, conns: seq<Connection>, c: Connection, i: nat)
    requires c in conns && GroupOf(nodes, c).Some?
    requires i < |nodes| && nodes[i].id == GroupOf(nodes, c).value && ParentKey(nodes[i]).None? &&
      nodes[i].nodeType == Subprocess
    ensures var sub := SubprocessElement(nodes[i], ChildrenOf(nodes, nodes[i].id), NestedFlows(nodes, conns, nodes[i].id));
      sub in ProcessElements(nodes, conns) && FlowElement(c) in sub.children
  {
    TopSubprocessWritten(nodes, conns, i);
    var fs := NestedFlows(nodes, conns, nodes[i].id);
    assert c in fs;
    FlowInSubprocess(nodes[i], ChildrenOf(nodes, nodes[i].id), fs, c);
  }

  // ---------------------------------------------------------------------------
  // The whole export
  // ---------------------------------------------------------------------------

  /**
   * What `exportBpmnXml` writes, as a parser reads it back: the process
   * element's id and name attributes and its children, and the diagram
   * plane's shapes and edges.
   */
  datatype ExportedDocument = ExportedDocument(
    processId: string, processName: string, elements: seq<Element>, shapes: seq<Shape>, edges: seq<Edge>)

  function ExportDocument(processId: string, processName: string, nodes: seq<Node>, conns: seq<Connection>): ExportedDocument {
    ExportedDocument(ParsedAttribute(processId), ParsedAttribute(Text.EscapeXml(processName)),
      ProcessElements(nodes, conns), Shapes(nodes), Edges(nodes, conns))
  }
}

=== FILE: bpmn_import.dfy ===
/**
 * The structure `importBpmnXml` reads, after parsing: the shape bounds and
 * edge waypoints of the diagram block, the node elements of the process
 * (one level of subprocess nesting) and its sequence flows; then the
 * in-place passes that recentre the nodes, shift the waypoints and refit
 * each subprocess around its children.
 *
 * The parsed document is given as records: `elements` are the children of
 * `bpmn:process`, `flows` every `bpmn:sequenceFlow` in document order.
 * A waypoint coordinate that is missing or not a number is `None`. A shape's
 * bounds are the numbers the parse gives, with a missing attribute counted as
 * 0; a bounds attribute that is not a number is not represented.
 */
module BpmnImport {
  import opened Diagram
  import opened Graph
  import opened Hierarchy
  import opened Bpmn
  import Text

  const ImportScale: real := 40.0
  const FlipX: real := -1.0
  /** The clearance `adjustSubprocessBounds` leaves around the children, on each side. */
  const Padding: real := 0.6

  /** The numbers of a shape's `dc:Bounds`, a missing attribute read as 0. */
  datatype Box = Box(x: real, y: real, w: real, h: real)

  /** A `BPMNShape`: its `bpmnElement` attribute and its first `dc:Bounds`, if any. */
  datatype ShapeRecord = ShapeRecord(bpmnElement: Option<string>, bounds: Option<Box>)

  /** A `di:waypoint`; a coordinate is `None` when absent or not a number. */
  datatype WaypointRecord = WaypointRecord(x: Option<real>, y: Option<real>)

  /** A `BPMNEdge`: its `bpmnElement` attribute and its waypoints in order. */
  datatype EdgeRecord = EdgeRecord(bpmnElement: Option<string>, waypoints: seq<WaypointRecord>)

  /** The `id` and `name` attributes of the first `bpmn:process`. */
  datatype ProcessRecord = ProcessRecord(id: Option<string>, name: Option<string>)

  datatype BpmnDocument = BpmnDocument(
    parseError: bool,
    process: Option<ProcessRecord>,
    elements: seq<Element>,
    shapes: seq<ShapeRecord>,
    edges: seq<EdgeRecord>,
    flows: seq<Element>)

  // ---------------------------------------------------------------------------
  // Diagram block
  // ---------------------------------------------------------------------------

  /** A shape `boundsById` records: one naming an element and holding bounds. */
  predicate Placed(s: ShapeRecord) {
    s.bpmnElement.Some? && s.bpmnElement.value != "" && s.bounds.Some?
  }

  /** `boundsById`: later shapes for the same element replace earlier ones. */
  function BoundsById(shapes: seq<ShapeRecord>): (r: map<string, Box>)
    ensures forall k :: k in r ==>
      k != "" && exists i :: 0 <= i < |shapes| && shapes[i].bpmnElement == Some(k) && shapes[i].bounds == Some(r[k])
    ensures forall i :: 0 <= i < |shapes| && Placed(shapes[i]) ==> shapes[i].bpmnElement.value in r
    decreases |shapes|
  {
    if shapes == [] then map[]
    else
      var init := shapes[..|shapes| - 1];
      var s := shapes[|shapes| - 1];
      var m := BoundsById(init);
      assert forall i :: 0 <= i < |init| ==> init[i] == shapes[i];
      if Placed(s) then m[s.bpmnElement.value := s.bounds.value]
      else m
  }

  /** A waypoint read back: mirrored in x and scaled down by 40. */
  function ImportPoint(x: real, y: real): Point {
    Point((x * FlipX) / ImportScale, -y / ImportScale)
  }

  /** The waypoints of an edge that have two numeric coordinates, in order. */
  function EdgePoints(ws: seq<WaypointRecord>): (r: seq<Point>)
    ensures |r| <= |ws|
    ensures |r| == |ws| <==> forall i :: 0 <= i < |ws| ==> ws[i].x.Some? && ws[i].y.Some?
    ensures forall p :: p in r ==>
      exists i :: 0 <= i < |ws| && ws[i].x.Some? && ws[i].y.Some? && p == ImportPoint(ws[i].x.value, ws[i].y.value)
    decreases |ws|
  {
    if ws == [] then []
    else
      (if ws[0].x.Some? && ws[0].y.Some? then [ImportPoint(ws[0].x.value, ws[0].y.value)] else []) +
      EdgePoints(ws[1..])
  }

  /** An edge `edgeWaypoints` files: one naming a flow and holding at least two numeric waypoints. */
  predicate Drawn(e: EdgeRecord) {
    e.bpmnElement.Some? && e.bpmnElement.value != "" && |EdgePoints(e.waypoints)| >= 2
  }

  /** `edgeWaypoints`: for each flow id, the points of the last edge that has at least two. */
  function EdgeWaypoints(edges: seq<EdgeRecord>): (r: map<string, seq<Point>>)
    ensures forall k :: k in r ==> k != "" && |r[k]| >= 2
    ensures forall i :: 0 <= i < |edges| && Drawn(edges[i]) ==> edges[i].bpmnElement.value in r
    decreases |edges|
  {
    if edges == [] then map[]
    else
      var init := edges[..|edges| - 1];
      var e := edges[|edges| - 1];
      var m := EdgeWaypoints(init);
      var points := EdgePoints(e.waypoints);
      if Drawn(e) then m[e.bpmnElement.value := points]
      else m
  }

  // ---------------------------------------------------------------------------
  // Nodes
  // ---------------------------------------------------------------------------

  /** A node's position read from its shape: the box centre, mirrored in x and scaled down by 40; the origin without one. */
  function ImportPosition(b: Option<Box>): Vec3 {
    var cx := if b.Some? then b.value.x + b.value.w / 2.0 else 0.0;
    var cy := if b.Some? then b.value.y + b.value.h / 2.0 else 0.0;
    Vec3((cx * FlipX) / ImportScale, 0.0, -cy / ImportScale)
  }

  /** A node's bounds read from its shape, scaled down by 40. */
  function ImportBounds(b: Option<Box>): Option<Bounds> {
    if b.Some? then Some(Bounds(b.value.w / ImportScale, b.value.h / ImportScale)) else None
  }

  /**
   * `createNode`: an element with a non-empty id and a known type becomes a
   * node placed by its shape, named by its `name` attribute (or `Node <id>`),
   * with an empty description; any other element is skipped.
   */
  function CreateNode(el: Element, parentId: Option<string>, boxes: map<string, Box>): (r: Option<Node>)
    ensures r.Some? ==> r.value.id != "" && r.value.parentId == parentId
    ensures r.Some? <==>
      (Attr(el, "id").Some? && Attr(el, "id").value != "" && TypeForElement(el.localName, HasMessageDefinition(el)).Some?)
  {
    var id := Attr(el, "id");
    if id.None? || id.value == "" then None
    else
      match TypeForElement(el.localName, HasMessageDefinition(el))
      case None => None
      case Some(t) =>
        var b := Get(boxes, id.value);
        Some(Node(id.value, t, ImportPosition(b), Attr(el, "name").GetOr("Node " + id.value), "",
          ParseMultiInstance(el), parentId, ImportBounds(b)))
  }

  /** The node an element yields, as a list of zero or one nodes. */
  function Yield(el: Element, parentId: Option<string>, boxes: map<string, Box>): (r: seq<Node>)
    ensures |r| <= 1 && (|r| == 1 <==> CreateNode(el, parentId, boxes).Some?)
    ensures |r| == 1 ==> r[0] == CreateNode(el, parentId, boxes).value
  {
    match CreateNode(el, parentId, boxes) case Some(n) => [n] case None => []
  }

  /** The nodes a subprocess's child elements give, each under `parentId`. */
  function ImportChildren(cs: seq<Element>, parentId: Option<string>, boxes: map<string, Box>): (r: seq<Node>)
    ensures forall i :: 0 <= i < |r| ==> r[i].parentId == parentId && r[i].id != ""
    decreases |cs|
  {
    if cs == [] then [] else Yield(cs[0], parentId, boxes) + ImportChildren(cs[1..], parentId, boxes)
  }

  /** A subprocess element gives the subprocess, then its direct children under its id (under none if it is skipped). */
  function SubprocessNodes(el: Element, boxes: map<string, Box>): seq<Node> {
    var sub := CreateNode(el, None, boxes);
    if sub.Some? then [sub.value] + ImportChildren(el.children, Some(sub.value.id), boxes)
    else ImportChildren(el.children, None, boxes)
  }

  function ImportElement(el: Element, boxes: map<string, Box>): seq<Node> {
    if el.localName == "sequenceFlow" then []
    else if el.localName == "subProcess" then SubprocessNodes(el, boxes)
    else Yield(el, None, boxes)
  }

  /**
   * Every imported node has a non-empty id, and one with a parent follows a
   * top-level subprocess holding that id: the import nests one level deep.
   */
  ghost predicate OneLevel(ns: seq<Node>) {
    forall i :: 0 <= i < |ns| ==> ns[i].id != "" && (ns[i].parentId.Some? ==> exists j :: 0 <= j < i && NestsUnder(ns, i, j))
  }

  /** Node `j` is a top-level subprocess holding the parent id of node `i`. */
  predicate NestsUnder(ns: seq<Node>, i: nat, j: nat)
    requires i < |ns| && j < |ns| && ns[i].parentId.Some?
  {
    ns[j].id == ns[i].parentId.value && ns[j].nodeType == Subprocess && ns[j].parentId.None?
  }

  lemma ImportElementOneLevel(el: Element, boxes: map<string, Box>)
    ensures OneLevel(ImportElement(el, boxes))
  {
    var r := ImportElement(el, boxes);
    if el.localName == "subProcess" {
      var sub := CreateNode(el, None, boxes);
      if sub.Some? {
        assert TypeForElement(el.localName, HasMessageDefinition(el)) == Some(Subprocess);
        var kids := ImportChildren(el.children, Some(sub.value.id), boxes);
        assert r == [sub.value] + kids;
        forall i | 0 < i < |r| ensures r[i].id != "" && r[i].parentId.Some? && NestsUnder(r, i, 0) {
          assert r[i] == kids[i - 1];
        }
      }
    }
  }

  /** `elements.forEach`: the nodes of the process's children, in document order. */
  function ImportElements(els: seq<Element>, boxes: map<string, Box>): seq<Node>
    decreases |els|
  {
    if els == [] then [] else ImportElement(els[0], boxes) + ImportElements(els[1..], boxes)
  }

  /** Every imported child comes after the subprocess it was found in, and that subprocess is top-level. */
  lemma {:induction false} ImportElementsOneLevel(els: seq<Element>, boxes: map<string, Box>)
    ensures OneLevel(ImportElements(els, boxes))
    decreases |els|
  {
    if els != [] {
      ImportElementOneLevel(els[0], boxes);
      ImportElementsOneLevel(els[1..], boxes);
      AppendOneLevel(ImportElement(els[0], boxes), ImportElements(els[1..], boxes));
    }
  }

  lemma AppendOneLevel(a: seq<Node>, b: seq<Node>)
    requires OneLevel(a) && OneLevel(b)
    ensures OneLevel(a + b)
  {
    var r := a + b;
    forall i | 0 <= i < |r|
      ensures r[i].id != "" && (r[i].parentId.Some? ==> exists j :: 0 <= j < i && NestsUnder(r, i, j))
    {
      if i < |a| {
        assert r[i] == a[i];
        if r[i].parentId.Some? {
          var j :| 0 <= j < i && NestsUnder(a, i, j);
          assert r[j] == a[j];
          assert NestsUnder(r, i, j);
        }
      } else {
        assert r[i] == b[i - |a|];
        if r[i].parentId.Some? {
          var j :| 0 <= j < i - |a| && NestsUnder(b, i - |a|, j);
          assert r[j + |a|] == b[j];
          assert NestsUnder(r, i, j + |a|);
        }
      }
    }
  }

  // ---------------------------------------------------------------------------
  // What the export writes, read back
  // ---------------------------------------------------------------------------

  /**
   * The node the import builds from the element the export writes for `n`,
   * found under `parentId`: the id and name with their white space
   * normalised, the same kind and multi-instance setting, no description,
   * and position and bounds from the diagram record filed under its id.
   */
  function Recovered(n: Node, parentId: Option<string>, boxes: map<string, Box>): Node {
    var id := Text.NormalizeSpaces(n.id);
    var b := Get(boxes, id);
    Node(id, n.nodeType, ImportPosition(b), Text.NormalizeSpaces(n.name), "", n.multiInstance, parentId, ImportBounds(b))
  }

  /** The subprocess `n` as read back: with the setting the search below its element finds. */
  function RecoveredSubprocess(n: Node, children: seq<Node>, boxes: map<string, Box>): Node {
    Recovered(n.(multiInstance := ReadBackSetting(n, children)), None, boxes)
  }

  function RecoveredAll(ns: seq<Node>, parentId: Option<string>, boxes: map<string, Box>): (r: seq<Node>)
    ensures |r| == |ns|
    decreases |ns|
  {
    if ns == [] then [] else [Recovered(ns[0], parentId, boxes)] + RecoveredAll(ns[1..], parentId, boxes)
  }

  /** Ids the export writes without escaping that the import does not skip. */
  predicate WritableId(id: string) {
    id != "" && PlainText(id)
  }

  /** A node's element is read back as the node, under the parent it is found in. */
  lemma NodeElementRoundTrip(n: Node, parentId: Option<string>, boxes: map<string, Box>)
    requires WritableId(n.id)
    ensures CreateNode(NodeElement(n), parentId, boxes) == Some(Recovered(n, parentId, boxes))
  {
    var e := NodeElement(n);
    var id := Text.NormalizeSpaces(n.id);
    assert Attr(e, "id") == Some(id) && id != "" by {
      PlainTextParses(n.id);
    }
    assert Attr(e, "name") == Some(Text.NormalizeSpaces(n.name)) by {
      EscapedTextParses(n.name);
    }
    assert TypeForElement(e.localName, HasMessageDefinition(e)) == Some(n.nodeType) by {
      MessageDefinitionRoundTrip(n);
      TypeRoundTrip(n.nodeType);
    }
    assert ParseMultiInstance(e) == n.multiInstance by {
      NodeMultiInstanceRoundTrip(n);
    }
    CreateNodeIs(e, parentId, boxes, id, n.nodeType, Text.NormalizeSpaces(n.name), n.multiInstance);
  }

  /** `CreateNode` on an element whose id, type, name and marker are known. */
  lemma CreateNodeIs(e: Element, parentId: Option<string>, boxes: map<string, Box>,
                     id: string, t: NodeType, name: string, multiInstance: MultiInstance)
    requires Attr(e, "id") == Some(id) && id != ""
    requires TypeForElement(e.localName, HasMessageDefinition(e)) == Some(t)
    requires Attr(e, "name") == Some(name) && ParseMultiInstance(e) == multiInstance
    ensures CreateNode(e, parentId, boxes) ==
      Some(Node(id, t, ImportPosition(Get(boxes, id)), name, "", multiInstance, parentId, ImportBounds(Get(boxes, id))))
  {
  }

  /** The nodes' elements are read back as the nodes, in order, under the given parent. */
  lemma {:induction false} NodeElementsRoundTrip(ns: seq<Node>, parentId: Option<string>, boxes: map<string, Box>)
    requires forall i :: 0 <= i < |ns| ==> WritableId(ns[i].id)
    ensures ImportChildren(NodeElements(ns), parentId, boxes) == RecoveredAll(ns, parentId, boxes)
    decreases |ns|
  {
    if ns != [] {
      var es := NodeElements(ns);
      var rest := ns[1..];
      assert es == [NodeElement(ns[0])] + NodeElements(rest);
      assert es[1..] == NodeElements(rest);
      NodeElementRoundTrip(ns[0], parentId, boxes);
      assert Yield(es[0], parentId, boxes) == [Recovered(ns[0], parentId, boxes)];
      assert forall i :: 0 <= i < |rest| ==> rest[i] == ns[i + 1];
      NodeElementsRoundTrip(rest, parentId, boxes);
      assert RecoveredAll(ns, parentId, boxes) == [Recovered(ns[0], parentId, boxes)] + RecoveredAll(rest, parentId, boxes);
    }
  }

  lemma {:induction false} ImportChildrenAppend(a: seq<Element>, b: seq<Element>, parentId: Option<string>,
    boxes: map<string, Box>)
    ensures ImportChildren(a + b, parentId, boxes) == ImportChildren(a, parentId, boxes) + ImportChildren(b, parentId, boxes)
    decreases |a|
  {
    if a != [] {
      var ab := a + b;
      assert ab[0] == a[0] && ab[1..] == a[1..] + b;
      var h := Yield(a[0], parentId, boxes);
      ImportChildrenAppend(a[1..], b, parentId, boxes);
      assert ImportChildren(ab, parentId, boxes) == h + ImportChildren(a[1..] + b, parentId, boxes);
      assert ImportChildren(a, parentId, boxes) == h + ImportChildren(a[1..], parentId, boxes);
    } else {
      assert a + b == b;
    }
  }

  /** Flow elements are never read as nodes. */
  lemma {:induction false} FlowElementsGiveNoNodes(fs: seq<Connection>, parentId: Option<string>, boxes: map<string, Box>)
    ensures ImportChildren(FlowElements(fs), parentId, boxes) == []
    decreases |fs|
  {
    if fs != [] {
      var es := FlowElements(fs);
      assert es[1..] == FlowElements(fs[1..]);
      assert es[0].localName == "sequenceFlow";
      assert TypeForElement("sequenceFlow", HasMessageDefinition(es[0])) == None;
      FlowElementsGiveNoNodes(fs[1..], parentId, boxes);
    }
  }

  /** Documentation and loop characteristics are never read as nodes; a subprocess has no message definition. */
  lemma ContentGivesNoNodes(n: Node, parentId: Option<string>, boxes: map<string, Box>)
    requires n.nodeType == Subprocess
    ensures ImportChildren(NodeContent(n), parentId, boxes) == []
  {
    var d, l := DocumentationPart(n), LoopPart(n);
    assert MessagePart(n) == [];
    assert NodeContent(n) == d + l;
    ImportChildrenAppend(d, l, parentId, boxes);
    if d != [] {
      IdlessGivesNoNode(d[0], parentId, boxes);
    }
    if l != [] {
      assert |"id"| != |"isSequential"|;
      IdlessGivesNoNode(l[0], parentId, boxes);
    }
  }

  /** Elements without an id are never read as nodes. */
  lemma IdlessGivesNoNode(e: Element, parentId: Option<string>, boxes: map<string, Box>)
    requires "id" !in e.attributes
    ensures ImportChildren([e], parentId, boxes) == []
  {
    assert Attr(e, "id").None?;
    assert [e][1..] == [];
  }

  /**
   * A top-level subprocess's element is read back as the subprocess, with
   * the setting the search below it finds, then each of its children under
   * its id, in order; its nested flows give no nodes.
   */
  lemma SubprocessRoundTrip(n: Node, cs: seq<Node>, fs: seq<Connection>, boxes: map<string, Box>)
    requires n.nodeType == Subprocess && WritableId(n.id)
    requires forall i :: 0 <= i < |cs| ==> WritableId(cs[i].id)
    ensures ImportElement(SubprocessElement(n, cs, fs), boxes) ==
      [RecoveredSubprocess(n, cs, boxes)] + RecoveredAll(cs, Some(Text.NormalizeSpaces(n.id)), boxes)
  {
    var e := SubprocessElement(n, cs, fs);
    SubprocessCreated(n, cs, fs, boxes);
    assert ImportElement(e, boxes) == SubprocessNodes(e, boxes);
    SubprocessChildrenRoundTrip(n, cs, fs, boxes);
  }

  lemma SubprocessChildrenRoundTrip(n: Node, cs: seq<Node>, fs: seq<Connection>, boxes: map<string, Box>)
    requires n.nodeType == Subprocess
    requires forall i :: 0 <= i < |cs| ==> WritableId(cs[i].id)
    ensures var p := Some(Text.NormalizeSpaces(n.id));
      ImportChildren(NodeContent(n) + NodeElements(cs) + FlowElements(fs), p, boxes) == RecoveredAll(cs, p, boxes)
  {
    var content, kids, flows := NodeContent(n), NodeElements(cs), FlowElements(fs);
    var p := Some(Text.NormalizeSpaces(n.id));
    assert ImportChildren(content, p, boxes) == [] by {
      ContentGivesNoNodes(n, p, boxes);
    }
    assert ImportChildren(flows, p, boxes) == [] by {
      FlowElementsGiveNoNodes(fs, p, boxes);
    }
    assert ImportChildren(kids, p, boxes) == RecoveredAll(cs, p, boxes) by {
      NodeElementsRoundTrip(cs, p, boxes);
    }
    assert ImportChildren(content + kids, p, boxes) == RecoveredAll(cs, p, boxes) by {
      ImportChildrenAppend(content, kids, p, boxes);
    }
    ImportChildrenAppend(content + kids, flows, p, boxes);
  }

  /**
   * A subprocess's element is read as the subprocess, with its own setting
   * or, without one, the first multi-instance child's.
   */
  lemma SubprocessCreated(n: Node, cs: seq<Node>, fs: seq<Connection>, boxes: map<string, Box>)
    requires n.nodeType == Subprocess && WritableId(n.id)
    ensures var e := SubprocessElement(n, cs, fs);
      e.localName == "subProcess" && CreateNode(e, None, boxes) == Some(RecoveredSubprocess(n, cs, boxes))
  {
    var e := SubprocessElement(n, cs, fs);
    var id := Text.NormalizeSpaces(n.id);
    var mi := ReadBackSetting(n, cs);
    assert e.localName == "subProcess" by {
      LocalNameOfTag(Subprocess);
    }
    assert Attr(e, "id") == Some(id) && id != "" by {
      PlainTextParses(n.id);
    }
    assert Attr(e, "name") == Some(Text.NormalizeSpaces(n.name)) by {
      EscapedTextParses(n.name);
    }
    assert ParseMultiInstance(e) == mi by {
      SubprocessMultiInstanceAsWritten(n, cs, fs);
    }
    assert TypeForElement(e.localName, HasMessageDefinition(e)) == Some(Subprocess) by {
      TypeIgnoresMessage(Subprocess, HasMessageDefinition(e));
    }
    CreateNodeIs(e, None, boxes, id, Subprocess, Text.NormalizeSpaces(n.name), mi);
  }

  /**
   * The connection the import builds from the flow element the export writes
   * for `c`: id and endpoints with their white space normalised, and the
   * waypoints filed under that id.
   */
  function FlowRecovered(c: Connection, ways: map<string, seq<Point>>): Connection {
    var id := Text.NormalizeSpaces(c.id);
    Connection(id, Text.NormalizeSpaces(c.sourceId), Text.NormalizeSpaces(c.targetId), Get(ways, id))
  }

  /** A connection's flow element is read back with its id and endpoints, and the waypoints filed under its id. */
  lemma FlowElementRoundTrip(c: Connection, ways: map<string, seq<Point>>)
    requires WritableId(c.id) && PlainText(c.sourceId) && PlainText(c.targetId)
    ensures ImportFlow(FlowElement(c), ways) == FlowRecovered(c, ways)
  {
    PlainTextParses(c.id);
    PlainTextParses(c.sourceId);
    PlainTextParses(c.targetId);
  }

  /** The flows among `cs` whose endpoints are both in `ids`, as read back. */
  function KeptFlows(cs: seq<Connection>, ids: set<string>, ways: map<string, seq<Point>>): seq<Connection>
    decreases |cs|
  {
    if cs == [] then []
    else
      var f := FlowRecovered(cs[0], ways);
      (if f.sourceId in ids && f.targetId in ids then [f] else []) + KeptFlows(cs[1..], ids, ways)
  }

  /** Flow elements are read back in order, keeping exactly those whose endpoints were imported. */
  lemma {:induction false} FlowElementsRoundTrip(cs: seq<Connection>, ids: set<string>, ways: map<string, seq<Point>>)
    requires forall c :: c in cs ==> WritableId(c.id) && PlainText(c.sourceId) && PlainText(c.targetId)
    ensures ImportFlows(FlowElements(cs), ids, ways) == KeptFlows(cs, ids, ways)
    decreases |cs|
  {
    if cs != [] {
      var es := FlowElements(cs);
      assert es[0] == FlowElement(cs[0]) && es[1..] == FlowElements(cs[1..]);
      assert cs[0] in cs;
      FlowElementRoundTrip(cs[0], ways);
      assert forall c :: c in cs[1..] ==> c in cs;
      FlowElementsRoundTrip(cs[1..], ids, ways);
    }
  }

  // ---------------------------------------------------------------------------
  // Flows
  // ---------------------------------------------------------------------------

  /** A reference attribute inside a template string: `null` prints as `null`. */
  function Shown(v: Option<string>): string {
    v.GetOr("null")
  }

  /** `v || ''`. */
  function OrEmpty(v: Option<string>): string {
    v.GetOr("")
  }

  /**
   * A sequence flow read back: its id (or `Flow_<sourceRef>_<targetRef>`),
   * its endpoints and the waypoints of its edge, if any.
   */
  function ImportFlow(f: Element, ways: map<string, seq<Point>>): Connection {
    var id := Attr(f, "id");
    var source := Attr(f, "sourceRef");
    var target := Attr(f, "targetRef");
    Connection(
      if id.Some? && id.value != "" then id.value else "Flow_" + Shown(source) + "_" + Shown(target),
      OrEmpty(source), OrEmpty(target), Get(ways, OrEmpty(id)))
  }

  /** The flows whose endpoints are both imported node ids, in document order. */
  function ImportFlows(fs: seq<Element>, ids: set<string>, ways: map<string, seq<Point>>): (r: seq<Connection>)
    ensures forall c :: c in r ==> c.sourceId in ids && c.targetId in ids
    ensures forall f :: f in fs && ImportFlow(f, ways).sourceId in ids && ImportFlow(f, ways).targetId in ids ==>
      ImportFlow(f, ways) in r
    decreases |fs|
  {
    if fs == [] then []
    else
      var c := ImportFlow(fs[0], ways);
      assert forall f :: f in fs[1..] ==> f in fs;
      (if c.sourceId in ids && c.targetId in ids then [c] else []) + ImportFlows(fs[1..], ids, ways)
  }

  // ---------------------------------------------------------------------------
  // Recentring
  // ---------------------------------------------------------------------------

  function LeastX(s: seq<Node>): (r: real)
    requires |s| > 0
    ensures forall i :: 0 <= i < |s| ==> r <= s[i].position.x
    ensures exists i :: 0 <= i < |s| && r == s[i].position.x
    decreases |s|
  {
    if |s| == 1 then s[0].position.x
    else
      var rest := LeastX(s[1..]);
      assert forall i :: 1 <= i < |s| ==> s[1..][i - 1] == s[i];
      Min(s[0].position.x, rest)
  }

  function GreatestX(s: seq<Node>): (r: real)
    requires |s| > 0
    ensures forall i :: 0 <= i < |s| ==> s[i].position.x <= r
    ensures exists i :: 0 <= i < |s| && r == s[i].position.x
    decreases |s|
  {
    if |s| == 1 then s[0].position.x
    else
      var rest := GreatestX(s[1..]);
      assert forall i :: 1 <= i < |s| ==> s[1..][i - 1] == s[i];
      Max(s[0].position.x, rest)
  }

  function LeastZ(s: seq<Node>): (r: real)
    requires |s| > 0
    ensures forall i :: 0 <= i < |s| ==> r <= s[i].position.z
    ensures exists i :: 0 <= i < |s| && r == s[i].position.z
    decreases |s|
  {
    if |s| == 1 then s[0].position.z
    else
      var rest := LeastZ(s[1..]);
      assert forall i :: 1 <= i < |s| ==> s[1..][i - 1] == s[i];
      Min(s[0].position.z, rest)
  }

  function GreatestZ(s: seq<Node>): (r: real)
    requires |s| > 0
    ensures forall i :: 0 <= i < |s| ==> s[i].position.z <= r
    ensures exists i :: 0 <= i < |s| && r == s[i].position.z
    decreases |s|
  {
    if |s| == 1 then s[0].position.z
    else
      var rest := GreatestZ(s[1..]);
      assert forall i :: 1 <= i < |s| ==> s[1..][i - 1] == s[i];
      Max(s[0].position.z, rest)
  }

  /** The centre of the nodes' extent in x and z, the origin for no nodes. */
  function CenterX(s: seq<Node>): real {
    if s == [] then 0.0 else (LeastX(s) + GreatestX(s)) / 2.0
  }

  function CenterZ(s: seq<Node>): real {
    if s == [] then 0.0 else (LeastZ(s) + GreatestZ(s)) / 2.0
  }

  /** A node moved by (-cx, -cz); nothing else about it changes. */
  function Shift(n: Node, cx: real, cz: real): Node {
    n.(position := Vec3(n.position.x - cx, n.position.y, n.position.z - cz))
  }

  function Translated(s: seq<Node>, cx: real, cz: real): (r: seq<Node>)
    ensures |r| == |s| && forall i :: 0 <= i < |s| ==> r[i] == Shift(s[i], cx, cz)
  {
    seq(|s|, i requires 0 <= i < |s| => Shift(s[i], cx, cz))
  }

  /**
   * The `nodes.forEach` that moves every node by the centre of the extent;
   * the centre is returned (the origin for no nodes).
   */
  method Recenter(a: array<Node>) returns (cx: real, cz: real)
    modifies a
    ensures cx == CenterX(old(a[..])) && cz == CenterZ(old(a[..]))
    ensures a[..] == Translated(old(a[..]), cx, cz)
  {
    cx, cz := CenterX(a[..]), CenterZ(a[..]);
    TranslateAll(a, cx, cz);
  }

  /** Moves every node of `a` by (-cx, -cz), in place. */
  method TranslateAll(a: array<Node>, cx: real, cz: real)
    modifies a
    ensures a[..] == Translated(old(a[..]), cx, cz)
  {
    ghost var s := a[..];
    for i := 0 to a.Length
      invariant forall k :: 0 <= k < i ==> a[k] == Shift(s[k], cx, cz)
      invariant forall k :: i <= k < a.Length ==> a[k] == s[k]
    {
      a[i] := Shift(a[i], cx, cz);
    }
  }

  /** Moving every node by the centre of their extent leaves an extent centred on the origin. */
  lemma RecenteredIsCentred(s: seq<Node>)
    requires |s| > 0
    ensures var t := Translated(s, CenterX(s), CenterZ(s));
      LeastX(t) + GreatestX(t) == 0.0 && LeastZ(t) + GreatestZ(t) == 0.0
  {
    var cx, cz := CenterX(s), CenterZ(s);
    LeastXShift(s, cx, cz);
    GreatestXShift(s, cx, cz);
    LeastZShift(s, cx, cz);
    GreatestZShift(s, cx, cz);
  }

  /** Translation moves each extreme by the same amount. */
  lemma LeastXShift(s: seq<Node>, cx: real, cz: real)
    requires |s| > 0
    ensures LeastX(Translated(s, cx, cz)) == LeastX(s) - cx
  {
    var t := Translated(s, cx, cz);
    var i :| 0 <= i < |s| && LeastX(s) == s[i].position.x;
    var j :| 0 <= j < |t| && LeastX(t) == t[j].position.x;
    assert LeastX(t) <= t[i].position.x && LeastX(s) <= s[j].position.x;
  }

  lemma GreatestXShift(s: seq<Node>, cx: real, cz: real)
    requires |s| > 0
    ensures GreatestX(Translated(s, cx, cz)) == GreatestX(s) - cx
  {
    var t := Translated(s, cx, cz);
    var i :| 0 <= i < |s| && GreatestX(s) == s[i].position.x;
    var j :| 0 <= j < |t| && GreatestX(t) == t[j].position.x;
    assert GreatestX(t) >= t[i].position.x && GreatestX(s) >= s[j].position.x;
  }

  lemma LeastZShift(s: seq<Node>, cx: real, cz: real)
    requires |s| > 0
    ensures LeastZ(Translated(s, cx, cz)) == LeastZ(s) - cz
  {
    var t := Translated(s, cx, cz);
    var i :| 0 <= i < |s| && LeastZ(s) == s[i].position.z;
    var j :| 0 <= j < |t| && LeastZ(t) == t[j].position.z;
    assert LeastZ(t) <= t[i].position.z && LeastZ(s) <= s[j].position.z;
  }

  lemma GreatestZShift(s: seq<Node>, cx: real, cz: real)
    requires |s| > 0
    ensures GreatestZ(Translated(s, cx, cz)) == GreatestZ(s) - cz
  {
    var t := Translated(s, cx, cz);
    var i :| 0 <= i < |s| && GreatestZ(s) == s[i].position.z;
    var j :| 0 <= j < |t| && GreatestZ(t) == t[j].position.z;
    assert GreatestZ(t) >= t[i].position.z && GreatestZ(s) >= s[j].position.z;
  }

  /** A waypoint moved by (-cx, -cz). */
  function ShiftPoints(ps: seq<Point>, cx: real, cz: real): (r: seq<Point>)
    ensures |r| == |ps| && forall i :: 0 <= i < |ps| ==> r[i] == Point(ps[i].x - cx, ps[i].z - cz)
  {
    seq(|ps|, i requires 0 <= i < |ps| => Point(ps[i].x - cx, ps[i].z - cz))
  }

  /** A connection whose waypoints are moved along with the nodes. */
  function ShiftConnection(c: Connection, cx: real, cz: real): Connection {
    match c.waypoints
    case None => c
    case Some(ps) => c.(waypoints := Some(ShiftPoints(ps, cx, cz)))
  }

  function ShiftedConnections(cs: seq<Connection>, cx: real, cz: real): (r: seq<Connection>)
    ensures |r| == |cs| && forall i :: 0 <= i < |cs| ==> r[i] == ShiftConnection(cs[i], cx, cz)
  {
    seq(|cs|, i requires 0 <= i < |cs| => ShiftConnection(cs[i], cx, cz))
  }

  /** The `connections.forEach` that moves every connection's waypoints by the same centre. */
  method ShiftWaypoints(a: array<Connection>, cx: real, cz: real)
    modifies a
    ensures a[..] == ShiftedConnections(old(a[..]), cx, cz)
  {
    ghost var s := a[..];
    for i := 0 to a.Length
      invariant forall k :: 0 <= k < i ==> a[k] == ShiftConnection(s[k], cx, cz)
      invariant forall k :: i <= k < a.Length ==> a[k] == s[k]
    {
      a[i] := ShiftConnection(a[i], cx, cz);
    }
  }

  /** Moving waypoints keeps every connection's id and endpoints. */
  lemma ShiftKeepsEndpoints(cs: seq<Connection>, cx: real, cz: real)
    ensures forall i :: 0 <= i < |cs| ==>
      var c := ShiftedConnections(cs, cx, cz)[i];
      c.id == cs[i].id && c.sourceId == cs[i].sourceId && c.targetId == cs[i].targetId &&
      (c.waypoints.Some? <==> cs[i].waypoints.Some?)
  {
  }

  // ---------------------------------------------------------------------------
  // Subprocess bounds
  // ---------------------------------------------------------------------------

  /** `getNodeSize`: a node's bounds when set, otherwise 1.5 for the round kinds and 1.2 for the others. */
  function NodeSize(n: Node): (r: Bounds)
    ensures n.bounds.Some? ==> r == n.bounds.value
    ensures n.bounds.None? ==> r == (if IsRound(n.nodeType) then Bounds(1.5, 1.5) else Bounds(1.2, 1.2))
  {
    match n.bounds
    case Some(b) => b
    case None => if IsRound(n.nodeType) then Bounds(1.5, 1.5) else Bounds(1.2, 1.2)
  }

  /** How far a child reaches from a container's centre in x and in z, footprint included. */
  function ReachX(child: Node, node: Node): real {
    Abs(child.position.x - node.position.x) + NodeSize(child).width / 2.0
  }

  function ReachZ(child: Node, node: Node): real {
    Abs(child.position.z - node.position.z) + NodeSize(child).height / 2.0
  }

  /** `maxX` after the children of `node` among the first `k` of `s`, starting from 0. */
  function ExtentX(s: seq<Node>, node: Node, k: nat): (r: real)
    requires k <= |s|
    ensures r >= 0.0
    ensures forall j :: 0 <= j < k && ParentKey(s[j]) == Some(node.id) ==> ReachX(s[j], node) <= r
    decreases k
  {
    if k == 0 then 0.0
    else
      var c := s[k - 1];
      if ParentKey(c) == Some(node.id) then Max(ExtentX(s, node, k - 1), ReachX(c, node)) else ExtentX(s, node, k - 1)
  }

  function ExtentZ(s: seq<Node>, node: Node, k: nat): (r: real)
    requires k <= |s|
    ensures r >= 0.0
    ensures forall j :: 0 <= j < k && ParentKey(s[j]) == Some(node.id) ==> ReachZ(s[j], node) <= r
    decreases k
  {
    if k == 0 then 0.0
    else
      var c := s[k - 1];
      if ParentKey(c) == Some(node.id) then Max(ExtentZ(s, node, k - 1), ReachZ(c, node)) else ExtentZ(s, node, k - 1)
  }

  /** Whether some node among the first `k` of `s` is a child of `id`. */
  function HasChild(s: seq<Node>, id: string, k: nat): (r: bool)
    requires k <= |s|
    ensures r <==> exists j :: 0 <= j < k && ParentKey(s[j]) == Some(id)
    decreases k
  {
    if k == 0 then false else ParentKey(s[k - 1]) == Some(id) || HasChild(s, id, k - 1)
  }

  /** The bounds `adjustSubprocessBounds` gives a container from its children's reach. */
  function FittedBounds(maxX: real, maxZ: real): Bounds {
    Bounds(Max(2.0 * maxX + Padding * 2.0, 1.0), Max(2.0 * maxZ + Padding * 2.0, 1.0))
  }

  /** One step of the pass: node `i` of the current list, refitted if it is a subprocess with children. */
  function Refit(s: seq<Node>, i: nat): Node
    requires i < |s|
  {
    var n := s[i];
    if n.nodeType == Subprocess && HasChild(s, n.id, |s|)
    then n.(bounds := Some(FittedBounds(ExtentX(s, n, |s|), ExtentZ(s, n, |s|))))
    else n
  }

  /** The list after the pass has visited its first `k` nodes, each step seeing the earlier steps' bounds. */
  function AdjustedUpTo(s: seq<Node>, k: nat): (r: seq<Node>)
    requires k <= |s|
    ensures |r| == |s|
    ensures forall i :: 0 <= i < |s| ==> r[i] == s[i].(bounds := r[i].bounds)
    ensures forall i :: 0 <= i < |s| && (k <= i || s[i].nodeType != Subprocess) ==> r[i] == s[i]
    decreases k
  {
    if k == 0 then s
    else
      var t := AdjustedUpTo(s, k - 1);
      t[k - 1 := Refit(t, k - 1)]
  }

  /** `adjustSubprocessBounds`, over the whole list. */
  function Adjusted(s: seq<Node>): (r: seq<Node>)
    ensures |r| == |s|
  {
    AdjustedUpTo(s, |s|)
  }

  /** The children's reach from `node` among the nodes of `a`: the inner `children.forEach`. */
  method ChildExtent(a: array<Node>, node: Node) returns (maxX: real, maxZ: real, found: bool)
    ensures maxX == ExtentX(a[..], node, a.Length) && maxZ == ExtentZ(a[..], node, a.Length)
    ensures found == HasChild(a[..], node.id, a.Length)
  {
    maxX, maxZ, found := 0.0, 0.0, false;
    for j := 0 to a.Length
      invariant maxX == ExtentX(a[..], node, j) && maxZ == ExtentZ(a[..], node, j)
      invariant found == HasChild(a[..], node.id, j)
    {
      var child := a[j];
      if ParentKey(child) == Some(node.id) {
        maxX := Max(maxX, ReachX(child, node));
        maxZ := Max(maxZ, ReachZ(child, node));
        found := true;
      }
    }
  }

  /**
   * `adjustSubprocessBounds`: every subprocess with children, in list order,
   * gets bounds that hold each child's footprint with the padding to spare.
   */
  method AdjustSubprocessBounds(a: array<Node>)
    modifies a
    ensures a[..] == Adjusted(old(a[..]))
  {
    ghost var s := a[..];
    for i := 0 to a.Length
      invariant a[..] == AdjustedUpTo(s, i)
    {
      var node := a[i];
      if node.nodeType == Subprocess {
        var maxX, maxZ, found := ChildExtent(a, node);
        if found {
          a[i] := node.(bounds := Some(FittedBounds(maxX, maxZ)));
        }
      }
    }
  }

  /**
   * A refitted subprocess holds every child's footprint, as the list stood
   * at its step, with at least the padding to spare on each side.
   */
  lemma RefitHoldsChildren(s: seq<Node>, i: nat)
    requires i < |s| && s[i].nodeType == Subprocess && HasChild(s, s[i].id, |s|)
    ensures Refit(s, i).bounds.Some?
    ensures var b := Refit(s, i).bounds.value;
      b.width >= 1.0 && b.height >= 1.0 &&
      forall j :: 0 <= j < |s| && ParentKey(s[j]) == Some(s[i].id) ==>
        ReachX(s[j], s[i]) + Padding <= b.width / 2.0 && ReachZ(s[j], s[i]) + Padding <= b.height / 2.0
  {
  }

  /** The pass leaves node `i` as its own step refitted it. */
  lemma AdjustedAt(s: seq<Node>, i: nat)
    requires i < |s|
    ensures Adjusted(s)[i] == Refit(AdjustedUpTo(s, i), i)
  {
    LaterStepsKeep(s, i + 1, |s|, i);
  }

  /**
   * After the whole pass, every refitted subprocess holds each of its task
   * and event children (whose bounds the pass never changes).
   */
  lemma AdjustedHoldsLeafChildren(s: seq<Node>, i: nat, j: nat)
    requires i < |s| && j < |s| && s[i].nodeType == Subprocess && HasChild(s, s[i].id, |s|)
    requires ParentKey(s[j]) == Some(s[i].id) && s[j].nodeType != Subprocess
    ensures Adjusted(s)[i].bounds.Some? && Adjusted(s)[j] == s[j]
    ensures ReachX(s[j], Adjusted(s)[i]) + Padding <= Adjusted(s)[i].bounds.value.width / 2.0
    ensures ReachZ(s[j], Adjusted(s)[i]) + Padding <= Adjusted(s)[i].bounds.value.height / 2.0
  {
    var t := AdjustedUpTo(s, i);
    assert t[i] == s[i] && t[j] == s[j];
    assert HasChild(t, t[i].id, |t|);
    RefitHoldsChildren(t, i);
    AdjustedAt(s, i);
    ReachByPosition(s[j], Refit(t, i), t[i]);
  }

  /** A child's reach depends on the container's position only. */
  lemma ReachByPosition(c: Node, n: Node, m: Node)
    requires n.position == m.position
    ensures ReachX(c, n) == ReachX(c, m) && ReachZ(c, n) == ReachZ(c, m)
  {
  }

  /** Steps after node `i` leave node `i` as its own step left it. */
  lemma {:induction false} LaterStepsKeep(s: seq<Node>, k: nat, m: nat, i: nat)
    requires i < k <= m <= |s|
    ensures AdjustedUpTo(s, m)[i] == AdjustedUpTo(s, k)[i]
    decreases m - k
  {
    if m > k {
      LaterStepsKeep(s, k, m - 1, i);
    }
  }

  // ---------------------------------------------------------------------------
  // The whole import
  // ---------------------------------------------------------------------------

  /** The nodes read from the process's children, before recentring. */
  function RawNodes(doc: BpmnDocument): seq<Node> {
    ImportElements(doc.elements, BoundsById(doc.shapes))
  }

  /** The connections read from the sequence flows whose endpoints were read as nodes, before recentring. */
  function RawConnections(doc: BpmnDocument): seq<Connection> {
    ImportFlows(doc.flows, Ids(RawNodes(doc)), EdgeWaypoints(doc.edges))
  }

  /** The imported node list: recentred on the origin, then each subprocess refitted around its children. */
  function ImportedNodes(doc: BpmnDocument): seq<Node> {
    var raw := RawNodes(doc);
    Adjusted(Translated(raw, CenterX(raw), CenterZ(raw)))
  }

  /** The imported connections: their waypoints move with the nodes when the centre is not the origin. */
  function ImportedConnections(doc: BpmnDocument): seq<Connection> {
    var raw := RawNodes(doc);
    var cx, cz := CenterX(raw), CenterZ(raw);
    if cx != 0.0 || cz != 0.0 then ShiftedConnections(RawConnections(doc), cx, cz) else RawConnections(doc)
  }

  /**
   * The in-place passes over the nodes and connections read from a
   * document: recentring, shifting the waypoints when the centre moved,
   * and refitting the subprocesses.
   */
  method ReadDiagram(raw: seq<Node>, rawFlows: seq<Connection>) returns (read: seq<Node>, flows: seq<Connection>)
    ensures read == Adjusted(Translated(raw, CenterX(raw), CenterZ(raw)))
    ensures flows == if CenterX(raw) != 0.0 || CenterZ(raw) != 0.0
      then ShiftedConnections(rawFlows, CenterX(raw), CenterZ(raw)) else rawFlows
  {
    var a := new Node[|raw|](i requires 0 <= i < |raw| => raw[i]);
    var b := new Connection[|rawFlows|](i requires 0 <= i < |rawFlows| => rawFlows[i]);
    assert a[..] == raw && b[..] == rawFlows;
    var cx, cz := Recenter(a);
    if cx != 0.0 || cz != 0.0 {
      ShiftWaypoints(b, cx, cz);
    }
    AdjustSubprocessBounds(a);
    read, flows := a[..], b[..];
  }

  /** The node and connection lists `importBpmnXml` stores. */
  datatype ImportedDiagram = ImportedDiagram(nodes: seq<Node>, connections: seq<Connection>)

  function Import(doc: BpmnDocument): ImportedDiagram {
    ImportedDiagram(ImportedNodes(doc), ImportedConnections(doc))
  }

  /** The process id after import: the process element's id when it is non-empty and a valid XML id. */
  function ImportedProcessId(doc: BpmnDocument, current: string): (r: string)
    ensures Text.IsValidXmlId(current) ==> Text.IsValidXmlId(r)
    ensures r != current ==> doc.process.Some? && doc.process.value.id == Some(r)
  {
    match doc.process
    case Some(ProcessRecord(Some(pid), _)) => if pid != "" && Text.IsValidXmlId(pid) then pid else current
    case _ => current
  }

  /** The process name after import: the process element's name when it is non-empty, as written. */
  function ImportedProcessName(doc: BpmnDocument, current: string): (r: string)
    ensures r == current || (doc.process.Some? && doc.process.value.name == Some(r) && r != "")
    ensures doc.process.Some? && doc.process.value.name.Some? && doc.process.value.name.value != "" ==>
      r == doc.process.value.name.value
  {
    match doc.process
    case Some(ProcessRecord(_, Some(pname))) => if pname != "" then pname else current
    case _ => current
  }

  /**
   * The import leaves a consistent store: every imported connection's
   * endpoints name imported nodes, and the counters recovered from the
   * imported ids cover them.
   */
  lemma ImportedConsistent(doc: BpmnDocument)
    ensures EndpointsExist(ImportedNodes(doc), ImportedConnections(doc))
    ensures Consistent(ImportedNodes(doc), ImportedConnections(doc),
      MaxNodeNumber(ImportedNodes(doc)), MaxConnectionNumber(ImportedConnections(doc)))
  {
    var raw, rawConns := RawNodes(doc), RawConnections(doc);
    assert EndpointsExist(raw, rawConns);
    RecentredConsistent(raw, rawConns);
  }

  /** Recentring and refitting the nodes read, and shifting the connections with them, keeps every endpoint. */
  lemma RecentredConsistent(raw: seq<Node>, rawConns: seq<Connection>)
    requires EndpointsExist(raw, rawConns)
    ensures var cx, cz := CenterX(raw), CenterZ(raw);
      var nodes := Adjusted(Translated(raw, cx, cz));
      var conns := if cx != 0.0 || cz != 0.0 then ShiftedConnections(rawConns, cx, cz) else rawConns;
      Consistent(nodes, conns, MaxNodeNumber(nodes), MaxConnectionNumber(conns))
  {
    var cx, cz := CenterX(raw), CenterZ(raw);
    var nodes := Adjusted(Translated(raw, cx, cz));
    var conns := if cx != 0.0 || cz != 0.0 then ShiftedConnections(rawConns, cx, cz) else rawConns;
    ShiftKeepsEndpoints(rawConns, cx, cz);
    SameEndpointsConsistent(raw, rawConns, nodes, conns);
  }

  /** Nodes with the same ids in the same places and connections with the same endpoints stay consistent. */
  lemma SameEndpointsConsistent(raw: seq<Node>, rawConns: seq<Connection>, nodes: seq<Node>, conns: seq<Connection>)
    requires EndpointsExist(raw, rawConns)
    requires |nodes| == |raw| && forall i :: 0 <= i < |raw| ==> nodes[i].id == raw[i].id
    requires |conns| == |rawConns| && forall i :: 0 <= i < |conns| ==>
      conns[i].sourceId == rawConns[i].sourceId && conns[i].targetId == rawConns[i].targetId
    ensures Consistent(nodes, conns, MaxNodeNumber(nodes), MaxConnectionNumber(conns))
  {
    MaxNodeNumberIsMax(raw);
    SameIdsKeepInvariants(raw, nodes, rawConns, MaxNodeNumber(raw));
    forall c | c in conns ensures c.sourceId in Ids(nodes) && c.targetId in Ids(nodes) {
      var i :| 0 <= i < |conns| && conns[i] == c;
      assert rawConns[i] in rawConns;
    }
    MaxNodeNumberIsMax(nodes);
    MaxConnectionNumberIsMax(conns);
  }
}

=== FILE: bpmn_roundtrip.dfy ===
// Reading back what the BPMN export writes: the process element's
// children, as the import walks them, give the diagram's top-level nodes
// and the children of its top-level subprocesses, and its sequence flows
// give the connections whose endpoints were read back. Layout (shapes and
// edges) is not part of this: the export and the import use different
// scales and the import mirrors x, so positions do not round-trip. Names
// and ids come back with their white space normalised, as a parser reports
// attribute values.

module BpmnRoundTrip {
  import opened Diagram
  import opened Graph
  import opened Hierarchy
  import opened Bpmn
  import opened BpmnExport
  import opened BpmnImport
  import Text

  /**
   * What the import gives back for the nodes `ns` of the diagram `all`, in
   * the order the export writes them: each top-level node, and right after
   * a top-level subprocess its direct children, under its id. Nodes nested
   * deeper, and children of a top-level node that is not a subprocess, are
   * not written and so not read back. A subprocess reads back with the
   * setting `parseMultiInstance` finds below its element.
   */
  function Reimported(all: seq<Node>, ns: seq<Node>, boxes: map<string, Box>): seq<Node>
    decreases |ns|
  {
    if ns == [] then []
    else
      var n := ns[0];
      var here :=
        if ParentKey(n).Some? then []
        else if n.nodeType == Subprocess then SubprocessReimported(all, n, boxes)
        else [Recovered(n, None, boxes)];
      here + Reimported(all, ns[1..], boxes)
  }

  /** A top-level subprocess as read back: itself, then its direct children under its id. */
  function SubprocessReimported(all: seq<Node>, n: Node, boxes: map<string, Box>): seq<Node> {
    var cs := ChildrenOf(all, n.id);
    [RecoveredSubprocess(n, cs, boxes)] + RecoveredAll(cs, Some(Text.NormalizeSpaces(n.id)), boxes)
  }

  lemma {:induction false} ImportElementsAppend(a: seq<Element>, b: seq<Element>, boxes: map<string, Box>)
    ensures ImportElements(a + b, boxes) == ImportElements(a, boxes) + ImportElements(b, boxes)
    decreases |a|
  {
    if a == [] {
      assert a + b == b;
    } else {
      var ab := a + b;
      assert ab[0] == a[0] && ab[1..] == a[1..] + b;
      var head := ImportElement(a[0], boxes);
      ImportElementsAppend(a[1..], b, boxes);
      calc {
        ImportElements(ab, boxes);
        head + ImportElements(a[1..] + b, boxes);
        head + (ImportElements(a[1..], boxes) + ImportElements(b, boxes));
        (head + ImportElements(a[1..], boxes)) + ImportElements(b, boxes);
      }
    }
  }

  lemma ImportSingle(e: Element, boxes: map<string, Box>)
    ensures ImportElements([e], boxes) == ImportElement(e, boxes)
  {
    assert [e][1..] == [];
  }

  /** A top-level node that is not a subprocess is read back on its own. */
  lemma TopNodeRoundTrip(n: Node, boxes: map<string, Box>)
    requires n.nodeType != Subprocess && WritableId(n.id)
    ensures ImportElement(NodeElement(n), boxes) == [Recovered(n, None, boxes)]
  {
    LocalNameOfTag(n.nodeType);
    NodeElementRoundTrip(n, None, boxes);
  }

  lemma ChildrenWritable(all: seq<Node>, p: string)
    requires forall m :: m in all ==> WritableId(m.id)
    ensures var cs := ChildrenOf(all, p); forall i :: 0 <= i < |cs| ==> WritableId(cs[i].id)
  {
    var cs := ChildrenOf(all, p);
    forall i | 0 <= i < |cs| ensures WritableId(cs[i].id) {
      assert cs[i] in cs;
    }
  }

  /** The element written for one top-level node is read back as `Reimported` says. */
  lemma TopElementRoundTrip(all: seq<Node>, n: Node, conns: seq<Connection>, boxes: map<string, Box>)
    requires forall m :: m in all ==> WritableId(m.id)
    requires WritableId(n.id)
    ensures ImportElement(TopElement(all, n, conns), boxes) ==
      (if n.nodeType == Subprocess then SubprocessReimported(all, n, boxes) else [Recovered(n, None, boxes)])
  {
    if n.nodeType == Subprocess {
      ChildrenWritable(all, n.id);
      SubprocessRoundTrip(n, ChildrenOf(all, n.id), NestedFlows(all, conns, n.id), boxes);
    } else {
      TopNodeRoundTrip(n, boxes);
    }
  }

  lemma {:induction false} TopElementsRoundTrip(all: seq<Node>, ns: seq<Node>, conns: seq<Connection>,
    boxes: map<string, Box>)
    requires forall m :: m in all ==> WritableId(m.id)
    requires forall m :: m in ns ==> m in all
    ensures ImportElements(TopElements(all, ns, conns), boxes) == Reimported(all, ns, boxes)
    decreases |ns|
  {
    if ns != [] {
      var here := if ParentKey(ns[0]).Some? then [] else [TopElement(all, ns[0], conns)];
      var rest := TopElements(all, ns[1..], conns);
      assert TopElements(all, ns, conns) == here + rest;
      ImportElementsAppend(here, rest, boxes);
      assert forall m :: m in ns[1..] ==> m in ns;
      TopElementsRoundTrip(all, ns[1..], conns, boxes);
      if here != [] {
        assert ns[0] in ns;
        ImportSingle(here[0], boxes);
        TopElementRoundTrip(all, ns[0], conns, boxes);
      }
    }
  }

  /** The process's own sequence flows give no nodes. */
  lemma {:induction false} FlowsImportNoNodes(fs: seq<Connection>, boxes: map<string, Box>)
    ensures ImportElements(FlowElements(fs), boxes) == []
    decreases |fs|
  {
    if fs != [] {
      var es := FlowElements(fs);
      assert es == [es[0]] + FlowElements(fs[1..]);
      ImportElementsAppend([es[0]], FlowElements(fs[1..]), boxes);
      ImportSingle(es[0], boxes);
      FlowsImportNoNodes(fs[1..], boxes);
    }
  }

  /**
   * Reading back the children of the process element the export writes
   * gives the nodes `Reimported` describes, provided every id is non-empty
   * and contains no markup.
   */
  lemma ProcessRoundTrip(nodes: seq<Node>, conns: seq<Connection>, boxes: map<string, Box>)
    requires forall m :: m in nodes ==> WritableId(m.id)
    ensures ImportElements(ProcessElements(nodes, conns), boxes) == Reimported(nodes, nodes, boxes)
  {
    var tops, flows := TopElements(nodes, nodes, conns), FlowElements(TopLevelFlows(nodes, conns));
    ImportElementsAppend(tops, flows, boxes);
    TopElementsRoundTrip(nodes, nodes, conns, boxes);
    FlowsImportNoNodes(TopLevelFlows(nodes, conns), boxes);
  }

  /** A predicate for a diagram with no nesting. */
  predicate Flat(nodes: seq<Node>) {
    forall m :: m in nodes ==> ParentKey(m).None?
  }

  lemma NoChildrenInFlat(all: seq<Node>, p: string)
    requires Flat(all)
    ensures ChildrenOf(all, p) == []
  {
    var cs := ChildrenOf(all, p);
    assert forall c :: c !in cs;
  }

  lemma {:induction false} FlatReimported(all: seq<Node>, ns: seq<Node>, boxes: map<string, Box>)
    requires Flat(all) && Flat(ns)
    ensures Reimported(all, ns, boxes) == RecoveredAll(ns, None, boxes)
    decreases |ns|
  {
    if ns != [] {
      assert ns[0] in ns;
      assert forall m :: m in ns[1..] ==> m in ns;
      NoChildrenInFlat(all, ns[0].id);
      FlatReimported(all, ns[1..], boxes);
    }
  }

  /** In a diagram with no nesting every connection is written at the process level. */
  lemma {:induction false} FlatFlowsTopLevel(nodes: seq<Node>, conns: seq<Connection>)
    requires Flat(nodes)
    ensures TopLevelFlows(nodes, conns) == conns
    decreases |conns|
  {
    if conns != [] {
      var init, last := conns[..|conns| - 1], conns[|conns| - 1];
      FlatFlowsTopLevel(nodes, init);
      assert GroupOf(nodes, last).None?;
      assert init + [last] == conns;
    }
  }

  /**
   * A diagram with no nesting, whose ids are non-empty and contain no
   * markup, is read back node for node in order, and every connection
   * whose endpoints are among the nodes read back is read back with its id
   * and endpoints.
   */
  lemma FlatRoundTrip(nodes: seq<Node>, conns: seq<Connection>, boxes: map<string, Box>, ways: map<string, seq<Point>>)
    requires Flat(nodes)
    requires forall m :: m in nodes ==> WritableId(m.id)
    requires forall c :: c in conns ==> WritableId(c.id) && PlainText(c.sourceId) && PlainText(c.targetId)
    ensures ImportElements(ProcessElements(nodes, conns), boxes) == RecoveredAll(nodes, None, boxes)
    ensures var ids := Ids(RecoveredAll(nodes, None, boxes));
      ImportFlows(FlowElements(TopLevelFlows(nodes, conns)), ids, ways) == KeptFlows(conns, ids, ways)
  {
    ProcessRoundTrip(nodes, conns, boxes);
    FlatReimported(nodes, nodes, boxes);
    FlatFlowsTopLevel(nodes, conns);
    FlowElementsRoundTrip(conns, Ids(RecoveredAll(nodes, None, boxes)), ways);
  }

  /**
   * A flow between two children of a top-level subprocess is written inside
   * that subprocess's element; when the sequence flows the parser collects
   * include the ones below that element, it is read back with its id and
   * endpoints as soon as both endpoints were read back.
   */
  lemma NestedFlowRoundTrip(nodes: seq<Node>, conns: seq<Connection>, c: Connection, i: nat,
    fs: seq<Element>, ids: set<string>, ways: map<string, seq<Point>>)
    requires c in conns && GroupOf(nodes, c).Some?
    requires i < |nodes| && nodes[i].id == GroupOf(nodes, c).value && ParentKey(nodes[i]).None? &&
      nodes[i].nodeType == Subprocess
    requires WritableId(c.id) && PlainText(c.sourceId) && PlainText(c.targetId)
    requires var sub := SubprocessElement(nodes[i], ChildrenOf(nodes, nodes[i].id), NestedFlows(nodes, conns, nodes[i].id));
      forall e :: e in sub.children && e.localName == "sequenceFlow" ==> e in fs
    requires FlowRecovered(c, ways).sourceId in ids && FlowRecovered(c, ways).targetId in ids
    ensures FlowRecovered(c, ways) in ImportFlows(fs, ids, ways)
  {
    NestedFlowWritten(nodes, conns, c, i);
    assert FlowElement(c) in fs;
    FlowElementRoundTrip(c, ways);
  }

  /** A valid XML id holds no `&`, no markup and no white space. */
  lemma ValidIdIsPlain(s: string)
    requires Text.IsValidXmlId(s)
    ensures WritableId(s) && Text.NoAttributeSpace(s)
  {
    forall i | 0 <= i < |s| ensures s[i] != '&' && !Text.IsMarkup(s[i]) && !Text.IsAttributeSpace(s[i]) {
      if i > 0 {
        assert Text.IsNameChar(s[i]);
      }
    }
  }

  /**
   * The process element reads back with the store's id, when it is a valid
   * XML id, and with its name, white space normalised.
   */
  lemma ProcessAttributesRoundTrip(processId: string, processName: string, nodes: seq<Node>, conns: seq<Connection>)
    ensures Text.IsValidXmlId(processId) ==> ExportDocument(processId, processName, nodes, conns).processId == processId
    ensures ExportDocument(processId, processName, nodes, conns).processName == Text.NormalizeSpaces(processName)
  {
    if Text.IsValidXmlId(processId) {
      ValidIdIsPlain(processId);
      PlainTextParses(processId);
      Text.NormalizeSpacesProperties(processId);
    }
    EscapedTextParses(processName);
  }
}

=== FILE: connection_path.dfy ===
/**
 * `ConnectionPathBuilder`'s routing: the polyline a connection is drawn
 * along and the path of straight segments and rounded corners built over it.
 * A connection with at least two waypoints is drawn through them, with its
 * end waypoints moved onto the source and target nodes and the list made
 * orthogonal; any other connection is routed automatically with one or two
 * axis-parallel elbows between the nodes' facing sides.
 */
module ConnectionPath {
  import opened Diagram
  import opened Footprint
  import Graph

  /** `a.distanceTo(b) < 1e-4`, compared squared. */
  predicate Near(a: Point, b: Point) {
    DistSq(a, b) < Eps * Eps
  }

  /** Two points share x or z to within the tolerance. */
  predicate AlignedWithin(a: Point, b: Point) {
    Abs(a.x - b.x) <= Eps || Abs(a.z - b.z) <= Eps
  }

  /** A number whose square is at most `e * e` is at most `e` in magnitude. */
  lemma SquareAtMost(d: real, e: real)
    requires 0.0 <= e && d * d <= e * e
    ensures Abs(d) <= e
  {
    assert Abs(d) * Abs(d) == d * d;
    if Abs(d) > e {
      SquareLess(e, Abs(d));
    }
  }

  // ---------------------------------------------------------------------------
  // orthogonalizePath
  // ---------------------------------------------------------------------------

  /**
   * The corner put between `prev` and a `next` that is off both of its
   * axes: the step continues along the dominant axis of the previous leg,
   * or of the step itself when there is no previous leg, and then turns.
   */
  function Elbow(prevPrev: Option<Point>, prev: Point, next: Point): (e: Point)
    ensures e == Point(next.x, prev.z) || e == Point(prev.x, next.z)
  {
    var alongX :=
      match prevPrev
      case Some(pp) => Abs(prev.x - pp.x) >= Abs(prev.z - pp.z)
      case None => Abs(next.x - prev.x) >= Abs(next.z - prev.z);
    if alongX then Point(next.x, prev.z) else Point(prev.x, next.z)
  }

  /**
   * One step of the elbow stage: `next` is appended, preceded by an elbow
   * when it is off both axes of the last point and the elbow is more than
   * 1e-4 from it.
   */
  function ElbowStep(result: seq<Point>, next: Point): (r: seq<Point>)
    requires |result| > 0
    ensures |result| < |r|
  {
    var prev := result[|result| - 1];
    if Abs(next.x - prev.x) < Eps || Abs(next.z - prev.z) < Eps then result + [next]
    else
      var elbow := Elbow(At(result, |result| - 2), prev, next);
      if DistSq(elbow, prev) > Eps * Eps then result + [elbow, next] else result + [next]
  }

  /** A step keeps what came before, ends at `next`, and lines up each point it appends with its predecessor. */
  lemma ElbowStepShape(result: seq<Point>, next: Point)
    requires |result| > 0
    ensures var r := ElbowStep(result, next);
      result <= r && |r| <= |result| + 2 && r[|r| - 1] == next &&
      forall i :: |result| - 1 <= i < |r| - 1 ==> AlignedWithin(r[i], r[i + 1])
  {
    var prev := result[|result| - 1];
    if !(Abs(next.x - prev.x) < Eps || Abs(next.z - prev.z) < Eps) {
      var elbow := Elbow(At(result, |result| - 2), prev, next);
      if DistSq(elbow, prev) <= Eps * Eps {
        if elbow == Point(next.x, prev.z) {
          assert DistSq(elbow, prev) == (next.x - prev.x) * (next.x - prev.x);
          SquareAtMost(next.x - prev.x, Eps);
        } else {
          assert DistSq(elbow, prev) == (next.z - prev.z) * (next.z - prev.z);
          SquareAtMost(next.z - prev.z, Eps);
        }
      }
    }
  }

  /** The elbow stage after the first `k` input points. */
  function Elbowed(points: seq<Point>, k: nat): (r: seq<Point>)
    requires 1 <= k <= |points|
    ensures |r| >= 1
    decreases k
  {
    if k == 1 then [points[0]] else ElbowStep(Elbowed(points, k - 1), points[k - 1])
  }

  /**
   * The elbow stage starts at the first point, ends at the `k`-th, and
   * each of its points lines up with the next to within 1e-4 on x or z.
   */
  lemma {:induction false} ElbowedShape(points: seq<Point>, k: nat)
    requires 1 <= k <= |points|
    ensures var r := Elbowed(points, k);
      |r| >= k && r[0] == points[0] && r[|r| - 1] == points[k - 1] &&
      forall i :: 0 <= i < |r| - 1 ==> AlignedWithin(r[i], r[i + 1])
    decreases k
  {
    if k > 1 {
      var e := Elbowed(points, k - 1);
      ElbowedShape(points, k - 1);
      ElbowStepShape(e, points[k - 1]);
      var r := ElbowStep(e, points[k - 1]);
      assert forall i :: 0 <= i < |e| ==> r[i] == e[i];
    }
  }

  /** The de-duplication stage over the first `k` points: a point is kept when it is more than 1e-4 from the last point kept. */
  function Deduped(s: seq<Point>, k: nat): seq<Point>
    requires k <= |s|
    decreases k
  {
    if k == 0 then []
    else
      var d := Deduped(s, k - 1);
      if d == [] || DistSq(s[k - 1], d[|d| - 1]) > Eps * Eps then d + [s[k - 1]] else d
  }

  /**
   * What is kept starts with the first point, ends within 1e-4 of the
   * `k`-th, has no two consecutive points within 1e-4 of each other, and
   * holds only input points.
   */
  lemma {:induction false} DedupedShape(s: seq<Point>, k: nat)
    requires k <= |s|
    ensures var r := Deduped(s, k);
      |r| <= k &&
      (k > 0 ==> |r| > 0 && r[0] == s[0] && DistSq(s[k - 1], r[|r| - 1]) <= Eps * Eps) &&
      (forall i :: 0 <= i < |r| - 1 ==> DistSq(r[i + 1], r[i]) > Eps * Eps) &&
      forall p :: p in r ==> p in s[..k]
    decreases k
  {
    if k > 0 {
      DedupedShape(s, k - 1);
      assert s[..k - 1] <= s[..k];
      assert s[k - 1] in s[..k];
    }
  }

  /** What `orthogonalizePath` returns: its input when that has at most two points, otherwise the de-duplicated elbow stage. */
  function Orthogonalized(points: seq<Point>): seq<Point> {
    if |points| <= 2 then points
    else
      var e := Elbowed(points, |points|);
      Deduped(e, |e|)
  }

  /**
   * `orthogonalizePath` leaves two points or fewer as they are; otherwise
   * its result starts at the first input point and ends within 1e-4 of the
   * last, and no two consecutive points of it are within 1e-4. (Its last
   * pass, meant to drop collinear middle points, keeps every point; see
   * `CleanCollinear`.)
   */
  lemma OrthogonalizedShape(points: seq<Point>)
    ensures var r := Orthogonalized(points);
      (|points| <= 2 ==> r == points) &&
      (|points| > 2 ==>
        |r| > 0 && r[0] == points[0] && DistSq(points[|points| - 1], r[|r| - 1]) <= Eps * Eps &&
        forall i :: 0 <= i < |r| - 1 ==> DistSq(r[i + 1], r[i]) > Eps * Eps)
  {
    if |points| > 2 {
      var e := Elbowed(points, |points|);
      ElbowedShape(points, |points|);
      DedupedShape(e, |e|);
    }
  }

  /** `orthogonalizePath`: the elbow, de-duplication and collinear passes. */
  method Orthogonalize(points: seq<Point>) returns (cleaned: seq<Point>)
    ensures cleaned == Orthogonalized(points)
  {
    if |points| <= 2 {
      return points;
    }
    var result := [points[0]];
    for i := 1 to |points|
      invariant result == Elbowed(points, i)
    {
      var next := points[i];
      var prev := result[|result| - 1];
      if Abs(next.x - prev.x) < Eps || Abs(next.z - prev.z) < Eps {
        result := result + [next];
      } else {
        var elbow := Elbow(At(result, |result| - 2), prev, next);
        if DistSq(elbow, prev) > Eps * Eps {
          result := result + [elbow];
        }
        result := result + [next];
      }
    }
    var simplified := [];
    for i := 0 to |result|
      invariant simplified == Deduped(result, i)
    {
      var p := result[i];
      var prev := At(simplified, |simplified| - 1);
      if prev.None? || DistSq(p, prev.value) > Eps * Eps {
        simplified := simplified + [p];
      }
    }
    cleaned := CleanCollinear(simplified);
  }

  /**
   * The collinear pass as `orthogonalizePath` writes it: the previous point
   * is read at index `simplified.length - 1` of the list being built, which
   * never holds that many points yet, so every point is kept.
   */
  method CleanCollinear(simplified: seq<Point>) returns (cleaned: seq<Point>)
    ensures cleaned == simplified
  {
    cleaned := [];
    for i := 0 to |simplified|
      invariant cleaned == simplified[..i]
    {
      var p := simplified[i];
      var prev := At(cleaned, |simplified| - 1);
      var next := At(simplified, i + 1);
      match (prev, next)
      case (Some(q), Some(n)) =>
        var collinearX := Abs(q.x - p.x) < Eps && Abs(p.x - n.x) < Eps;
        var collinearZ := Abs(q.z - p.z) < Eps && Abs(p.z - n.z) < Eps;
        if !(collinearX || collinearZ) {
          cleaned := cleaned + [p];
        }
      case _ =>
        cleaned := cleaned + [p];
    }
  }

  // ---------------------------------------------------------------------------
  // buildRoundedPath
  // ---------------------------------------------------------------------------

  /** A path piece: `LineCurve3` or `QuadraticBezierCurve3`, at elevation `YPosition`. */
  datatype Curve = Line(from: Point, to: Point) | Bezier(entry: Point, control: Point, exit: Point)

  function StartOf(c: Curve): Point {
    match c
    case Line(a, _) => a
    case Bezier(a, _, _) => a
  }

  function EndOf(c: Curve): Point {
    match c
    case Line(_, b) => b
    case Bezier(_, _, b) => b
  }

  /** A non-empty path running without a gap from `a` to `b`. */
  predicate Chained(path: seq<Curve>, a: Point, b: Point) {
    |path| > 0 && StartOf(path[0]) == a && EndOf(path[|path| - 1]) == b &&
    forall j :: 0 <= j < |path| - 1 ==> EndOf(path[j]) == StartOf(path[j + 1])
  }

  /** Legs shorter than 1e-6 are not rounded. */
  const MinLeg: real := 0.000001

  /** What happens at a middle point: nothing, a straight run into it, or a rounded corner. */
  datatype Turn = Skip | Straight | Round(r: real, entry: Point, exit: Point)

  /**
   * A rounded corner at `point`, between the legs from `prev` and to
   * `next`, of radius `r` no more than `radius`; for a positive `radius`,
   * `r` is positive and no more than half of either leg, and the corner is
   * entered and left on the legs at distance `r` from `point`.
   */
  ghost predicate ClampedCorner(t: Turn, prev: Point, point: Point, next: Point, radius: real) {
    t.Round? && t.r <= radius &&
    (0.0 < radius ==>
      0.0 < t.r &&
      4.0 * (t.r * t.r) <= DistSq(point, prev) && 4.0 * (t.r * t.r) <= DistSq(next, point) &&
      DistSq(t.entry, point) == t.r * t.r && DistSq(t.exit, point) == t.r * t.r &&
      (exists s :: 0.0 < s <= 0.5 && t.entry == Along(point, prev, s)) &&
      (exists s :: 0.0 < s <= 0.5 && t.exit == Along(point, next, s)))
  }

  /** The corner of radius min(radius, lenIn / 2, lenOut / 2), for legs of those lengths. */
  function RoundCorner(prev: Point, point: Point, next: Point, radius: real, lenIn: real, lenOut: real): (t: Turn)
    requires 0.0 < lenIn && lenIn * lenIn == DistSq(point, prev)
    requires 0.0 < lenOut && lenOut * lenOut == DistSq(next, point)
    ensures ClampedCorner(t, prev, point, next, radius)
  {
    var r := Min(radius, Min(lenIn * 0.5, lenOut * 0.5));
    var entry, exit := Along(point, prev, r / lenIn), Along(point, next, r / lenOut);
    assert r <= radius && r <= lenIn * 0.5 && r <= lenOut * 0.5;
    if 0.0 < radius then
      assert 0.0 < r;
      CornerLeg(point, prev, lenIn, r);
      CornerLeg(point, next, lenOut, r);
      assert exists s :: 0.0 < s <= 0.5 && entry == Along(point, prev, s);
      assert exists s :: 0.0 < s <= 0.5 && exit == Along(point, next, s);
      assert 4.0 * (r * r) <= DistSq(point, prev) && 4.0 * (r * r) <= DistSq(next, point);
      assert DistSq(entry, point) == r * r && DistSq(exit, point) == r * r;
      Round(r, entry, exit)
    else
      Round(r, entry, exit)
  }

  /**
   * The corner at `point` between the legs from `prev` and to `next`: no
   * piece when either leg is shorter than 1e-6; a straight run when the legs
   * are parallel or opposed (|cos| > 0.999); otherwise a rounded corner as
   * `ClampedCorner` describes.
   */
  function CornerTurn(prev: Point, point: Point, next: Point, radius: real, sqrt: real -> real): (t: Turn)
    requires IsSqrt(sqrt)
    ensures t.Skip? <==> DistSq(point, prev) < MinLeg * MinLeg || DistSq(next, point) < MinLeg * MinLeg
    ensures t.Round? ==> ClampedCorner(t, prev, point, next, radius)
  {
    var dIn, dOut := DistSq(point, prev), DistSq(next, point);
    DistSqNonNegative(point, prev);
    DistSqNonNegative(next, point);
    var lenIn, lenOut := sqrt(dIn), sqrt(dOut);
    SqrtCompare(dIn, sqrt, MinLeg);
    SqrtCompare(dOut, sqrt, MinLeg);
    assert lenIn * lenIn == dIn && lenOut * lenOut == dOut;
    if lenIn < MinLeg || lenOut < MinLeg then Skip
    else if Abs(Cosine(prev, point, next, lenIn, lenOut)) > 0.999 then Straight
    else RoundCorner(prev, point, next, radius, lenIn, lenOut)
  }

  /** The cosine of the turn at `point`, from the legs' lengths. */
  function Cosine(prev: Point, point: Point, next: Point, lenIn: real, lenOut: real): real
    requires 0.0 < lenIn && 0.0 < lenOut
  {
    (point.x - prev.x) / lenIn * ((next.x - point.x) / lenOut) +
    (point.z - prev.z) / lenIn * ((next.z - point.z) / lenOut)
  }

  /** The arithmetic of a corner leg of length `len`, with `d` its square. */
  lemma LegArithmetic(len: real, r: real, d: real)
    requires 0.0 < len && len * len == d && 0.0 < r && r <= len * 0.5
    ensures 0.0 < r / len <= 0.5 && r / len * (r / len) * d == r * r
    ensures 4.0 * (r * r) <= d
  {
    var s := r / len;
    assert s * len == r;
    PositiveFactor(s, len);
    PositiveFactor(s - 0.5, len);
    assert (s - 0.5) * len == s * len - 0.5 * len;
    calc {
      s * s * d;
      s * s * (len * len);
      (s * len) * (s * len);
      r * r;
    }
    assert 4.0 * (r * r) == (2.0 * r) * (2.0 * r);
    if 2.0 * r < len {
      SquareLess(2.0 * r, len);
    } else {
      assert 2.0 * r == len;
    }
  }

  /** A product with a positive factor has the other factor's sign. */
  lemma PositiveFactor(a: real, b: real)
    requires 0.0 < b
    ensures 0.0 < a * b <==> 0.0 < a
  {
    if 0.0 < a {
      assert 0.0 < a * b;
    } else {
      assert a * b <= 0.0;
    }
  }

  /** The corner's entry (or exit) on the leg toward `other`, of length `len`. */
  lemma CornerLeg(point: Point, other: Point, len: real, r: real)
    requires 0.0 < len && len * len == DistSq(point, other) && 0.0 < r && r <= len * 0.5
    ensures 0.0 < r / len <= 0.5 && DistSq(Along(point, other, r / len), point) == r * r
    ensures 4.0 * (r * r) <= DistSq(point, other)
  {
    AlongDistance(point, other, r / len);
    LegArithmetic(len, r, DistSq(point, other));
  }

  /** The path built so far and the point the next piece starts from. */
  datatype Progress = Progress(path: seq<Curve>, current: Point)

  function CornerStep(p: Progress, prev: Point, point: Point, next: Point, radius: real, sqrt: real -> real): Progress
    requires IsSqrt(sqrt)
  {
    match CornerTurn(prev, point, next, radius, sqrt)
    case Skip => p
    case Straight => Progress(p.path + [Line(p.current, point)], point)
    case Round(_, entry, exit) => Progress(p.path + [Line(p.current, entry), Bezier(entry, point, exit)], exit)
  }

  /** The progress after the corners at `points[1]` to `points[k - 1]`. */
  function RoundedUpTo(points: seq<Point>, radius: real, sqrt: real -> real, k: nat): Progress
    requires IsSqrt(sqrt) && 1 <= k < |points|
    decreases k
  {
    if k == 1 then Progress([], points[0])
    else CornerStep(RoundedUpTo(points, radius, sqrt, k - 1), points[k - 2], points[k - 1], points[k], radius, sqrt)
  }

  /** The path `buildRoundedPath` builds through `points`. */
  function RoundedPath(points: seq<Point>, radius: real, sqrt: real -> real): seq<Curve>
    requires IsSqrt(sqrt)
  {
    if |points| < 2 then []
    else if |points| == 2 || radius <= 0.0 then [Line(points[0], points[|points| - 1])]
    else
      var p := RoundedUpTo(points, radius, sqrt, |points| - 1);
      p.path + [Line(p.current, points[|points| - 1])]
  }

  /** `buildRoundedPath`: straight runs between the points, with their corners rounded. */
  method BuildRoundedPath(points: seq<Point>, radius: real, sqrt: real -> real) returns (path: seq<Curve>)
    requires IsSqrt(sqrt)
    ensures path == RoundedPath(points, radius, sqrt)
    ensures |points| < 2 ==> path == []
    ensures |points| >= 2 && (|points| == 2 || radius <= 0.0) ==> path == [Line(points[0], points[|points| - 1])]
  {
    path := [];
    if |points| < 2 {
      return;
    }
    if |points| == 2 || radius <= 0.0 {
      path := [Line(points[0], points[|points| - 1])];
      return;
    }
    var current := points[0];
    for i := 1 to |points| - 1
      invariant Progress(path, current) == RoundedUpTo(points, radius, sqrt, i)
    {
      match CornerTurn(points[i - 1], points[i], points[i + 1], radius, sqrt)
      case Skip =>
      case Straight =>
        path := path + [Line(current, points[i])];
        current := points[i];
      case Round(_, entry, exit) =>
        path := path + [Line(current, entry), Bezier(entry, points[i], exit)];
        current := exit;
    }
    path := path + [Line(current, points[|points| - 1])];
  }

  /** Nothing built yet and still at `start`, or a path from `start` to the current point. */
  predicate ChainedOrFresh(p: Progress, start: Point) {
    (p.path == [] && p.current == start) || Chained(p.path, start, p.current)
  }

  lemma AppendChained(path: seq<Curve>, start: Point, mid: Point, tail: seq<Curve>, end: Point)
    requires (path == [] && mid == start) || Chained(path, start, mid)
    requires Chained(tail, mid, end)
    ensures Chained(path + tail, start, end)
  {
    if path == [] {
      assert path + tail == tail;
    } else {
      var whole := path + tail;
      forall j | 0 <= j < |whole| - 1
        ensures EndOf(whole[j]) == StartOf(whole[j + 1])
      {
        if j < |path| - 1 {
          assert whole[j] == path[j] && whole[j + 1] == path[j + 1];
        } else if j == |path| - 1 {
          assert whole[j] == path[j] && whole[j + 1] == tail[0];
        } else {
          assert whole[j] == tail[j - |path|] && whole[j + 1] == tail[j - |path| + 1];
        }
      }
    }
  }

  lemma StepChained(p: Progress, start: Point, prev: Point, point: Point, next: Point, radius: real, sqrt: real -> real)
    requires IsSqrt(sqrt) && ChainedOrFresh(p, start)
    ensures ChainedOrFresh(CornerStep(p, prev, point, next, radius, sqrt), start)
  {
    match CornerTurn(prev, point, next, radius, sqrt)
    case Skip =>
    case Straight =>
      AppendChained(p.path, start, p.current, [Line(p.current, point)], point);
    case Round(_, entry, exit) =>
      AppendChained(p.path, start, p.current, [Line(p.current, entry), Bezier(entry, point, exit)], exit);
  }

  lemma {:induction false} RoundedUpToChained(points: seq<Point>, radius: real, sqrt: real -> real, k: nat)
    requires IsSqrt(sqrt) && 1 <= k < |points|
    ensures ChainedOrFresh(RoundedUpTo(points, radius, sqrt, k), points[0])
    decreases k
  {
    if k > 1 {
      RoundedUpToChained(points, radius, sqrt, k - 1);
      StepChained(RoundedUpTo(points, radius, sqrt, k - 1), points[0], points[k - 2], points[k - 1], points[k], radius, sqrt);
    }
  }

  /** The rounded path through at least two points runs without a gap from the first to the last. */
  lemma RoundedPathChained(points: seq<Point>, radius: real, sqrt: real -> real)
    requires IsSqrt(sqrt) && |points| >= 2
    ensures Chained(RoundedPath(points, radius, sqrt), points[0], points[|points| - 1])
  {
    if |points| > 2 && radius > 0.0 {
      var p := RoundedUpTo(points, radius, sqrt, |points| - 1);
      RoundedUpToChained(points, radius, sqrt, |points| - 1);
      AppendChained(p.path, points[0], p.current, [Line(p.current, points[|points| - 1])], points[|points| - 1]);
    }
  }

  /**
   * A rounded corner of the path is drawn about one of the middle points,
   * entered and left within `radius` of it.
   */
  predicate CornerClamped(c: Curve, points: seq<Point>, radius: real) {
    c.Bezier? ==>
      |points| >= 2 && c.control in points[1..|points| - 1] &&
      DistSq(c.entry, c.control) <= radius * radius && DistSq(c.exit, c.control) <= radius * radius
  }

  predicate AllClamped(path: seq<Curve>, points: seq<Point>, radius: real) {
    forall j :: 0 <= j < |path| ==> CornerClamped(path[j], points, radius)
  }

  lemma AppendClamped(a: seq<Curve>, b: seq<Curve>, points: seq<Point>, radius: real)
    requires AllClamped(a, points, radius) && AllClamped(b, points, radius)
    ensures AllClamped(a + b, points, radius)
  {
    forall j | 0 <= j < |a + b|
      ensures CornerClamped((a + b)[j], points, radius)
    {
      if j < |a| {
        assert (a + b)[j] == a[j];
      } else {
        assert (a + b)[j] == b[j - |a|];
      }
    }
  }

  /** A corner of radius `r` at most `radius` about `points[i]` is clamped. */
  lemma BezierClamped(entry: Point, exit: Point, r: real, points: seq<Point>, radius: real, i: nat)
    requires 0 < i < |points| - 1 && 0.0 < r <= radius
    requires DistSq(entry, points[i]) == r * r && DistSq(exit, points[i]) == r * r
    ensures CornerClamped(Bezier(entry, points[i], exit), points, radius)
  {
    if r < radius {
      SquareLess(r, radius);
    }
    assert points[1..|points| - 1][i - 1] == points[i];
  }

  lemma StepClamped(p: Progress, points: seq<Point>, radius: real, sqrt: real -> real, i: nat)
    requires IsSqrt(sqrt) && 0 < i < |points| - 1 && 0.0 < radius
    requires AllClamped(p.path, points, radius)
    ensures AllClamped(CornerStep(p, points[i - 1], points[i], points[i + 1], radius, sqrt).path, points, radius)
  {
    match CornerTurn(points[i - 1], points[i], points[i + 1], radius, sqrt)
    case Skip =>
    case Straight =>
      AppendClamped(p.path, [Line(p.current, points[i])], points, radius);
    case Round(r, entry, exit) =>
      BezierClamped(entry, exit, r, points, radius, i);
      var tail := [Line(p.current, entry), Bezier(entry, points[i], exit)];
      assert AllClamped(tail, points, radius);
      AppendClamped(p.path, tail, points, radius);
  }

  lemma {:induction false} RoundedUpToClamped(points: seq<Point>, radius: real, sqrt: real -> real, k: nat)
    requires IsSqrt(sqrt) && 1 <= k < |points| && 0.0 < radius
    ensures AllClamped(RoundedUpTo(points, radius, sqrt, k).path, points, radius)
    decreases k
  {
    if k > 1 {
      RoundedUpToClamped(points, radius, sqrt, k - 1);
      StepClamped(RoundedUpTo(points, radius, sqrt, k - 1), points, radius, sqrt, k - 1);
    }
  }

  /** Every rounded corner of the path is clamped as `CornerClamped` says. */
  lemma RoundedPathClamped(points: seq<Point>, radius: real, sqrt: real -> real)
    requires IsSqrt(sqrt) && 0.0 < radius
    ensures AllClamped(RoundedPath(points, radius, sqrt), points, radius)
  {
    if |points| > 2 {
      RoundedUpToClamped(points, radius, sqrt, |points| - 1);
      var p := RoundedUpTo(points, radius, sqrt, |points| - 1);
      AppendClamped(p.path, [Line(p.current, points[|points| - 1])], points, radius);
    } else if |points| == 2 {
      assert AllClamped([Line(points[0], points[1])], points, radius);
    }
  }

  // ---------------------------------------------------------------------------
  // computeConnPath
  // ---------------------------------------------------------------------------

  /** From index `i` on, the first waypoint not within 1e-4 of the first, or `|ws|` when there is none. */
  function FirstFar(ws: seq<Point>, i: nat): (r: nat)
    requires 1 <= i <= |ws|
    ensures i <= r <= |ws|
    ensures forall j :: i <= j < r ==> Near(ws[j], ws[0])
    ensures r < |ws| ==> !Near(ws[r], ws[0])
    decreases |ws| - i
  {
    if i < |ws| && Near(ws[i], ws[0]) then FirstFar(ws, i + 1) else i
  }

  /** From index `i` down, the last waypoint not within 1e-4 of the last, or -1 when there is none. */
  function LastFar(ws: seq<Point>, i: int): (r: int)
    requires -1 <= i <= |ws| - 2
    ensures -1 <= r <= i
    ensures forall j :: r < j <= i ==> Near(ws[j], ws[|ws| - 1])
    ensures r >= 0 ==> !Near(ws[r], ws[|ws| - 1])
    decreases i + 1
  {
    if i >= 0 && Near(ws[i], ws[|ws| - 1]) then LastFar(ws, i - 1) else i
  }

  /**
   * The waypoints with the first replaced by the source node's anchor
   * toward the first waypoint not within 1e-4 of it, and the last by the
   * target node's anchor toward the last waypoint not within 1e-4 of it;
   * where there is none, toward the other end.
   */
  function Anchored(b: Builder, ws: seq<Point>, sqrt: real -> real): (r: seq<Point>)
    requires IsSqrt(sqrt) && |ws| >= 2
    ensures |r| == |ws| && r[1..|r| - 1] == ws[1..|ws| - 1]
  {
    var s := FirstFar(ws, 1);
    var e := LastFar(ws, |ws| - 2);
    var startRef := if s < |ws| then ws[s] else ws[|ws| - 1];
    var endRef := if e >= 0 then ws[e] else ws[0];
    ws[0 := WaypointAnchor(b.sourceNode, startRef, sqrt)][|ws| - 1 := WaypointAnchor(b.targetNode, endRef, sqrt)]
  }

  /**
   * The automatic route's polyline: out of the facing side of one node,
   * into the other's, with one elbow, and a second at the end point when
   * both normals run along x (or both along z) and the first elbow is off
   * the end point's line. Every leg runs exactly along x or z.
   */
  function ElbowPoints(startOut: Point, endIn: Point, startDir: Point, endDir: Point): (r: seq<Point>)
    ensures 3 <= |r| <= 4 && r[0] == startOut && r[|r| - 1] == endIn
    ensures forall i :: 0 <= i < |r| - 1 ==> r[i].x == r[i + 1].x || r[i].z == r[i + 1].z
  {
    var mid := if Abs(startDir.x) > 0.0 then Point(endIn.x, startOut.z) else Point(startOut.x, endIn.z);
    var second :=
      if Abs(startDir.x) > 0.0 && Abs(endDir.x) > 0.0 && Abs(mid.z - endIn.z) > Eps then [endIn]
      else if Abs(startDir.z) > 0.0 && Abs(endDir.z) > 0.0 && Abs(mid.x - endIn.x) > Eps then [endIn]
      else [];
    [startOut, mid] + second + [endIn]
  }

  /**
   * The automatic route between the builder's nodes: each leaves from its
   * side facing the other's centre; the route starts where the ray from a
   * point `getNodeOffset` beyond the source's side meets the source's
   * footprint, and ends where the ray from that start meets the target's.
   */
  function AutoRoute(b: Builder, sqrt: real -> real): (r: seq<Point>)
    requires IsSqrt(sqrt)
    ensures 3 <= |r| <= 4
    ensures forall i :: 0 <= i < |r| - 1 ==> r[i].x == r[i + 1].x || r[i].z == r[i + 1].z
  {
    var source, target := b.sourceNode, b.targetNode;
    var offsetA, offsetB := NodeOffsetOf(source), NodeOffsetOf(target);
    var start := SideAnchorAndDir(source, Planar(target.position));
    var end := SideAnchorAndDir(target, Planar(source.position));
    var probe := AddP(start.anchor, ScaleP(start.outDir, offsetA));
    var startOut := FootprintHit(source, probe, sqrt).GetOr(probe);
    var endIn := FootprintHit(target, startOut, sqrt).GetOr(AddP(end.anchor, ScaleP(end.outDir, -offsetB)));
    ElbowPoints(startOut, endIn, start.outDir, end.outDir)
  }

  /** The path `computeConnPath` draws for `conn`. */
  function ConnPath(b: Builder, conn: Connection, sqrt: real -> real): seq<Curve>
    requires IsSqrt(sqrt)
  {
    if conn.waypoints.Some? && |conn.waypoints.value| >= 2 then
      RoundedPath(Orthogonalized(Anchored(b, conn.waypoints.value, sqrt)), CornerRadius, sqrt)
    else
      RoundedPath(AutoRoute(b, sqrt), CornerRadius, sqrt)
  }

  /**
   * The waypoint half of `computeConnPath`, up to orthogonalizing: the
   * waypoints are copied into an array, the runs of near-duplicates at each
   * end are skipped to find the reference points, and the end entries are
   * overwritten with the anchors toward them.
   */
  method AnchorWaypoints(b: Builder, ws: seq<Point>, sqrt: real -> real) returns (anchored: seq<Point>)
    requires IsSqrt(sqrt) && |ws| >= 2
    ensures anchored == Anchored(b, ws, sqrt)
  {
    var points := new Point[|ws|](i requires 0 <= i < |ws| => ws[i]);
    var n := points.Length;
    assert points[..] == ws;
    var startIdx := FirstFarIndex(points);
    var endIdx := LastFarIndex(points);
    var startRef := if startIdx < n then points[startIdx] else points[n - 1];
    var endRef := if endIdx >= 0 then points[endIdx] else points[0];
    var startAnchor := WaypointAnchor(b.sourceNode, startRef, sqrt);
    var endAnchor := WaypointAnchor(b.targetNode, endRef, sqrt);
    points[0] := startAnchor;
    points[n - 1] := endAnchor;
    anchored := points[..];
    assert anchored == ws[0 := startAnchor][n - 1 := endAnchor];
  }

  /** The scan past the waypoints within 1e-4 of the first. */
  method FirstFarIndex(points: array<Point>) returns (i: nat)
    requires points.Length >= 2
    ensures i == FirstFar(points[..], 1)
  {
    i := 1;
    while i < points.Length && DistSq(points[i], points[0]) < Eps * Eps
      invariant 1 <= i <= points.Length
      invariant FirstFar(points[..], i) == FirstFar(points[..], 1)
      decreases points.Length - i
    {
      i := i + 1;
    }
  }

  /** The scan back past the waypoints within 1e-4 of the last. */
  method LastFarIndex(points: array<Point>) returns (i: int)
    requires points.Length >= 2
    ensures i == LastFar(points[..], points.Length - 2)
  {
    var n := points.Length;
    i := n - 2;
    while i >= 0 && DistSq(points[i], points[n - 1]) < Eps * Eps
      invariant -1 <= i <= n - 2
      invariant LastFar(points[..], i) == LastFar(points[..], n - 2)
      decreases i + 1
    {
      i := i - 1;
    }
  }

  /**
   * `computeConnPath`: the waypoint route, with its ends trimmed of
   * near-duplicates and moved onto the nodes, or else the automatic route;
   * either is then rounded with `CornerRadius`.
   */
  method ComputeConnPath(b: Builder, conn: Connection, sqrt: real -> real) returns (path: seq<Curve>)
    requires IsSqrt(sqrt)
    ensures path == ConnPath(b, conn, sqrt)
  {
    if conn.waypoints.Some? && |conn.waypoints.value| >= 2 {
      var points := AnchorWaypoints(b, conn.waypoints.value, sqrt);
      var ortho := Orthogonalize(points);
      path := BuildRoundedPath(ortho, CornerRadius, sqrt);
    } else {
      var pts := AutoRoute(b, sqrt);
      path := BuildRoundedPath(pts, CornerRadius, sqrt);
    }
  }

  /** The automatic route is drawn without a gap from its start to its end. */
  lemma AutoRouteEnds(b: Builder, sqrt: real -> real)
    requires IsSqrt(sqrt)
    ensures var pts := AutoRoute(b, sqrt);
      Chained(RoundedPath(pts, CornerRadius, sqrt), pts[0], pts[|pts| - 1])
  {
    RoundedPathChained(AutoRoute(b, sqrt), CornerRadius, sqrt);
  }

  /**
   * A waypoint route is drawn, once its orthogonalized list has two points,
   * from the source anchor to within 1e-4 of the target anchor, and exactly
   * to it when there are only two waypoints; with fewer points nothing is
   * drawn.
   */
  lemma WaypointRouteEnds(a: seq<Point>, sqrt: real -> real)
    requires IsSqrt(sqrt) && |a| >= 2
    ensures var o := Orthogonalized(a);
      var path := RoundedPath(o, CornerRadius, sqrt);
      (|o| < 2 ==> path == []) &&
      (|o| >= 2 ==> Chained(path, a[0], o[|o| - 1]) && DistSq(a[|a| - 1], o[|o| - 1]) <= Eps * Eps) &&
      (|a| == 2 ==> o == a)
  {
    var o := Orthogonalized(a);
    OrthogonalizedShape(a);
    if |o| >= 2 {
      RoundedPathChained(o, CornerRadius, sqrt);
      if |a| == 2 {
        assert DistSq(a[1], a[1]) == 0.0;
      }
    }
  }

  /** Where `computeConnPath` draws, by `AutoRouteEnds` and `WaypointRouteEnds`. */
  lemma ConnPathEnds(b: Builder, conn: Connection, sqrt: real -> real)
    requires IsSqrt(sqrt)
    ensures !(conn.waypoints.Some? && |conn.waypoints.value| >= 2) ==>
      var pts := AutoRoute(b, sqrt);
      Chained(ConnPath(b, conn, sqrt), pts[0], pts[|pts| - 1])
    ensures conn.waypoints.Some? && |conn.waypoints.value| >= 2 ==>
      var a := Anchored(b, conn.waypoints.value, sqrt);
      var o := Orthogonalized(a);
      (|o| < 2 ==> ConnPath(b, conn, sqrt) == []) &&
      (|o| >= 2 ==> Chained(ConnPath(b, conn, sqrt), a[0], o[|o| - 1]) && DistSq(a[|a| - 1], o[|o| - 1]) <= Eps * Eps)
  {
    if conn.waypoints.Some? && |conn.waypoints.value| >= 2 {
      WaypointRouteEnds(Anchored(b, conn.waypoints.value, sqrt), sqrt);
    } else {
      AutoRouteEnds(b, sqrt);
    }
  }

  // ---------------------------------------------------------------------------
  // Entry points
  // ---------------------------------------------------------------------------

  /** The builder's own `getConnPath`: the automatic route between its nodes. */
  method BuilderConnPath(b: Builder, sqrt: real -> real) returns (path: seq<Curve>)
    requires IsSqrt(sqrt)
    ensures path == RoundedPath(AutoRoute(b, sqrt), CornerRadius, sqrt)
  {
    path := ComputeConnPath(b, Connection("", b.sourceNode.id, b.targetNode.id, None), sqrt);
  }

  /** The tube geometry's arguments: path, 20 tubular segments, radius, 8 radial segments, open. */
  datatype TubeArgs = TubeArgs(path: seq<Curve>, tubularSegments: nat, radius: real, radialSegments: nat, closed: bool)

  /** The builder's `getTubeArgs`: the thicker tube when either end is a subprocess. */
  method BuilderTubeArgs(b: Builder, sqrt: real -> real) returns (args: TubeArgs)
    requires IsSqrt(sqrt)
    ensures args.path == RoundedPath(AutoRoute(b, sqrt), CornerRadius, sqrt)
    ensures args.radius == (if b.connTouchesSubprocess then SubprocessTubeRadius else TubeRadius)
    ensures args.tubularSegments == 20 && args.radialSegments == 8 && !args.closed
  {
    var radius := if b.connTouchesSubprocess then SubprocessTubeRadius else TubeRadius;
    var path := BuilderConnPath(b, sqrt);
    args := TubeArgs(path, 20, radius, 8, false);
  }

  /**
   * The module's `getConnPath`: nothing when the source or the target is
   * not among `nodes`, else the builder's path for `conn`.
   */
  method GetConnPath(conn: Connection, nodes: seq<Node>, sqrt: real -> real) returns (path: seq<Curve>)
    requires IsSqrt(sqrt)
    ensures var s, t := Graph.FindNode(nodes, conn.sourceId), Graph.FindNode(nodes, conn.targetId);
      if s.Some? && t.Some? then path == ConnPath(NewBuilder(s.value, t.value), conn, sqrt)
      else path == []
  {
    var source := Graph.FindNode(nodes, conn.sourceId);
    var target := Graph.FindNode(nodes, conn.targetId);
    if source.None? || target.None? {
      return [];
    }
    var builder := NewBuilder(source.value, target.value);
    path := ComputeConnPath(builder, conn, sqrt);
  }

  /**
   * The module's `getTubeArgs`: an empty path of radius `TubeRadius` when
   * an endpoint is missing; otherwise the automatic route between the two
   * nodes (the connection's waypoints are not consulted), of radius 0.45
   * exactly when either node is a subprocess and `TubeRadius` otherwise.
   */
  method GetTubeArgs(conn: Connection, nodes: seq<Node>, sqrt: real -> real) returns (args: TubeArgs)
    requires IsSqrt(sqrt)
    ensures args.tubularSegments == 20 && args.radialSegments == 8 && !args.closed
    ensures var s, t := Graph.FindNode(nodes, conn.sourceId), Graph.FindNode(nodes, conn.targetId);
      if s.Some? && t.Some? then
        args.path == RoundedPath(AutoRoute(NewBuilder(s.value, t.value), sqrt), CornerRadius, sqrt) &&
        (args.radius == SubprocessTubeRadius <==> s.value.nodeType == Subprocess || t.value.nodeType == Subprocess) &&
        (args.radius == TubeRadius <==> s.value.nodeType != Subprocess && t.value.nodeType != Subprocess)
      else args.path == [] && args.radius == TubeRadius
  {
    var source := Graph.FindNode(nodes, conn.sourceId);
    var target := Graph.FindNode(nodes, conn.targetId);
    if source.None? || target.None? {
      return TubeArgs([], 20, TubeRadius, 8, false);
    }
    var builder := NewBuilder(source.value, target.value);
    args := BuilderTubeArgs(builder, sqrt);
  }

  // ---------------------------------------------------------------------------
  // A worked route
  // ---------------------------------------------------------------------------

  /** A point 0.75 beyond the side of a non-subprocess node at the origin, facing +x, is brought back to its circle. */
  lemma StartOutOfOrigin(source: Node, h: real, sqrt: real -> real)
    requires IsSqrt(sqrt) && source.nodeType != Subprocess && Planar(source.position) == Point(0.0, 0.0)
    requires h == 0.75 || h == 0.6
    ensures FootprintHit(source, Point(h + 0.75, 0.0), sqrt) == Some(Point(0.75, 0.0))
  {
    var from := Point(h + 0.75, 0.0);
    assert DistSq(from, Point(0.0, 0.0)) == (h + 0.75) * (h + 0.75);
    SqrtOfSquare(h + 0.75, sqrt);
  }

  lemma EndInFromStart(target: Node, sqrt: real -> real)
    requires IsSqrt(sqrt) && target.nodeType != Subprocess && Planar(target.position) == Point(5.0, 0.0)
    ensures FootprintHit(target, Point(0.75, 0.0), sqrt) == Some(Point(4.25, 0.0))
  {
    assert DistSq(Point(0.75, 0.0), Point(5.0, 0.0)) == 4.25 * 4.25;
    SqrtOfSquare(4.25, sqrt);
  }

  /** A node faces a point straight ahead along +x by its +x side. */
  lemma SideTowardPlusX(node: Node, toward: Point)
    requires toward.z == node.position.z && toward.x > node.position.x
    ensures SideAnchorAndDir(node, toward) ==
      SideAnchor(Point(node.position.x + HalfExtents(node).halfW, node.position.z), Point(1.0, 0.0))
  {
    var e := HalfExtents(node);
    assert Normal(toward.x - node.position.x, toward.z - node.position.z) == Point(1.0, 0.0);
    assert 1.0 * e.halfW == e.halfW && 0.0 * e.halfD == 0.0;
  }

  /** ... and a point straight behind along -x by its -x side. */
  lemma SideTowardMinusX(node: Node, toward: Point)
    requires toward.z == node.position.z && toward.x < node.position.x
    ensures SideAnchorAndDir(node, toward) ==
      SideAnchor(Point(node.position.x - HalfExtents(node).halfW, node.position.z), Point(-1.0, 0.0))
  {
    var e := HalfExtents(node);
    assert Normal(toward.x - node.position.x, toward.z - node.position.z) == Point(-1.0, 0.0);
    assert -1.0 * e.halfW == -e.halfW && 0.0 * e.halfD == 0.0;
  }

  /**
   * Two nodes other than subprocesses, at (0, 0) and (5, 0), joined without
   * waypoints: the automatic route runs from (0.75, 0) to (4.25, 0).
   */
  lemma TwoNodeRoute(source: Node, target: Node, sqrt: real -> real)
    requires IsSqrt(sqrt)
    requires source.nodeType != Subprocess && target.nodeType != Subprocess
    requires Planar(source.position) == Point(0.0, 0.0) && Planar(target.position) == Point(5.0, 0.0)
    ensures AutoRoute(NewBuilder(source, target), sqrt) == [Point(0.75, 0.0), Point(4.25, 0.0), Point(4.25, 0.0)]
  {
    var b := NewBuilder(source, target);
    var toTarget, toSource := Planar(target.position), Planar(source.position);
    var start, end := SideAnchorAndDir(source, toTarget), SideAnchorAndDir(target, toSource);
    var h := HalfExtents(source).halfW;
    var probe := Point(source.position.x + h + 0.75, source.position.z);
    var startOut, endIn := Point(0.75, 0.0), Point(4.25, 0.0);
    assert start.outDir == Point(1.0, 0.0) by { SideTowardPlusX(source, toTarget); }
    assert end.outDir == Point(-1.0, 0.0) by { SideTowardMinusX(target, toSource); }
    assert probe == AddP(start.anchor, ScaleP(start.outDir, NodeOffsetOf(source))) by {
      ProbeTowardPlusX(source, toTarget);
    }
    assert source.position.x == 0.0 && source.position.z == 0.0 by {
      assert Planar(source.position) == Point(source.position.x, source.position.z);
    }
    ProbeAtOrigin(source.position.x, source.position.z, h);
    assert FootprintHit(source, probe, sqrt) == Some(startOut) by { StartOutOfOrigin(source, h, sqrt); }
    assert FootprintHit(target, startOut, sqrt) == Some(endIn) by { EndInFromStart(target, sqrt); }
    AutoRouteIs(b, sqrt, probe, startOut, endIn);
    ElbowAlongX(startOut, endIn);
  }

  /** The probe of a node at the origin, written without the zero coordinates. */
  lemma ProbeAtOrigin(x: real, z: real, h: real)
    requires x == 0.0 && z == 0.0
    ensures Point(x + h + 0.75, z) == Point(h + 0.75, 0.0)
  {
  }

  /** Facing ends on one line along x need no elbow: the route repeats its end point. */
  lemma ElbowAlongX(a: Point, b: Point)
    requires a.z == b.z
    ensures ElbowPoints(a, b, Point(1.0, 0.0), Point(-1.0, 0.0)) == [a, b, b]
  {
    assert Point(b.x, a.z) == b;
  }

  /** The probe a node's route starts from, toward a point straight ahead along +x. */
  lemma ProbeTowardPlusX(source: Node, toward: Point)
    requires source.nodeType != Subprocess && toward.z == source.position.z && toward.x > source.position.x
    ensures var start := SideAnchorAndDir(source, toward);
      AddP(start.anchor, ScaleP(start.outDir, NodeOffsetOf(source))) ==
      Point(source.position.x + HalfExtents(source).halfW + 0.75, source.position.z)
  {
    SideTowardPlusX(source, toward);
    assert ScaleP(Point(1.0, 0.0), 0.75) == Point(0.75, 0.0);
  }

  /** `AutoRoute` once its probe and the two footprint hits are known. */
  lemma AutoRouteIs(b: Builder, sqrt: real -> real, probe: Point, startOut: Point, endIn: Point)
    requires IsSqrt(sqrt)
    requires var start := SideAnchorAndDir(b.sourceNode, Planar(b.targetNode.position));
      probe == AddP(start.anchor, ScaleP(start.outDir, NodeOffsetOf(b.sourceNode)))
    requires FootprintHit(b.sourceNode, probe, sqrt) == Some(startOut)
    requires FootprintHit(b.targetNode, startOut, sqrt) == Some(endIn)
    ensures AutoRoute(b, sqrt) == ElbowPoints(startOut, endIn,
      SideAnchorAndDir(b.sourceNode, Planar(b.targetNode.position)).outDir,
      SideAnchorAndDir(b.targetNode, Planar(b.sourceNode.position)).outDir)
  {
  }

  /** A corner whose outgoing leg has length zero is dropped: three points ending in a repeat draw one line. */
  lemma RoundedRepeatedEnd(a: Point, b: Point, radius: real, sqrt: real -> real)
    requires IsSqrt(sqrt) && 0.0 < radius
    ensures RoundedPath([a, b, b], radius, sqrt) == [Line(a, b)]
  {
    var pts := [a, b, b];
    assert DistSq(pts[2], pts[1]) == 0.0;
    assert CornerTurn(pts[0], pts[1], pts[2], radius, sqrt) == Skip;
    assert RoundedUpTo(pts, radius, sqrt, 2) == Progress([], a);
  }

  /** ... and that route is drawn as the one straight segment between them. */
  lemma TwoNodePath(source: Node, target: Node, conn: Connection, sqrt: real -> real)
    requires IsSqrt(sqrt)
    requires source.nodeType != Subprocess && target.nodeType != Subprocess
    requires Planar(source.position) == Point(0.0, 0.0) && Planar(target.position) == Point(5.0, 0.0)
    requires conn.waypoints.None?
    ensures ConnPath(NewBuilder(source, target), conn, sqrt) == [Line(Point(0.75, 0.0), Point(4.25, 0.0))]
  {
    TwoNodeRoute(source, target, sqrt);
    RoundedRepeatedEnd(Point(0.75, 0.0), Point(4.25, 0.0), CornerRadius, sqrt);
  }
}

=== FILE: footprint.dfy ===
/**
 * The footprint geometry of `ConnectionPathBuilder`: how large a node is on
 * the drawing plane, which side a connection leaves it from, and where a ray
 * toward its centre meets its outline. Connection paths are drawn at the
 * fixed elevation `YPosition`, so a path vertex is a planar `Point`; only the
 * waypoint anchor measures a three-dimensional length. Lengths that need a
 * square root take JavaScript's `Math.sqrt` as a parameter `sqrt` (see
 * `IsSqrt`); distances compared with a threshold are compared squared.
 */
module Footprint {
  import opened Diagram

  // CONNECTION_CONFIG and SCENE_CONFIG
  const NodeOffset: real := 0.75
  const CornerRadius: real := 0.5
  const TubeRadius: real := 0.3
  const SubprocessTubeRadius: real := 0.45
  const GroundY: real := -1.5
  const YPosition: real := GroundY + 0.1

  /** The tolerance `1e-4` the router uses for coincidence and alignment. */
  const Eps: real := 0.0001

  /** The builder's state, fixed by its constructor. */
  datatype Builder = Builder(sourceNode: Node, targetNode: Node, nodeOffset: real, connTouchesSubprocess: bool)

  /**
   * The constructor: the builder joins `source` to `target`, leaves the
   * source 0.75 out unless it is a subprocess, and draws the thicker tube
   * when either end is a subprocess.
   */
  function NewBuilder(source: Node, target: Node): (r: Builder)
    ensures r.sourceNode == source && r.targetNode == target
    ensures r.nodeOffset == (if source.nodeType == Subprocess then 0.0 else NodeOffset)
    ensures r.connTouchesSubprocess <==> source.nodeType == Subprocess || target.nodeType == Subprocess
  {
    Builder(source, target, NodeOffsetOf(source),
      source.nodeType == Subprocess || target.nodeType == Subprocess)
  }

  /** `getNodeOffset`: connections leave a subprocess from its outline, other nodes 0.75 out. */
  function NodeOffsetOf(node: Node): (r: real)
    ensures r == 0.0 <==> node.nodeType == Subprocess
    ensures r != 0.0 ==> r == NodeOffset
  {
    if node.nodeType == Subprocess then 0.0 else NodeOffset
  }

  /** The point `s` of the way from `a` to `b`. */
  function Along(a: Point, b: Point, s: real): Point {
    Point(a.x + (b.x - a.x) * s, a.z + (b.z - a.z) * s)
  }

  // ---------------------------------------------------------------------------
  // Square roots
  // ---------------------------------------------------------------------------

  /** Squaring is strictly increasing on the non-negative reals. */
  lemma SquareLess(a: real, b: real)
    requires 0.0 <= a < b
    ensures a * a < b * b
  {
    var p, q := b - a, b + a;
    assert 0.0 < p && 0.0 < q;
    assert 0.0 < p * q;
    assert b * b - a * a == p * q;
  }

  /** A square root compares with a non-negative bound as its square does. */
  lemma SqrtCompare(x: real, sqrt: real -> real, e: real)
    requires IsSqrt(sqrt) && 0.0 <= x && 0.0 <= e
    ensures sqrt(x) < e <==> x < e * e
    ensures sqrt(x) <= e <==> x <= e * e
  {
    var s := sqrt(x);
    assert 0.0 <= s && s * s == x;
    if s < e {
      SquareLess(s, e);
    } else if e < s {
      SquareLess(e, s);
    }
  }

  lemma SqrtOfSquare(v: real, sqrt: real -> real)
    requires IsSqrt(sqrt) && 0.0 <= v
    ensures sqrt(v * v) == v
  {
    var s := sqrt(v * v);
    assert 0.0 <= s && s * s == v * v;
    if s < v {
      SquareLess(s, v);
    } else if v < s {
      SquareLess(v, s);
    }
  }

  lemma DistSqNonNegative(a: Point, b: Point)
    ensures 0.0 <= DistSq(a, b)
  {
    var dx, dz := a.x - b.x, a.z - b.z;
    assert 0.0 <= dx * dx && 0.0 <= dz * dz;
  }

  /** Moving `s` of the way toward `b` leaves `1 - s` of the distance. */
  lemma AlongDistance(a: Point, b: Point, s: real)
    ensures DistSq(Along(a, b, s), b) == (1.0 - s) * (1.0 - s) * DistSq(a, b)
    ensures DistSq(Along(a, b, s), a) == s * s * DistSq(a, b)
  {
    var p := Along(a, b, s);
    assert p.x - b.x == (a.x - b.x) * (1.0 - s);
    assert p.z - b.z == (a.z - b.z) * (1.0 - s);
    assert p.x - a.x == (b.x - a.x) * s;
    assert p.z - a.z == (b.z - a.z) * s;
  }

  /** A distance `len` scaled by `k / len` is `k`. */
  lemma ScaledLength(k: real, len: real, d: real)
    requires 0.0 < len && d == len * len
    ensures (k / len) * (k / len) * d == k * k
  {
    var q := k / len;
    assert q * len == k;
    assert q * q * (len * len) == (q * len) * (q * len);
  }

  // ---------------------------------------------------------------------------
  // Footprint sizes
  // ---------------------------------------------------------------------------

  datatype Layer = Outer | Inner

  datatype Shell = Shell(width: real, height: real, depth: real)

  /** `getSubprocessShellDims`: the bounds (4 by 3 when unset) scaled by 1.05 outside or 0.95 inside. */
  function SubprocessShellDims(node: Node, layer: Layer): Shell {
    var base := node.bounds.GetOr(Bounds(4.0, 3.0));
    var scale := if layer == Outer then 1.05 else 0.95;
    Shell(base.width * scale, 1.6, base.height * scale)
  }

  datatype Extents = Extents(halfW: real, halfD: real, radius: real)

  /** `getNodeHalfExtents`: half the footprint's width and depth, and the radius of its inscribed circle. */
  function HalfExtents(node: Node): (r: Extents)
    ensures node.nodeType != Subprocess && IsRound(node.nodeType) ==> r.halfW == r.halfD == 0.75
    ensures node.nodeType != Subprocess && !IsRound(node.nodeType) ==> r.halfW == r.halfD == 0.6
    ensures node.nodeType == Subprocess ==>
      var b := node.bounds.GetOr(Bounds(4.0, 3.0));
      r.halfW == b.width * 1.05 / 2.0 && r.halfD == b.height * 1.05 / 2.0
    ensures r.radius == Min(r.halfW, r.halfD)
  {
    if node.nodeType == Subprocess then
      var shell := SubprocessShellDims(node, Outer);
      Extents(shell.width / 2.0, shell.depth / 2.0, Min(shell.width, shell.depth) * 0.5)
    else
      var size := if IsRound(node.nodeType) then 0.75 * 2.0 else 1.2;
      var half := size / 2.0;
      Extents(half, half, size * 0.5)
  }

  // ---------------------------------------------------------------------------
  // Anchors
  // ---------------------------------------------------------------------------

  /**
   * The side normal toward a planar offset (dx, dz): an axis unit vector
   * along the dominant axis, x on a tie, pointing the way the offset does,
   * the positive way for a zero component.
   */
  function Normal(dx: real, dz: real): (n: Point)
    ensures n == Point(1.0, 0.0) || n == Point(-1.0, 0.0) || n == Point(0.0, 1.0) || n == Point(0.0, -1.0)
    ensures n.x != 0.0 <==> Abs(dx) >= Abs(dz)
    ensures (n.x < 0.0 ==> dx < 0.0) && (n.z < 0.0 ==> dz < 0.0)
    ensures n.x > 0.0 <==> Abs(dx) >= Abs(dz) && dx >= 0.0
    ensures n.z > 0.0 <==> Abs(dx) < Abs(dz) && dz >= 0.0
  {
    if Abs(dx) >= Abs(dz) then
      if dx >= 0.0 then Point(1.0, 0.0) else Point(-1.0, 0.0)
    else
      if dz >= 0.0 then Point(0.0, 1.0) else Point(0.0, -1.0)
  }

  datatype SideAnchor = SideAnchor(anchor: Point, outDir: Point)

  /**
   * `getSideAnchorAndDir`: the midpoint of the footprint side facing
   * `toward`, and that side's outward normal. (Its `offset` argument is not
   * used by the source and is not a parameter here.)
   */
  function SideAnchorAndDir(node: Node, toward: Point): (r: SideAnchor)
    ensures r.outDir == Normal(toward.x - node.position.x, toward.z - node.position.z)
    ensures var e := HalfExtents(node);
      r.anchor == Point(node.position.x + r.outDir.x * e.halfW, node.position.z + r.outDir.z * e.halfD)
  {
    var e := HalfExtents(node);
    var normal := Normal(toward.x - node.position.x, toward.z - node.position.z);
    SideAnchor(AddP(Planar(node.position), Point(normal.x * e.halfW, normal.z * e.halfD)), normal)
  }

  /**
   * `getNodeAnchor`: the side anchor, pushed a further 0.15 of the
   * inscribed radius outward for nodes other than subprocesses; so a round
   * node is left 0.8625 from its centre and a task 0.69.
   */
  function NodeAnchor(node: Node, toward: Point): (r: Point)
    ensures node.nodeType == Subprocess ==> r == SideAnchorAndDir(node, toward).anchor
    ensures node.nodeType != Subprocess ==>
      var n := Normal(toward.x - node.position.x, toward.z - node.position.z);
      var k := if IsRound(node.nodeType) then 0.8625 else 0.69;
      r == Point(node.position.x + n.x * k, node.position.z + n.z * k)
  {
    var e := HalfExtents(node);
    var side := SideAnchorAndDir(node, toward);
    if node.nodeType == Subprocess then side.anchor
    else AddP(side.anchor, ScaleP(side.outDir, e.radius * 0.15))
  }

  /**
   * `getWaypointAnchor`: where a waypoint route leaves `node` toward the
   * waypoint `toward` (at elevation `YPosition`). A subprocess uses its side
   * anchor; another node the point `NodeOffset` along the three-dimensional
   * direction from its centre, or the centre itself when the waypoint is
   * within 1e-4 of it. The planar result lies on the ray from the centre
   * toward the waypoint, no farther than `NodeOffset`.
   */
  function WaypointAnchor(node: Node, toward: Point, sqrt: real -> real): (r: Point)
    requires IsSqrt(sqrt)
    ensures node.nodeType == Subprocess ==> r == NodeAnchor(node, toward)
    ensures node.nodeType != Subprocess ==>
      (exists s :: 0.0 <= s && r == Along(Planar(node.position), toward, s)) &&
      DistSq(r, Planar(node.position)) <= NodeOffset * NodeOffset
  {
    if node.nodeType == Subprocess then NodeAnchor(node, toward)
    else
      var c := node.position;
      var dy := YPosition - c.y;
      var flat := DistSq(toward, Planar(c));
      var len := sqrt(flat + dy * dy);
      if len < 0.0001 then
        assert Planar(c) == Along(Planar(c), toward, 0.0);
        Planar(c)
      else
        var s := NodeOffsetOf(node) / len;
        AnchorWithin(Planar(c), toward, flat, dy, len, s);
        Along(Planar(c), toward, s)
  }

  lemma AnchorWithin(c: Point, toward: Point, flat: real, dy: real, len: real, s: real)
    requires flat == DistSq(toward, c) && 0.0 < len && len * len == flat + dy * dy
    requires s == NodeOffset / len
    ensures 0.0 <= s && DistSq(Along(c, toward, s), c) <= NodeOffset * NodeOffset
  {
    AlongDistance(c, toward, s);
    assert DistSq(toward, c) == DistSq(c, toward);
    assert flat <= len * len;
    assert s * s >= 0.0;
    assert s * s * flat <= s * s * (len * len);
    ScaledLength(NodeOffset, len, len * len);
  }

  // ---------------------------------------------------------------------------
  // Ray hits
  // ---------------------------------------------------------------------------

  /**
   * `rayCircleIntersect`: from `from` toward `center`, the first point on
   * the circle of `radius` about it, or `from` itself when it is already
   * inside; nothing when `from` is within 1e-4 of the centre.
   */
  function RayCircleIntersect(from: Point, center: Point, radius: real, sqrt: real -> real): (r: Option<Point>)
    requires IsSqrt(sqrt)
    ensures r.None? <==> DistSq(from, center) < Eps * Eps
    ensures r.Some? && 0.0 <= radius ==> exists s :: 0.0 <= s <= 1.0 && r.value == Along(from, center, s)
    ensures r.Some? && 0.0 <= radius && radius * radius <= DistSq(from, center) ==>
      DistSq(r.value, center) == radius * radius
    ensures r.Some? && 0.0 <= radius && DistSq(from, center) <= radius * radius ==> r.value == from
  {
    var d := DistSq(from, center);
    var len := sqrt(d);
    SqrtCompare(d, sqrt, Eps);
    if len < 0.0001 then None
    else
      var s := Max(0.0, len - radius) / len;
      CircleHit(from, center, radius, d, len, s);
      Some(Along(from, center, s))
  }

  lemma CircleHit(from: Point, center: Point, radius: real, d: real, len: real, s: real)
    requires d == DistSq(from, center) && 0.0 < len && len * len == d
    requires s == Max(0.0, len - radius) / len
    ensures 0.0 <= radius ==> 0.0 <= s <= 1.0
    ensures 0.0 <= radius && radius * radius <= d ==> DistSq(Along(from, center, s), center) == radius * radius
    ensures 0.0 <= radius && d <= radius * radius ==> Along(from, center, s) == from
  {
    if 0.0 <= radius {
      assert Max(0.0, len - radius) <= len;
      if radius * radius <= d {
        if len < radius {
          SquareLess(len, radius);
        }
        assert s * len == len - radius;
        assert (1.0 - s) * len == radius;
        AlongDistance(from, center, s);
        assert (1.0 - s) * (1.0 - s) * d == ((1.0 - s) * len) * ((1.0 - s) * len);
      }
      if d <= radius * radius {
        if len > radius {
          SquareLess(radius, len);
        }
        assert s == 0.0;
      }
    }
  }

  /** The minimum of two times, `None` standing for `Infinity`. */
  function MinTime(a: Option<real>, b: Option<real>): Option<real> {
    match (a, b)
    case (None, _) => b
    case (_, None) => a
    case (Some(x), Some(y)) => Some(Min(x, y))
  }

  /**
   * `rayRectIntersect`: from `from` toward `center`, the point where the ray
   * first crosses one of the lines bounding the rectangle of half extents
   * (halfW, halfD), clamped to the segment between them; nothing when `from`
   * is within 1e-4 of the centre or the crossing lies behind `from`.
   */
  function RayRectIntersect(from: Point, center: Point, halfW: real, halfD: real, sqrt: real -> real): (r: Option<Point>)
    requires IsSqrt(sqrt)
    ensures DistSq(from, center) < Eps * Eps ==> r.None?
    ensures r.Some? ==> exists s :: 0.0 <= s <= 1.0 && r.value == Along(from, center, s)
  {
    var d := DistSq(from, center);
    var len := sqrt(d);
    SqrtCompare(d, sqrt, Eps);
    if len < 0.0001 then None
    else
      var ux := (center.x - from.x) / len;
      var uz := (center.z - from.z) / len;
      var tx := if ux != 0.0 then Some(if ux > 0.0 then (center.x - halfW - from.x) / ux else (center.x + halfW - from.x) / ux) else None;
      var tz := if uz != 0.0 then Some(if uz > 0.0 then (center.z - halfD - from.z) / uz else (center.z + halfD - from.z) / uz) else None;
      match MinTime(tx, tz)
      case None => None
      case Some(t) =>
        if t < 0.0 then None
        else
          var s := Max(0.0, Min(t, len)) / len;
          assert 0.0 <= s <= 1.0 by {
            assert Max(0.0, Min(t, len)) <= len;
          }
          Some(Along(from, center, s))
  }

  /**
   * `getFootprintHit`: where the ray from `from` toward a node's centre
   * meets its footprint: the outer shell's rectangle for a subprocess, the
   * circle of radius 0.75 for any other node. The hit is on the segment
   * between them.
   */
  function FootprintHit(node: Node, from: Point, sqrt: real -> real): (r: Option<Point>)
    requires IsSqrt(sqrt)
    ensures DistSq(from, Planar(node.position)) < Eps * Eps ==> r.None?
    ensures r.Some? ==> exists s :: 0.0 <= s <= 1.0 && r.value == Along(from, Planar(node.position), s)
    ensures node.nodeType != Subprocess ==> r == RayCircleIntersect(from, Planar(node.position), 0.75, sqrt)
  {
    if node.nodeType == Subprocess then
      var shell := SubprocessShellDims(node, Outer);
      RayRectIntersect(from, Planar(node.position), shell.width / 2.0, shell.depth / 2.0, sqrt)
    else
      RayCircleIntersect(from, Planar(node.position), 0.75, sqrt)
  }
}

=== FILE: graph.dfy ===
/**
 * The list-level rules of the graph store: lookups, the filters the delete
 * operations apply, the connection acceptance rules, id renaming with
 * connection-id regeneration, the id counters and their recovery from
 * imported ids, and the de-duplicated multi-selection.
 */
module Graph {
  import opened Diagram
  import opened Text

  // ---------------------------------------------------------------------------
  // Lookups and filters
  // ---------------------------------------------------------------------------

  /** `nodes.find(n => n.id === id)`: the first node with that id. */
  function FindNode(nodes: seq<Node>, id: string): (r: Option<Node>)
    ensures r.Some? ==> r.value in nodes && r.value.id == id
    ensures r.None? <==> forall n :: n in nodes ==> n.id != id
    decreases |nodes|
  {
    if nodes == [] then None
    else if nodes[0].id == id then Some(nodes[0])
    else FindNode(nodes[1..], id)
  }

  function Ids(nodes: seq<Node>): (r: set<string>)
    ensures forall id :: id in r <==> exists n :: n in nodes && n.id == id
  {
    set n | n in nodes :: n.id
  }

  predicate UniqueIds(nodes: seq<Node>) {
    forall i, j :: 0 <= i < j < |nodes| ==> nodes[i].id != nodes[j].id
  }

  /** With unique ids, the node `find` returns for an id is the one holding it. */
  lemma {:induction false} FindUnique(nodes: seq<Node>, n: Node)
    requires UniqueIds(nodes) && n in nodes
    ensures FindNode(nodes, n.id) == Some(n)
    decreases |nodes|
  {
    if nodes[0] != n {
      assert nodes[0].id != n.id by {
        var j :| 0 <= j < |nodes| && nodes[j] == n;
        assert j > 0;
      }
      assert n in nodes[1..];
      FindUnique(nodes[1..], n);
    }
  }

  /** `find` returns the node at `k` when no earlier node has its id. */
  lemma {:induction false} FindAt(nodes: seq<Node>, k: nat)
    requires k < |nodes| && forall j :: 0 <= j < k ==> nodes[j].id != nodes[k].id
    ensures FindNode(nodes, nodes[k].id) == Some(nodes[k])
    decreases k
  {
    if k > 0 {
      assert nodes[1..][k - 1] == nodes[k];
      FindAt(nodes[1..], k - 1);
    }
  }

  /** `deleteNode`'s node filter: every node except those with the id, children included, in order. */
  function WithoutNode(nodes: seq<Node>, id: string): (r: seq<Node>)
    ensures forall n :: n in r <==> n in nodes && n.id != id
    ensures id !in Ids(r)
    decreases |nodes|
  {
    if nodes == [] then []
    else (if nodes[0].id != id then [nodes[0]] else []) + WithoutNode(nodes[1..], id)
  }

  /** `deleteNode`'s connection filter: exactly the connections with the id as an endpoint go. */
  function WithoutIncident(conns: seq<Connection>, id: string): (r: seq<Connection>)
    ensures forall c :: c in r <==> c in conns && c.sourceId != id && c.targetId != id
    decreases |conns|
  {
    if conns == [] then []
    else (if conns[0].sourceId != id && conns[0].targetId != id then [conns[0]] else []) + WithoutIncident(conns[1..], id)
  }

  /** `deleteConnection`'s filter: every connection except those with the id. */
  function WithoutConnection(conns: seq<Connection>, id: string): (r: seq<Connection>)
    ensures forall c :: c in r <==> c in conns && c.id != id
    decreases |conns|
  {
    if conns == [] then []
    else (if conns[0].id != id then [conns[0]] else []) + WithoutConnection(conns[1..], id)
  }

  /** The nodes left after `deleteNode` for each id of `ids` in turn. */
  function WithoutNodes(nodes: seq<Node>, ids: seq<string>): seq<Node>
    decreases |ids|
  {
    if ids == [] then nodes else WithoutNodes(WithoutNode(nodes, ids[0]), ids[1..])
  }

  function WithoutIncidentAll(conns: seq<Connection>, ids: seq<string>): seq<Connection>
    decreases |ids|
  {
    if ids == [] then conns else WithoutIncidentAll(WithoutIncident(conns, ids[0]), ids[1..])
  }

  /**
   * Deleting the selected ids one by one removes exactly the nodes with one
   * of the ids and exactly the connections touching one of them.
   */
  lemma {:induction false} DeleteAllEffects(nodes: seq<Node>, conns: seq<Connection>, ids: seq<string>)
    ensures forall n :: n in WithoutNodes(nodes, ids) <==> n in nodes && n.id !in ids
    ensures forall c :: c in WithoutIncidentAll(conns, ids) <==>
      c in conns && c.sourceId !in ids && c.targetId !in ids
    decreases |ids|
  {
    if ids != [] {
      DeleteAllEffects(WithoutNode(nodes, ids[0]), WithoutIncident(conns, ids[0]), ids[1..]);
      assert forall x :: x in ids <==> x == ids[0] || x in ids[1..];
    }
  }

  lemma {:induction false} DeleteAllKeepsEndpoints(nodes: seq<Node>, conns: seq<Connection>, ids: seq<string>)
    requires EndpointsExist(nodes, conns)
    ensures EndpointsExist(WithoutNodes(nodes, ids), WithoutIncidentAll(conns, ids))
    decreases |ids|
  {
    if ids != [] {
      DeleteKeepsEndpoints(nodes, conns, ids[0]);
      DeleteAllKeepsEndpoints(WithoutNode(nodes, ids[0]), WithoutIncident(conns, ids[0]), ids[1..]);
    }
  }

  /**
   * The store's invariant over its diagram: each counter is at least the
   * greatest number it could collide with, and every endpoint names a node.
   */
  predicate Consistent(nodes: seq<Node>, conns: seq<Connection>, nodeCounter: nat, connectionCounter: nat) {
    MaxNodeNumber(nodes) <= nodeCounter && MaxConnectionNumber(conns) <= connectionCounter && EndpointsExist(nodes, conns)
  }

  /** Deleting a node with its incident connections keeps the store consistent. */
  lemma DeleteKeepsConsistent(nodes: seq<Node>, conns: seq<Connection>, nodeCounter: nat, connectionCounter: nat, id: string)
    requires Consistent(nodes, conns, nodeCounter, connectionCounter)
    ensures Consistent(WithoutNode(nodes, id), WithoutIncident(conns, id), nodeCounter, connectionCounter)
  {
    DeleteKeepsEndpoints(nodes, conns, id);
    NodeCoverIsMax(nodes, nodeCounter);
    NodeCoverIsMax(WithoutNode(nodes, id), nodeCounter);
    ConnectionCoverIsMax(conns, connectionCounter);
    ConnectionCoverIsMax(WithoutIncident(conns, id), connectionCounter);
  }

  /** Deleting a connection keeps the store consistent. */
  lemma DisconnectKeepsConsistent(nodes: seq<Node>, conns: seq<Connection>, nodeCounter: nat, connectionCounter: nat, id: string)
    requires Consistent(nodes, conns, nodeCounter, connectionCounter)
    ensures Consistent(nodes, WithoutConnection(conns, id), nodeCounter, connectionCounter)
  {
    ConnectionCoverIsMax(conns, connectionCounter);
    ConnectionCoverIsMax(WithoutConnection(conns, id), connectionCounter);
  }

  /** A node under the next numeric id is new, and adding it keeps the store consistent. */
  lemma AddNodeKeepsConsistent(nodes: seq<Node>, conns: seq<Connection>, nodeCounter: nat, connectionCounter: nat, node: Node)
    requires Consistent(nodes, conns, nodeCounter, connectionCounter)
    requires node.id == NatToString(nodeCounter + 1)
    ensures node.id !in Ids(nodes)
    ensures Consistent(nodes + [node], conns, nodeCounter + 1, connectionCounter)
  {
    NodeCoverIsMax(nodes, nodeCounter);
    FreshNodeId(nodes, nodeCounter);
    NatToStringValue(nodeCounter + 1);
    NodeCoverIsMax(nodes + [node], nodeCounter + 1);
  }

  /** `addConnection` keeps the store consistent, whatever its verdict. */
  lemma LinkKeepsConsistent(nodes: seq<Node>, conns: seq<Connection>, nodeCounter: nat, connectionCounter: nat, sourceId: string, targetId: string)
    requires Consistent(nodes, conns, nodeCounter, connectionCounter)
    ensures var r := Linked(nodes, conns, connectionCounter, sourceId, targetId);
      Consistent(nodes, r.0, nodeCounter, r.1)
  {
    var r := Linked(nodes, conns, connectionCounter, sourceId, targetId);
    ConnectionCoverIsMax(conns, connectionCounter);
    LinkKeepsInvariants(nodes, conns, connectionCounter, sourceId, targetId);
    ConnectionCoverIsMax(r.0, r.1);
  }

  /** Rewriting fields other than ids keeps the store consistent. */
  lemma SameIdsKeepConsistent(before: seq<Node>, after: seq<Node>, conns: seq<Connection>, nodeCounter: nat, connectionCounter: nat)
    requires |after| == |before| && forall i :: 0 <= i < |before| ==> after[i].id == before[i].id
    requires Consistent(before, conns, nodeCounter, connectionCounter)
    ensures Ids(after) == Ids(before)
    ensures Consistent(after, conns, nodeCounter, connectionCounter)
  {
    NodeCoverIsMax(before, nodeCounter);
    SameIdsKeepInvariants(before, after, conns, nodeCounter);
    NodeCoverIsMax(after, nodeCounter);
  }

  /** Every connection's endpoints name nodes of the diagram. */
  predicate EndpointsExist(nodes: seq<Node>, conns: seq<Connection>) {
    forall c :: c in conns ==> c.sourceId in Ids(nodes) && c.targetId in Ids(nodes)
  }

  /**
   * Deleting a node and its incident connections leaves no connection
   * pointing at a missing node, and keeps every other node and connection.
   */
  lemma DeleteKeepsEndpoints(nodes: seq<Node>, conns: seq<Connection>, id: string)
    requires EndpointsExist(nodes, conns)
    ensures EndpointsExist(WithoutNode(nodes, id), WithoutIncident(conns, id))
  {
    var ns := WithoutNode(nodes, id);
    forall c | c in WithoutIncident(conns, id)
      ensures c.sourceId in Ids(ns) && c.targetId in Ids(ns)
    {
      var s :| s in nodes && s.id == c.sourceId;
      var t :| t in nodes && t.id == c.targetId;
      assert s in ns && t in ns;
    }
  }

  /** An update that keeps every node's id, in place, keeps the id set, the endpoint invariant and the counter cover. */
  lemma SameIdsKeepInvariants(before: seq<Node>, after: seq<Node>, conns: seq<Connection>, counter: nat)
    requires |after| == |before| && forall i :: 0 <= i < |before| ==> after[i].id == before[i].id
    requires EndpointsExist(before, conns) && NodeCounterCovers(before, counter)
    ensures Ids(after) == Ids(before)
    ensures EndpointsExist(after, conns) && NodeCounterCovers(after, counter)
  {
    forall k | k in Ids(before) ensures k in Ids(after) {
      var n :| n in before && n.id == k;
      var i :| 0 <= i < |before| && before[i] == n;
      assert after[i] in after;
    }
    forall n | n in after ensures NodeNumber(n.id) <= counter {
      var i :| 0 <= i < |after| && after[i] == n;
      assert before[i] in before;
    }
  }

  // ---------------------------------------------------------------------------
  // Connection rules (`addConnection`)
  // ---------------------------------------------------------------------------

  /** The outcome of `addConnection`, in the order the source tests the cases. */
  datatype LinkVerdict =
    | SelfLoop
    | Duplicate
    | MissingSource
    | MissingTarget
    | StartTarget
    | TerminalSource
    | Accepted

  predicate HasPair(conns: seq<Connection>, sourceId: string, targetId: string) {
    exists c :: c in conns && c.sourceId == sourceId && c.targetId == targetId
  }

  predicate IsStartType(t: NodeType) {
    t == Start || t == MessageStart
  }

  function CheckLink(nodes: seq<Node>, conns: seq<Connection>, sourceId: string, targetId: string): LinkVerdict {
    if sourceId == targetId then SelfLoop
    else if HasPair(conns, sourceId, targetId) then Duplicate
    else match FindNode(nodes, sourceId)
      case None => MissingSource
      case Some(s) =>
        match FindNode(nodes, targetId)
        case None => MissingTarget
        case Some(t) =>
          if IsStartType(t.nodeType) then StartTarget
          else if s.nodeType == Terminal then TerminalSource
          else Accepted
  }

  /**
   * A link is accepted exactly when the ids differ, the pair is not yet
   * connected, both nodes exist, the target is no start event and the
   * source no terminal.
   */
  lemma AcceptedExactly(nodes: seq<Node>, conns: seq<Connection>, sourceId: string, targetId: string)
    ensures CheckLink(nodes, conns, sourceId, targetId) == Accepted <==>
      sourceId != targetId && !HasPair(conns, sourceId, targetId) &&
      sourceId in Ids(nodes) && targetId in Ids(nodes) &&
      !IsStartType(FindNode(nodes, targetId).value.nodeType) &&
      FindNode(nodes, sourceId).value.nodeType != Terminal
  {
  }

  /** The connections and counter after `addConnection(sourceId, targetId)`. */
  function Linked(nodes: seq<Node>, conns: seq<Connection>, counter: nat, sourceId: string, targetId: string)
    : (seq<Connection>, nat)
  {
    if CheckLink(nodes, conns, sourceId, targetId) == Accepted then
      (conns + [Connection(FlowId(counter + 1, sourceId, targetId), sourceId, targetId, None)], counter + 1)
    else (conns, counter)
  }

  /**
   * An accepted link keeps the old connections in place and appends exactly
   * one, for the requested pair, under an id no connection had, numbered so
   * the advanced counter still covers every id; a refused link leaves the
   * list as it was.
   */
  lemma LinkAppendsFresh(nodes: seq<Node>, conns: seq<Connection>, counter: nat, sourceId: string, targetId: string)
    requires ConnectionCounterCovers(conns, counter)
    ensures var r := Linked(nodes, conns, counter, sourceId, targetId);
      var accepted := CheckLink(nodes, conns, sourceId, targetId) == Accepted;
      |r.0| == |conns| + (if accepted then 1 else 0) && r.0[..|conns|] == conns &&
      (accepted ==>
        r.0[|conns|].sourceId == sourceId && r.0[|conns|].targetId == targetId &&
        (forall c :: c in conns ==> c.id != r.0[|conns|].id) &&
        ConnectionNumber(r.0[|conns|].id) == r.1 && ConnectionCounterCovers(r.0, r.1))
  {
    FreshConnectionId(conns, counter, sourceId, targetId);
    var r := Linked(nodes, conns, counter, sourceId, targetId);
    assert r.0[..|conns|] == conns;
  }

  /** Connecting the same pair twice yields the connection once: the second request is refused. */
  lemma LinkIdempotent(nodes: seq<Node>, conns: seq<Connection>, counter: nat, sourceId: string, targetId: string)
    ensures var once := Linked(nodes, conns, counter, sourceId, targetId);
      Linked(nodes, once.0, once.1, sourceId, targetId) == once
  {
    var once := Linked(nodes, conns, counter, sourceId, targetId);
    if CheckLink(nodes, conns, sourceId, targetId) == Accepted {
      var c := Connection(FlowId(counter + 1, sourceId, targetId), sourceId, targetId, None);
      assert c in once.0;
      assert HasPair(once.0, sourceId, targetId);
    }
  }

  /** An accepted link keeps every endpoint pointing at a node and the counter covering. */
  lemma LinkKeepsInvariants(nodes: seq<Node>, conns: seq<Connection>, counter: nat, sourceId: string, targetId: string)
    requires EndpointsExist(nodes, conns) && ConnectionCounterCovers(conns, counter)
    ensures var r := Linked(nodes, conns, counter, sourceId, targetId);
      EndpointsExist(nodes, r.0) && ConnectionCounterCovers(r.0, r.1)
  {
    AcceptedExactly(nodes, conns, sourceId, targetId);
    FlowNumberOfFlowId(counter + 1, sourceId, targetId);
  }

  // ---------------------------------------------------------------------------
  // Id counters and their recovery
  // ---------------------------------------------------------------------------

  /** The number `deriveNodeCounter` reads from an id: its value when it is all digits. */
  function NodeNumber(id: string): nat {
    if IsNumeral(id) then DigitsValue(id) else 0
  }

  function ConnectionNumber(id: string): nat {
    FlowNumber(id).GetOr(0)
  }

  /** No numeric node id is above the node counter. */
  predicate NodeCounterCovers(nodes: seq<Node>, counter: nat) {
    forall n :: n in nodes ==> NodeNumber(n.id) <= counter
  }

  /** No `Flow_<n>_` connection id has its number above the connection counter. */
  predicate ConnectionCounterCovers(conns: seq<Connection>, counter: nat) {
    forall c :: c in conns ==> ConnectionNumber(c.id) <= counter
  }

  function MaxNat(a: nat, b: nat): nat {
    if a >= b then a else b
  }

  /** The greatest numeric node id (0 when there is none). */
  function MaxNodeNumber(nodes: seq<Node>): nat
    decreases |nodes|
  {
    if nodes == [] then 0
    else
      var init := nodes[..|nodes| - 1];
      var last := nodes[|nodes| - 1];
      assert nodes == init + [last];
      MaxNat(MaxNodeNumber(init), NodeNumber(last.id))
  }

  /** The greatest number of a `Flow_<n>_` connection id (0 when there is none). */
  function MaxConnectionNumber(conns: seq<Connection>): nat
    decreases |conns|
  {
    if conns == [] then 0
    else
      var init := conns[..|conns| - 1];
      var last := conns[|conns| - 1];
      assert conns == init + [last];
      MaxNat(MaxConnectionNumber(init), ConnectionNumber(last.id))
  }

  /** The recovered node counter covers every numeric id and is one of them (or 0). */
  lemma {:induction false} MaxNodeNumberIsMax(nodes: seq<Node>)
    ensures NodeCounterCovers(nodes, MaxNodeNumber(nodes))
    ensures MaxNodeNumber(nodes) == 0 || exists n :: n in nodes && NodeNumber(n.id) == MaxNodeNumber(nodes)
    decreases |nodes|
  {
    if nodes != [] {
      var init := nodes[..|nodes| - 1];
      assert nodes == init + [nodes[|nodes| - 1]];
      MaxNodeNumberIsMax(init);
    }
  }

  /** The recovered connection counter covers every `Flow_<n>_` number and is one of them (or 0). */
  lemma {:induction false} MaxConnectionNumberIsMax(conns: seq<Connection>)
    ensures ConnectionCounterCovers(conns, MaxConnectionNumber(conns))
    ensures MaxConnectionNumber(conns) == 0 || exists c :: c in conns && ConnectionNumber(c.id) == MaxConnectionNumber(conns)
    decreases |conns|
  {
    if conns != [] {
      var init := conns[..|conns| - 1];
      assert conns == init + [conns[|conns| - 1]];
      MaxConnectionNumberIsMax(init);
    }
  }

  /** A counter covers the node ids exactly when it is at least the recovered one. */
  lemma NodeCoverIsMax(nodes: seq<Node>, counter: nat)
    ensures NodeCounterCovers(nodes, counter) <==> MaxNodeNumber(nodes) <= counter
  {
    MaxNodeNumberIsMax(nodes);
  }

  lemma ConnectionCoverIsMax(conns: seq<Connection>, counter: nat)
    ensures ConnectionCounterCovers(conns, counter) <==> MaxConnectionNumber(conns) <= counter
  {
    MaxConnectionNumberIsMax(conns);
  }

  lemma MaxConnectionStep(conns: seq<Connection>, i: nat)
    requires i < |conns|
    ensures MaxConnectionNumber(conns[..i + 1]) == MaxNat(MaxConnectionNumber(conns[..i]), ConnectionNumber(conns[i].id))
  {
    assert conns[..i + 1][..i] == conns[..i];
  }

  /** `deriveNodeCounter`: the running maximum over the numeric node ids. */
  method DeriveNodeCounter(nodes: seq<Node>) returns (max: nat)
    ensures max == MaxNodeNumber(nodes)
  {
    max := 0;
    var i := 0;
    while i < |nodes|
      invariant 0 <= i <= |nodes|
      invariant max == MaxNodeNumber(nodes[..i])
    {
      var node := nodes[i];
      assert nodes[..i + 1][..i] == nodes[..i];
      if IsNumeral(node.id) {
        var value := DigitsValue(node.id);
        if value > max {
          max := value;
        }
      }
      i := i + 1;
    }
    assert nodes[..i] == nodes;
  }

  /** `deriveConnectionCounter`: the running maximum over the `Flow_<n>_` numbers. */
  method DeriveConnectionCounter(conns: seq<Connection>) returns (max: nat)
    ensures max == MaxConnectionNumber(conns)
  {
    max := 0;
    var i := 0;
    while i < |conns|
      invariant 0 <= i <= |conns|
      invariant max == MaxConnectionNumber(conns[..i])
    {
      var conn := conns[i];
      MaxConnectionStep(conns, i);
      var found := FlowNumber(conn.id);
      if found.Some? {
        var value := found.value;
        assert value == ConnectionNumber(conn.id);
        if value > max {
          max := value;
        }
      }
      i := i + 1;
    }
    assert conns[..i] == conns;
  }

  /** `getNextId` after a covering counter yields an id no node has. */
  lemma FreshNodeId(nodes: seq<Node>, counter: nat)
    requires NodeCounterCovers(nodes, counter)
    ensures NatToString(counter + 1) !in Ids(nodes)
    ensures NodeCounterCovers(nodes, counter + 1)
  {
    NatToStringValue(counter + 1);
    assert NodeNumber(NatToString(counter + 1)) == counter + 1;
  }

  /** `makeConnectionId` after a covering counter yields an id no connection has. */
  lemma FreshConnectionId(conns: seq<Connection>, counter: nat, sourceId: string, targetId: string)
    requires ConnectionCounterCovers(conns, counter)
    ensures forall c :: c in conns ==> c.id != FlowId(counter + 1, sourceId, targetId)
    ensures ConnectionNumber(FlowId(counter + 1, sourceId, targetId)) == counter + 1
  {
    FlowNumberOfFlowId(counter + 1, sourceId, targetId);
  }

  // ---------------------------------------------------------------------------
  // Renaming a node (`updateNodeId`)
  // ---------------------------------------------------------------------------

  /** The outcome of `updateNodeId`'s checks on the trimmed new id, in the source's order. */
  datatype RenameVerdict = IdEmpty | IdInvalid | IdUnchanged | IdTaken | IdAccepted

  function CheckRename(nodes: seq<Node>, id: string, nextId: string): (v: RenameVerdict)
    ensures v == IdAccepted <==> IsValidXmlId(nextId) && nextId != id && nextId !in Ids(nodes)
  {
    if nextId == [] then IdEmpty
    else if !IsValidXmlId(nextId) then IdInvalid
    else if nextId == id then IdUnchanged
    else if nextId in Ids(nodes) then IdTaken
    else IdAccepted
  }

  function RenameNodes(nodes: seq<Node>, id: string, nextId: string): (r: seq<Node>)
    ensures |r| == |nodes|
    ensures forall i :: 0 <= i < |r| ==> r[i] == (if nodes[i].id == id then nodes[i].(id := nextId) else nodes[i])
  {
    seq(|nodes|, i requires 0 <= i < |nodes| => if nodes[i].id == id then nodes[i].(id := nextId) else nodes[i])
  }

  function RenameEnd(e: string, id: string, nextId: string): string {
    if e == id then nextId else e
  }

  /**
   * The connections `updateNodeId` writes: every endpoint equal to `id` is
   * renamed and every connection, incident or not, gets the next fresh id.
   */
  function Regenerated(conns: seq<Connection>, id: string, nextId: string, counter: nat): (r: seq<Connection>)
    ensures |r| == |conns|
  {
    seq(|conns|, i requires 0 <= i < |conns| =>
      var s := RenameEnd(conns[i].sourceId, id, nextId);
      var t := RenameEnd(conns[i].targetId, id, nextId);
      conns[i].(id := FlowId(counter + i + 1, s, t), sourceId := s, targetId := t))
  }

  /**
   * After regeneration the connection ids are pairwise distinct, all above the
   * old counter, and covered by the counter advanced by the number of connections.
   */
  lemma RegeneratedIds(conns: seq<Connection>, id: string, nextId: string, counter: nat)
    ensures var r := Regenerated(conns, id, nextId, counter);
      (forall i :: 0 <= i < |r| ==> ConnectionNumber(r[i].id) == counter + i + 1) &&
      (forall i, j :: 0 <= i < j < |r| ==> r[i].id != r[j].id) &&
      ConnectionCounterCovers(r, counter + |conns|)
  {
    var r := Regenerated(conns, id, nextId, counter);
    forall i | 0 <= i < |r| ensures ConnectionNumber(r[i].id) == counter + i + 1 {
      FlowNumberOfFlowId(counter + i + 1, r[i].sourceId, r[i].targetId);
    }
    forall i, j | 0 <= i < j < |r| ensures r[i].id != r[j].id {
      assert ConnectionNumber(r[i].id) != ConnectionNumber(r[j].id);
    }
  }

  /**
   * Renaming to an id no node has keeps the endpoints pointing at nodes, and
   * keeps the node counter covering (an XML name is never all digits).
   */
  lemma RenameKeepsInvariants(nodes: seq<Node>, conns: seq<Connection>, id: string, nextId: string, counter: nat, nodeCounter: nat)
    requires EndpointsExist(nodes, conns) && NodeCounterCovers(nodes, nodeCounter)
    requires IsValidXmlId(nextId)
    ensures EndpointsExist(RenameNodes(nodes, id, nextId), Regenerated(conns, id, nextId, counter))
    ensures NodeCounterCovers(RenameNodes(nodes, id, nextId), nodeCounter)
  {
    var ns := RenameNodes(nodes, id, nextId);
    var cs := Regenerated(conns, id, nextId, counter);
    ValidXmlIdIsNotNumeral(nextId);
    forall e | e in Ids(nodes) ensures RenameEnd(e, id, nextId) in Ids(ns) {
      var n :| n in nodes && n.id == e;
      var i :| 0 <= i < |nodes| && nodes[i] == n;
      assert ns[i].id == RenameEnd(e, id, nextId);
    }
    forall c | c in cs ensures c.sourceId in Ids(ns) && c.targetId in Ids(ns) {
      var i :| 0 <= i < |cs| && cs[i] == c;
      assert conns[i] in conns;
    }
    forall n | n in ns ensures NodeNumber(n.id) <= nodeCounter {
      var i :| 0 <= i < |ns| && ns[i] == n;
      assert nodes[i] in nodes;
    }
  }

  /** An accepted rename keeps the store consistent, with the connection counter advanced past every new id. */
  lemma RenameKeepsConsistent(nodes: seq<Node>, conns: seq<Connection>, nodeCounter: nat, connectionCounter: nat, id: string, nextId: string)
    requires Consistent(nodes, conns, nodeCounter, connectionCounter) && IsValidXmlId(nextId)
    ensures Consistent(RenameNodes(nodes, id, nextId), Regenerated(conns, id, nextId, connectionCounter),
                       nodeCounter, connectionCounter + |conns|)
  {
    NodeCoverIsMax(nodes, nodeCounter);
    RenameKeepsInvariants(nodes, conns, id, nextId, connectionCounter, nodeCounter);
    RegeneratedIds(conns, id, nextId, connectionCounter);
    NodeCoverIsMax(RenameNodes(nodes, id, nextId), nodeCounter);
    ConnectionCoverIsMax(Regenerated(conns, id, nextId, connectionCounter), connectionCounter + |conns|);
  }

  // ---------------------------------------------------------------------------
  // Multi-selection (`toggleNodeSelection`)
  // ---------------------------------------------------------------------------

  predicate NoDuplicates(s: seq<string>) {
    forall i, j :: 0 <= i < j < |s| ==> s[i] != s[j]
  }

  /** `Array.from(new Set(s))`: first occurrences, in order. */
  function Dedup(s: seq<string>): (r: seq<string>)
    ensures NoDuplicates(r)
    ensures forall x :: x in r <==> x in s
    decreases |s|
  {
    if s == [] then []
    else
      var d := Dedup(s[..|s| - 1]);
      var x := s[|s| - 1];
      assert s == s[..|s| - 1] + [x];
      if x in d then d else d + [x]
  }

  lemma {:induction false} DedupOfDistinct(s: seq<string>)
    requires NoDuplicates(s)
    ensures Dedup(s) == s
    decreases |s|
  {
    if s != [] {
      var init := s[..|s| - 1];
      DedupOfDistinct(init);
      assert s[|s| - 1] !in init;
      assert init + [s[|s| - 1]] == s;
    }
  }

  /** The sequence without any `x`, in order: `Set.prototype.delete` on a de-duplicated selection, `filter(y => y !== x)` on any. */
  function Remove(s: seq<string>, x: string): (r: seq<string>)
    ensures forall y :: y in r <==> y in s && y != x
    ensures NoDuplicates(s) ==> NoDuplicates(r)
    decreases |s|
  {
    if s == [] then []
    else
      var rest := Remove(s[1..], x);
      NoDupSplit(s);
      if s[0] == x then rest
      else
        NoDupSplit([s[0]] + rest);
        assert ([s[0]] + rest)[1..] == rest;
        [s[0]] + rest
  }

  lemma NoDupSplit(s: seq<string>)
    requires s != []
    ensures NoDuplicates(s) <==> s[0] !in s[1..] && NoDuplicates(s[1..])
  {
    if NoDuplicates(s) {
      forall j | 0 <= j < |s[1..]| ensures s[1..][j] != s[0] {
        assert s[1..][j] == s[j + 1];
      }
      forall i, j | 0 <= i < j < |s[1..]| ensures s[1..][i] != s[1..][j] {
        assert s[1..][i] == s[i + 1];
      }
    }
    if s[0] !in s[1..] && NoDuplicates(s[1..]) {
      forall i, j | 0 <= i < j < |s| ensures s[i] != s[j] {
        if i == 0 {
          assert s[j] == s[1..][j - 1];
        } else {
          assert s[i] == s[1..][i - 1] && s[j] == s[1..][j - 1];
        }
      }
    }
  }

  /** The selection after `toggleNodeSelection(id)`, and the primary selection with it. */
  function ToggledIds(ids: seq<string>, id: string): (r: seq<string>)
    ensures NoDuplicates(r)
    ensures forall x :: x in r <==> (x in ids <==> x != id)
  {
    var set0 := Dedup(ids);
    if id in set0 then Remove(set0, id) else set0 + [id]
  }

  function ToggledPrimary(ids: seq<string>, primary: Option<string>, id: string): (r: Option<string>)
    ensures id !in ids ==> r == Some(id)
    ensures id in ids && primary != Some(id) ==> r == primary
    ensures id in ids && primary == Some(id) ==> r == At(ToggledIds(ids, id), |ToggledIds(ids, id)| - 1)
  {
    if id in Dedup(ids) then
      if primary == Some(id) then At(ToggledIds(ids, id), |ToggledIds(ids, id)| - 1) else primary
    else Some(id)
  }

  /** Toggling an unselected id on and then off gives back the de-duplicated selection. */
  lemma ToggleTwice(ids: seq<string>, id: string)
    requires id !in ids
    ensures ToggledIds(ToggledIds(ids, id), id) == Dedup(ids)
  {
    var d := Dedup(ids);
    var once := d + [id];
    assert NoDuplicates(once);
    DedupOfDistinct(once);
    RemoveLast(d, id);
  }

  lemma {:induction false} RemoveLast(d: seq<string>, id: string)
    requires id !in d
    ensures Remove(d + [id], id) == d
    decreases |d|
  {
    if d == [] {
      assert [id][1..] == [];
    } else {
      assert (d + [id])[1..] == d[1..] + [id];
      RemoveLast(d[1..], id);
    }
  }
}

=== FILE: hierarchy.dfy ===
/**
 * The `parentId` hierarchy of a diagram: a node whose `parentId` is a
 * non-empty string is a child of the node with that id (a subprocess).
 * `moveNode` and `adjustSubprocessBounds` walk it; `exportBpmnXml` nests by it.
 *
 * The source walks the hierarchy without a visited set, so it terminates only
 * when the hierarchy has no cycle.  A `rank` map that strictly decreases from
 * parent to child witnesses that; `Weight` counts the walk's steps and
 * `SubtreeIds` is the set of ids the walk reaches.
 */
module Hierarchy {
  import opened Diagram

  /** The parent a node is grouped under: `parentId` when it is truthy. */
  function ParentKey(n: Node): (r: Option<string>)
    ensures r.Some? <==> Truthy(n.parentId)
    ensures r.Some? ==> r == n.parentId
  {
    if Truthy(n.parentId) then n.parentId else None
  }

  /** `childrenByParent.get(p) ?? []`: the children of `p`, in list order. */
  function ChildrenOf(nodes: seq<Node>, p: string): (r: seq<Node>)
    ensures |r| <= |nodes|
    ensures forall c :: c in r <==> c in nodes && ParentKey(c) == Some(p)
    decreases |nodes|
  {
    if nodes == [] then []
    else (if ParentKey(nodes[0]) == Some(p) then [nodes[0]] else []) + ChildrenOf(nodes[1..], p)
  }

  /** `rank` decreases strictly from every parent to each of its children. */
  ghost predicate Ranked(nodes: seq<Node>, rank: map<string, nat>) {
    forall n :: n in nodes ==>
      n.id in rank &&
      (ParentKey(n).Some? ==> ParentKey(n).value in rank && rank[n.id] < rank[ParentKey(n).value])
  }

  /** Every node of `cs` is a node of the diagram ranked below `bound`. */
  ghost predicate Below(nodes: seq<Node>, rank: map<string, nat>, cs: seq<Node>, bound: nat) {
    Ranked(nodes, rank) && forall c :: c in cs ==> c in nodes && rank[c.id] < bound
  }

  lemma ChildrenBelow(nodes: seq<Node>, rank: map<string, nat>, p: string)
    requires Ranked(nodes, rank) && p in rank
    ensures Below(nodes, rank, ChildrenOf(nodes, p), rank[p])
  {
  }

  /** The number of queue steps the walk takes from `k`: `k` itself and every walk below it. */
  ghost function Weight(nodes: seq<Node>, rank: map<string, nat>, k: string): (w: nat)
    requires Ranked(nodes, rank) && k in rank
    ensures w >= 1
    decreases rank[k], 1
  {
    ChildrenBelow(nodes, rank, k);
    1 + WeightSum(nodes, rank, ChildrenOf(nodes, k), rank[k])
  }

  ghost function WeightSum(nodes: seq<Node>, rank: map<string, nat>, cs: seq<Node>, bound: nat): nat
    requires Below(nodes, rank, cs, bound)
    decreases bound, 0, |cs|
  {
    if cs == [] then 0
    else Weight(nodes, rank, cs[0].id) + WeightSum(nodes, rank, cs[1..], bound)
  }

  /** The ids the walk from `k` reaches: `k` and all its transitive descendants. */
  ghost function SubtreeIds(nodes: seq<Node>, rank: map<string, nat>, k: string): set<string>
    requires Ranked(nodes, rank) && k in rank
    decreases rank[k], 1
  {
    ChildrenBelow(nodes, rank, k);
    {k} + ForestIds(nodes, rank, ChildrenOf(nodes, k), rank[k])
  }

  ghost function ForestIds(nodes: seq<Node>, rank: map<string, nat>, cs: seq<Node>, bound: nat): set<string>
    requires Below(nodes, rank, cs, bound)
    decreases bound, 0, |cs|
  {
    if cs == [] then {}
    else SubtreeIds(nodes, rank, cs[0].id) + ForestIds(nodes, rank, cs[1..], bound)
  }

  /** The bound is only a termination measure: it does not change the sums. */
  lemma {:induction false} BoundIrrelevant(nodes: seq<Node>, rank: map<string, nat>, cs: seq<Node>, b1: nat, b2: nat)
    requires Below(nodes, rank, cs, b1) && Below(nodes, rank, cs, b2)
    ensures WeightSum(nodes, rank, cs, b1) == WeightSum(nodes, rank, cs, b2)
    ensures ForestIds(nodes, rank, cs, b1) == ForestIds(nodes, rank, cs, b2)
    decreases |cs|
  {
    if cs != [] {
      BoundIrrelevant(nodes, rank, cs[1..], b1, b2);
    }
  }

  lemma {:induction false} ForestAppend(nodes: seq<Node>, rank: map<string, nat>, a: seq<Node>, b: seq<Node>, bound: nat)
    requires Below(nodes, rank, a, bound) && Below(nodes, rank, b, bound)
    ensures Below(nodes, rank, a + b, bound)
    ensures WeightSum(nodes, rank, a + b, bound) == WeightSum(nodes, rank, a, bound) + WeightSum(nodes, rank, b, bound)
    ensures ForestIds(nodes, rank, a + b, bound) == ForestIds(nodes, rank, a, bound) + ForestIds(nodes, rank, b, bound)
    decreases |a|
  {
    if a == [] {
      assert a + b == b;
    } else {
      assert (a + b)[1..] == a[1..] + b;
      ForestAppend(nodes, rank, a[1..], b, bound);
    }
  }

  /**
   * One step of the walk: taking `cs[0]` off the queue and appending its
   * children lowers the queue's weight by one and keeps the set of ids still
   * to be reached apart from `cs[0].id` itself.
   */
  lemma PopStep(nodes: seq<Node>, rank: map<string, nat>, cs: seq<Node>, bound: nat)
    requires Below(nodes, rank, cs, bound) && cs != []
    ensures Below(nodes, rank, cs[1..] + ChildrenOf(nodes, cs[0].id), bound)
    ensures WeightSum(nodes, rank, cs[1..] + ChildrenOf(nodes, cs[0].id), bound) + 1 == WeightSum(nodes, rank, cs, bound)
    ensures {cs[0].id} + ForestIds(nodes, rank, cs[1..] + ChildrenOf(nodes, cs[0].id), bound) == ForestIds(nodes, rank, cs, bound)
  {
    var c := cs[0];
    var kids := ChildrenOf(nodes, c.id);
    ChildrenBelow(nodes, rank, c.id);
    assert Below(nodes, rank, kids, bound);
    BoundIrrelevant(nodes, rank, kids, rank[c.id], bound);
    ForestAppend(nodes, rank, cs[1..], kids, bound);
  }

  /** Every id the walk reaches below `k` ranks lower than `k`; in particular it is not `k`. */
  lemma {:induction false} ForestRank(nodes: seq<Node>, rank: map<string, nat>, cs: seq<Node>, bound: nat, j: string)
    requires Below(nodes, rank, cs, bound) && j in ForestIds(nodes, rank, cs, bound)
    ensures j in rank && rank[j] < bound
    decreases bound, 0, |cs|
  {
    if j !in SubtreeIds(nodes, rank, cs[0].id) {
      ForestRank(nodes, rank, cs[1..], bound, j);
    } else if j != cs[0].id {
      var c := cs[0];
      ChildrenBelow(nodes, rank, c.id);
      ForestRank(nodes, rank, ChildrenOf(nodes, c.id), rank[c.id], j);
    }
  }

  lemma SubtreeRank(nodes: seq<Node>, rank: map<string, nat>, k: string, j: string)
    requires Ranked(nodes, rank) && k in rank && j in SubtreeIds(nodes, rank, k) && j != k
    ensures j in rank && rank[j] < rank[k]
  {
    ChildrenBelow(nodes, rank, k);
    ForestRank(nodes, rank, ChildrenOf(nodes, k), rank[k], j);
  }

  /** The set reached from `cs` is closed under children. */
  lemma {:induction false} ForestClosed(nodes: seq<Node>, rank: map<string, nat>, cs: seq<Node>, bound: nat, j: string, c: Node)
    requires Below(nodes, rank, cs, bound) && j in ForestIds(nodes, rank, cs, bound)
    requires c in nodes && ParentKey(c) == Some(j)
    ensures c.id in ForestIds(nodes, rank, cs, bound)
    decreases bound, 0, |cs|
  {
    if j !in SubtreeIds(nodes, rank, cs[0].id) {
      ForestClosed(nodes, rank, cs[1..], bound, j, c);
    } else {
      SubtreeClosed(nodes, rank, cs[0].id, j, c);
    }
  }

  /**
   * `SubtreeIds(k)` holds every child of every id it holds: it contains all
   * transitive descendants of `k`.
   */
  lemma {:induction false} SubtreeClosed(nodes: seq<Node>, rank: map<string, nat>, k: string, j: string, c: Node)
    requires Ranked(nodes, rank) && k in rank && j in SubtreeIds(nodes, rank, k)
    requires c in nodes && ParentKey(c) == Some(j)
    ensures c.id in SubtreeIds(nodes, rank, k)
    decreases rank[k], 1
  {
    ChildrenBelow(nodes, rank, k);
    var kids := ChildrenOf(nodes, k);
    if j == k {
      ForestHasSubtree(nodes, rank, kids, rank[k], c);
    } else {
      ForestClosed(nodes, rank, kids, rank[k], j, c);
    }
  }

  lemma {:induction false} ForestHasSubtree(nodes: seq<Node>, rank: map<string, nat>, cs: seq<Node>, bound: nat, c: Node)
    requires Below(nodes, rank, cs, bound) && c in cs
    ensures c.id in ForestIds(nodes, rank, cs, bound)
    decreases |cs|
  {
    if cs[0] != c {
      ForestHasSubtree(nodes, rank, cs[1..], bound, c);
    }
  }

  /**
   * Conversely, every id of `SubtreeIds(k)` other than `k` is the id of a
   * node whose parent is in `SubtreeIds(k)`: the set holds only descendants.
   */
  lemma {:induction false} SubtreeOnlyDescendants(nodes: seq<Node>, rank: map<string, nat>, k: string, j: string)
    returns (c: Node)
    requires Ranked(nodes, rank) && k in rank && j in SubtreeIds(nodes, rank, k) && j != k
    ensures c in nodes && c.id == j && ParentKey(c).Some?
    ensures ParentKey(c).value in SubtreeIds(nodes, rank, k)
    decreases rank[k], 1
  {
    ChildrenBelow(nodes, rank, k);
    c := ForestOnlyDescendants(nodes, rank, ChildrenOf(nodes, k), rank[k], j, k);
  }

  lemma {:induction false} ForestOnlyDescendants(nodes: seq<Node>, rank: map<string, nat>, cs: seq<Node>, bound: nat, j: string, k: string)
    returns (c: Node)
    requires Below(nodes, rank, cs, bound) && j in ForestIds(nodes, rank, cs, bound)
    requires k in rank && bound == rank[k] && forall d :: d in cs ==> ParentKey(d) == Some(k)
    ensures c in nodes && c.id == j && ParentKey(c).Some?
    ensures ParentKey(c).value in SubtreeIds(nodes, rank, k)
    decreases bound, 0, |cs|
  {
    var d := cs[0];
    if j !in SubtreeIds(nodes, rank, d.id) {
      c := ForestOnlyDescendants(nodes, rank, cs[1..], bound, j, k);
    } else if j == d.id {
      c := d;
    } else {
      var c' := SubtreeOnlyDescendants(nodes, rank, d.id, j);
      c := c';
      SubtreeWithin(nodes, rank, k, d, ParentKey(c).value);
    }
  }

  /** A child's subtree lies inside its parent's. */
  lemma SubtreeWithin(nodes: seq<Node>, rank: map<string, nat>, k: string, d: Node, j: string)
    requires Ranked(nodes, rank) && k in rank && d in nodes && ParentKey(d) == Some(k)
    requires j in SubtreeIds(nodes, rank, d.id)
    ensures j in SubtreeIds(nodes, rank, k)
  {
    ChildrenBelow(nodes, rank, k);
    var kids := ChildrenOf(nodes, k);
    ForestHasSubtree(nodes, rank, kids, rank[k], d);
    ForestWithin(nodes, rank, kids, rank[k], d, j);
  }

  lemma {:induction false} ForestWithin(nodes: seq<Node>, rank: map<string, nat>, cs: seq<Node>, bound: nat, d: Node, j: string)
    requires Below(nodes, rank, cs, bound) && d in cs && j in SubtreeIds(nodes, rank, d.id)
    ensures j in ForestIds(nodes, rank, cs, bound)
    decreases |cs|
  {
    if cs[0] != d {
      ForestWithin(nodes, rank, cs[1..], bound, d, j);
    }
  }
}

=== FILE: move.dfy ===
/**
 * What `moveNode(id, position)` does to the diagram, stated declaratively:
 * the target node takes the new position, every transitive `parentId`
 * descendant of it is translated by the same delta, and every connection
 * touching a moved node is rerouted with that delta.
 */
module Move {
  import opened Diagram
  import opened Graph
  import opened Hierarchy
  import opened Rerouting

  /** The planar delta of moving `target` to `position`. */
  function PlanarDelta(target: Node, position: Vec3): Point {
    Point(position.x - target.position.x, position.z - target.position.z)
  }

  /** The ids `moveNode` moves: the target's and all its descendants' (none when the id is unknown). */
  ghost function MovedIds(nodes: seq<Node>, rank: map<string, nat>, id: string): set<string>
    requires Ranked(nodes, rank)
  {
    match FindNode(nodes, id)
    case None => {}
    case Some(_) => SubtreeIds(nodes, rank, id)
  }

  /** `movedDeltas`: every moved id carries the target's planar delta. */
  ghost function MovedDeltas(nodes: seq<Node>, rank: map<string, nat>, id: string, position: Vec3): (m: map<string, Point>)
    requires Ranked(nodes, rank)
    ensures m.Keys == MovedIds(nodes, rank, id)
  {
    match FindNode(nodes, id)
    case None => map[]
    case Some(target) => map k | k in SubtreeIds(nodes, rank, id) :: PlanarDelta(target, position)
  }

  /** The node list after the move, for a diagram whose ids are unique. */
  ghost function MovedNodes(nodes: seq<Node>, rank: map<string, nat>, id: string, position: Vec3): (r: seq<Node>)
    requires Ranked(nodes, rank)
    ensures |r| == |nodes|
  {
    match FindNode(nodes, id)
    case None => nodes
    case Some(target) =>
      var delta := Sub3(position, target.position);
      var moved := SubtreeIds(nodes, rank, id);
      seq(|nodes|, i requires 0 <= i < |nodes| =>
        if nodes[i].id == id then nodes[i].(position := position)
        else if nodes[i].id in moved then nodes[i].(position := Add3(nodes[i].position, delta))
        else nodes[i])
  }

  /** The connection list after the move. */
  ghost function MovedConnections(nodes: seq<Node>, rank: map<string, nat>, id: string, position: Vec3, conns: seq<Connection>): (r: seq<Connection>)
    requires Ranked(nodes, rank)
    ensures |r| == |conns|
  {
    var deltas := MovedDeltas(nodes, rank, id, position);
    seq(|conns|, i requires 0 <= i < |conns| => Reroute(conns[i], deltas))
  }

  /** An unknown id moves nothing: nodes and connections are returned unchanged. */
  lemma MoveUnknownId(nodes: seq<Node>, rank: map<string, nat>, id: string, position: Vec3, conns: seq<Connection>)
    requires Ranked(nodes, rank) && id !in Ids(nodes)
    ensures MovedNodes(nodes, rank, id, position) == nodes
    ensures MoveEffect(nodes, nodes, rank, id, position)
    ensures MovedConnections(nodes, rank, id, position, conns) == conns
  {
    var r := MovedConnections(nodes, rank, id, position, conns);
    forall i | 0 <= i < |conns| ensures r[i] == conns[i] {
      RerouteCases(conns[i], map[]);
    }
  }

  /**
   * The move is a rigid translation of the subtree: every node whose id was
   * moved, the target included, is displaced by the same delta, and every
   * other node stays where it was.
   */
  lemma MoveIsTranslation(nodes: seq<Node>, rank: map<string, nat>, id: string, position: Vec3)
    requires Ranked(nodes, rank) && UniqueIds(nodes) && FindNode(nodes, id).Some?
    ensures var target := FindNode(nodes, id).value;
      var r := MovedNodes(nodes, rank, id, position);
      forall i :: 0 <= i < |nodes| ==>
        r[i] == nodes[i].(position := r[i].position) &&
        r[i].position == (if nodes[i].id in MovedIds(nodes, rank, id)
                          then Add3(nodes[i].position, Sub3(position, target.position))
                          else nodes[i].position)
  {
    var target := FindNode(nodes, id).value;
    var moved := SubtreeIds(nodes, rank, id);
    assert MovedIds(nodes, rank, id) == moved && id in moved;
    var r := MovedNodes(nodes, rank, id, position);
    forall i | 0 <= i < |nodes|
      ensures r[i] == nodes[i].(position := r[i].position)
      ensures r[i].position == (if nodes[i].id in moved then Add3(nodes[i].position, Sub3(position, target.position))
                                else nodes[i].position)
    {
      if nodes[i].id == id {
        FindUnique(nodes, nodes[i]);
        assert Add3(target.position, Sub3(position, target.position)) == position;
      }
    }
  }

  /** Every transitive descendant of the target is among the moved ids. */
  lemma DescendantsMove(nodes: seq<Node>, rank: map<string, nat>, id: string, parent: string, child: Node)
    requires Ranked(nodes, rank) && id in Ids(nodes)
    requires parent in MovedIds(nodes, rank, id)
    requires child in nodes && ParentKey(child) == Some(parent)
    ensures child.id in MovedIds(nodes, rank, id)
  {
    SubtreeClosed(nodes, rank, id, parent, child);
  }

  /** A moved id other than the target is a child of a moved id: no unrelated node moves. */
  lemma OnlyDescendantsMove(nodes: seq<Node>, rank: map<string, nat>, id: string, k: string)
    returns (child: Node)
    requires Ranked(nodes, rank) && k in MovedIds(nodes, rank, id) && k != id
    ensures child in nodes && child.id == k && ParentKey(child).Some?
    ensures ParentKey(child).value in MovedIds(nodes, rank, id)
  {
    child := SubtreeOnlyDescendants(nodes, rank, id, k);
  }

  /**
   * Connections among the moved nodes travel with them: when both endpoints
   * moved, every waypoint is translated by the move's delta.  Connections
   * touching no moved node keep their waypoints.
   */
  lemma MoveCarriesInnerConnections(nodes: seq<Node>, rank: map<string, nat>, id: string, position: Vec3, c: Connection)
    requires Ranked(nodes, rank) && FindNode(nodes, id).Some?
    ensures var deltas := MovedDeltas(nodes, rank, id, position);
      var moved := MovedIds(nodes, rank, id);
      var r := Reroute(c, deltas);
      (c.sourceId !in moved && c.targetId !in moved ==> r == c) &&
      (c.sourceId in moved && c.targetId in moved && c.waypoints.Some? && |c.waypoints.value| >= 2 ==>
        r.waypoints == Some(Translated(c.waypoints.value, PlanarDelta(FindNode(nodes, id).value, position))))
  {
    var deltas := MovedDeltas(nodes, rank, id, position);
    RerouteCases(c, deltas);
  }

  /**
   * The invariant of the walk of `moveNode` while `queue` is pending: the
   * ids seen so far plus those still reachable from the queue make up the
   * target's subtree; the target keeps `position`; under unique ids every
   * other seen id is displaced by `delta`; every seen id carries `childDelta`.
   */
  ghost predicate Walking(nodes: seq<Node>, rank: map<string, nat>, id: string, position: Vec3, delta: Vec3,
                          childDelta: Point, queue: seq<Node>, next: map<string, Vec3>, movedDeltas: map<string, Point>)
  {
    id in rank && Below(nodes, rank, queue, rank[id]) &&
    next.Keys + ForestIds(nodes, rank, queue, rank[id]) == SubtreeIds(nodes, rank, id) &&
    id in next && next[id] == position &&
    (UniqueIds(nodes) ==> forall k :: k in next && k != id ==>
      FindNode(nodes, k).Some? && next[k] == Add3(FindNode(nodes, k).value.position, delta)) &&
    movedDeltas.Keys == next.Keys && forall k :: k in movedDeltas ==> movedDeltas[k] == childDelta
  }

  /** One pop of the walk keeps `Walking` and lowers the weight of the queue. */
  lemma WalkStep(nodes: seq<Node>, rank: map<string, nat>, id: string, position: Vec3, delta: Vec3,
                 childDelta: Point, queue: seq<Node>, next: map<string, Vec3>, movedDeltas: map<string, Point>)
    requires Walking(nodes, rank, id, position, delta, childDelta, queue, next, movedDeltas) && queue != []
    ensures var child := queue[0];
      var rest := queue[1..] + ChildrenOf(nodes, child.id);
      Walking(nodes, rank, id, position, delta, childDelta, rest,
              next[child.id := Add3(child.position, delta)], movedDeltas[child.id := childDelta]) &&
      WeightSum(nodes, rank, rest, rank[id]) < WeightSum(nodes, rank, queue, rank[id])
  {
    var child := queue[0];
    var rest := queue[1..] + ChildrenOf(nodes, child.id);
    var next', moved' := next[child.id := Add3(child.position, delta)], movedDeltas[child.id := childDelta];
    PopStep(nodes, rank, queue, rank[id]);
    assert child.id != id by {
      assert child in queue;
    }
    assert next'.Keys + ForestIds(nodes, rank, rest, rank[id]) == SubtreeIds(nodes, rank, id) by {
      assert next'.Keys == next.Keys + {child.id};
    }
    assert UniqueIds(nodes) ==> forall k :: k in next' && k != id ==>
      FindNode(nodes, k).Some? && next'[k] == Add3(FindNode(nodes, k).value.position, delta)
    by {
      if UniqueIds(nodes) {
        assert child in nodes;
        FindUnique(nodes, child);
      }
    }
    assert moved'.Keys == next'.Keys;
    assert forall k :: k in moved' ==> moved'[k] == childDelta;
    assert id in rank && id in next' && next'[id] == position;
  }

  /** The walk starts from the target alone, with its children queued. */
  lemma WalkStart(nodes: seq<Node>, rank: map<string, nat>, id: string, target: Node, position: Vec3)
    requires Ranked(nodes, rank) && FindNode(nodes, id) == Some(target)
    ensures var delta := Sub3(position, target.position);
      var d := PlanarDelta(target, position);
      d == Point(delta.x, delta.z) &&
      Walking(nodes, rank, id, position, delta, d, ChildrenOf(nodes, id), map[id := position], map[id := d])
  {
    ChildrenBelow(nodes, rank, id);
  }

  /** With the queue empty, the seen ids are the moved ids and the deltas are `movedDeltas`. */
  lemma WalkDone(nodes: seq<Node>, rank: map<string, nat>, id: string, target: Node, position: Vec3,
                 next: map<string, Vec3>, movedDeltas: map<string, Point>)
    requires Ranked(nodes, rank) && FindNode(nodes, id) == Some(target)
    requires Walking(nodes, rank, id, position, Sub3(position, target.position), PlanarDelta(target, position), [], next, movedDeltas)
    ensures next.Keys == MovedIds(nodes, rank, id)
    ensures next[id] == position
    ensures UniqueIds(nodes) ==> forall i :: 0 <= i < |nodes| && nodes[i].id in next && nodes[i].id != id ==>
      next[nodes[i].id] == Add3(nodes[i].position, Sub3(position, target.position))
    ensures movedDeltas == MovedDeltas(nodes, rank, id, position)
  {
    if UniqueIds(nodes) {
      forall i | 0 <= i < |nodes| && nodes[i].id in next && nodes[i].id != id
        ensures next[nodes[i].id] == Add3(nodes[i].position, Sub3(position, target.position))
      {
        FindUnique(nodes, nodes[i]);
      }
    }
  }

  /**
   * The breadth-first walk of `moveNode`: starting from the target's
   * children, every node popped from the queue gets its position plus the
   * delta and queues its own children.  The walk ends because every queued
   * node ranks below the target and each pop lowers the subtree weight.
   */
  method CollectMoves(nodes: seq<Node>, ghost rank: map<string, nat>, id: string, target: Node, position: Vec3)
    returns (next: map<string, Vec3>, movedDeltas: map<string, Point>)
    requires Ranked(nodes, rank) && FindNode(nodes, id) == Some(target)
    ensures next.Keys == MovedIds(nodes, rank, id)
    ensures next[id] == position
    ensures UniqueIds(nodes) ==> forall i :: 0 <= i < |nodes| && nodes[i].id in next && nodes[i].id != id ==>
      next[nodes[i].id] == Add3(nodes[i].position, Sub3(position, target.position))
    ensures movedDeltas == MovedDeltas(nodes, rank, id, position)
  {
    next := map[id := position];
    movedDeltas := map[id := PlanarDelta(target, position)];
    var delta := Sub3(position, target.position);
    var childDelta := Point(delta.x, delta.z);
    var queue := ChildrenOf(nodes, id);
    WalkStart(nodes, rank, id, target, position);
    while |queue| > 0
      invariant Walking(nodes, rank, id, position, delta, childDelta, queue, next, movedDeltas)
      decreases WeightSum(nodes, rank, queue, rank[id])
    {
      var child := queue[0];
      WalkStep(nodes, rank, id, position, delta, childDelta, queue, next, movedDeltas);
      queue := queue[1..];
      next := next[child.id := Add3(child.position, delta)];
      movedDeltas := movedDeltas[child.id := childDelta];
      var grandKids := ChildrenOf(nodes, child.id);
      queue := queue + grandKids;
    }
    WalkDone(nodes, rank, id, target, position, next, movedDeltas);
  }

  /**
   * The `nodes.update` callback of `moveNode`: finds the target, walks its
   * subtree and writes back the new positions.  `changed` is whether any
   * node took a new position, which happens exactly when the target exists.
   */
  method MoveInList(nodes: seq<Node>, ghost rank: map<string, nat>, id: string, position: Vec3)
    returns (after: seq<Node>, movedDeltas: map<string, Point>, changed: bool)
    requires Ranked(nodes, rank)
    ensures MoveEffect(nodes, after, rank, id, position)
    ensures movedDeltas == MovedDeltas(nodes, rank, id, position)
    ensures changed == (id in Ids(nodes)) && (changed ==> id in movedDeltas)
  {
    match FindNode(nodes, id) {
      case None =>
        MoveUnknownId(nodes, rank, id, position, []);
        after, movedDeltas, changed := nodes, map[], false;
      case Some(target) =>
        var next;
        next, movedDeltas := CollectMoves(nodes, rank, id, target, position);
        RelocatedEffects(nodes, rank, id, target, position, next);
        after, changed := Relocated(nodes, next), true;
    }
  }

  /** `nodes.update(... next.get(n.id) ...)`: every node named in `next` takes its new position. */
  function Relocated(nodes: seq<Node>, next: map<string, Vec3>): (r: seq<Node>)
    ensures |r| == |nodes|
  {
    seq(|nodes|, i requires 0 <= i < |nodes| =>
      if nodes[i].id in next then nodes[i].(position := next[nodes[i].id]) else nodes[i])
  }

  /**
   * What `moveNode` does to the node list: positions change and nothing
   * else, every node outside the moved set is untouched, the target sits at
   * `position`, and for unique ids the result is exactly `MovedNodes`.
   */
  ghost predicate MoveEffect(nodes: seq<Node>, after: seq<Node>, rank: map<string, nat>, id: string, position: Vec3)
    requires Ranked(nodes, rank)
  {
    |after| == |nodes| &&
    (forall i :: 0 <= i < |after| ==> after[i] == nodes[i].(position := after[i].position)) &&
    (forall i :: 0 <= i < |after| && nodes[i].id !in MovedIds(nodes, rank, id) ==> after[i] == nodes[i]) &&
    (forall i :: 0 <= i < |after| && nodes[i].id == id ==> after[i].position == position) &&
    (UniqueIds(nodes) ==> after == MovedNodes(nodes, rank, id, position))
  }

  /** Writing back the positions the walk collected has exactly the effect `MoveEffect` describes. */
  lemma RelocatedEffects(nodes: seq<Node>, rank: map<string, nat>, id: string, target: Node, position: Vec3,
    next: map<string, Vec3>)
    requires Ranked(nodes, rank) && FindNode(nodes, id) == Some(target)
    requires next.Keys == MovedIds(nodes, rank, id) && id in next && next[id] == position
    requires UniqueIds(nodes) ==> forall i :: 0 <= i < |nodes| && nodes[i].id in next && nodes[i].id != id ==>
      next[nodes[i].id] == Add3(nodes[i].position, Sub3(position, target.position))
    ensures MoveEffect(nodes, Relocated(nodes, next), rank, id, position)
  {
    var r := Relocated(nodes, next);
    if UniqueIds(nodes) {
      var m := MovedNodes(nodes, rank, id, position);
      forall i | 0 <= i < |r| ensures r[i] == m[i] {
      }
    }
  }

  /** The connection loop of `moveNode`: every connection rerouted with the moved deltas. */
  method RerouteAll(conns: seq<Connection>, deltas: map<string, Point>) returns (updated: seq<Connection>)
    ensures |updated| == |conns|
    ensures forall i :: 0 <= i < |conns| ==> updated[i] == Reroute(conns[i], deltas)
  {
    updated := [];
    var i := 0;
    while i < |conns|
      invariant 0 <= i <= |conns|
      invariant |updated| == i
      invariant forall j :: 0 <= j < i ==> updated[j] == Reroute(conns[j], deltas)
    {
      var conn := RerouteConnection(conns[i], deltas);
      updated := updated + [conn];
      i := i + 1;
    }
  }
}

=== FILE: reroute.dfy ===
/**
 * How `moveNode` carries the waypoints of a connection along when one or both
 * of its endpoints move: the whole list is translated when both endpoints
 * moved by the same delta; otherwise the first (last) waypoint is shifted
 * together with the run of following (preceding) waypoints that lies on the
 * axis line of the first (last) leg.
 */
module Rerouting {
  import opened Diagram

  /** `nearlyEqual`: closer than 1e-4. */
  predicate NearlyEqual(a: real, b: real) {
    Abs(a - b) < 0.0001
  }

  predicate DeltasEqual(a: Point, b: Point) {
    NearlyEqual(a.x, b.x) && NearlyEqual(a.z, b.z)
  }

  /** The axis a leg runs along: `'x'` or `'z'`. */
  datatype Axis = AlongX | AlongZ

  /** `axisFrom`: a leg whose x coordinates agree runs along z; else one whose z agree runs along x. */
  function AxisFrom(a: Point, b: Point): (r: Option<Axis>)
    ensures r == Some(AlongZ) <==> NearlyEqual(a.x, b.x)
    ensures r == Some(AlongX) <==> !NearlyEqual(a.x, b.x) && NearlyEqual(a.z, b.z)
    ensures r.None? <==> !NearlyEqual(a.x, b.x) && !NearlyEqual(a.z, b.z)
  {
    if NearlyEqual(a.x, b.x) then Some(AlongZ)
    else if NearlyEqual(a.z, b.z) then Some(AlongX)
    else None
  }

  /** `p` lies on the line through `base` along `axis` (the loop's continue condition). */
  predicate OnLine(axis: Axis, p: Point, base: Point) {
    match axis
    case AlongX => NearlyEqual(p.z, base.z)
    case AlongZ => NearlyEqual(p.x, base.x)
  }

  /** The first index at or after `from` whose point leaves the line: the forward run ends there. */
  function RunEnd(original: seq<Point>, axis: Axis, base: Point, from: nat): (k: nat)
    requires from <= |original|
    ensures from <= k <= |original|
    ensures forall i :: from <= i < k ==> OnLine(axis, original[i], base)
    ensures k < |original| ==> !OnLine(axis, original[k], base)
    decreases |original| - from
  {
    if from == |original| then from
    else if !OnLine(axis, original[from], base) then from
    else RunEnd(original, axis, base, from + 1)
  }

  /** The lowest index of the backward run that ends at `from`. */
  function RunStart(original: seq<Point>, axis: Axis, base: Point, from: int): (k: nat)
    requires -1 <= from < |original|
    ensures k <= from + 1
    ensures forall i :: k <= i <= from ==> OnLine(axis, original[i], base)
    ensures k > 0 ==> !OnLine(axis, original[k - 1], base)
    decreases from + 1
  {
    if from < 0 then 0
    else if !OnLine(axis, original[from], base) then from + 1
    else RunStart(original, axis, base, from - 1)
  }

  /** How many leading points `shiftStart` moves: the first, plus its run when the first leg has an axis. */
  function StartRunLength(original: seq<Point>): (k: nat)
    requires |original| >= 1
    ensures 1 <= k <= |original|
  {
    if |original| == 1 then 1
    else match AxisFrom(original[0], original[1])
      case None => 1
      case Some(axis) => RunEnd(original, axis, original[0], 1)
  }

  /** The first index `shiftEnd` moves: the last point, plus its run when the last leg has an axis. */
  function EndRunStart(original: seq<Point>): (k: nat)
    requires |original| >= 1
    ensures k <= |original| - 1
  {
    var last := |original| - 1;
    if last == 0 then last
    else match AxisFrom(original[last - 1], original[last])
      case None => last
      case Some(axis) => RunStart(original, axis, original[last], last - 1)
  }

  /** The points after `shiftStart(original, points, delta)`. */
  function ShiftedStart(original: seq<Point>, points: seq<Point>, delta: Point): (r: seq<Point>)
    requires |points| == |original|
    ensures |r| == |points|
  {
    if |points| == 0 then points
    else
      var k := StartRunLength(original);
      seq(|points|, i requires 0 <= i < |points| => if i < k then AddP(points[i], delta) else points[i])
  }

  /** The points after `shiftEnd(original, points, delta)`. */
  function ShiftedEnd(original: seq<Point>, points: seq<Point>, delta: Point): (r: seq<Point>)
    requires |points| == |original|
    ensures |r| == |points|
  {
    if |points| == 0 then points
    else
      var k := EndRunStart(original);
      seq(|points|, i requires 0 <= i < |points| => if i >= k then AddP(points[i], delta) else points[i])
  }

  function Translated(points: seq<Point>, delta: Point): (r: seq<Point>)
    ensures |r| == |points|
    ensures forall i :: 0 <= i < |r| ==> r[i] == AddP(points[i], delta)
  {
    seq(|points|, i requires 0 <= i < |points| => AddP(points[i], delta))
  }

  /** The connection `moveNode` writes back, given the deltas of the moved node ids. */
  function Reroute(c: Connection, deltas: map<string, Point>): (r: Connection)
    ensures r.id == c.id && r.sourceId == c.sourceId && r.targetId == c.targetId
  {
    var sd := Get(deltas, c.sourceId);
    var td := Get(deltas, c.targetId);
    if sd.None? && td.None? then c
    else match c.waypoints
      case None => c.(waypoints := None)
      case Some(w) =>
        if |w| < 2 then c.(waypoints := None)
        else if sd.Some? && td.Some? && DeltasEqual(sd.value, td.value) then
          c.(waypoints := Some(Translated(w, sd.value)))
        else
          var n1 := if sd.Some? then ShiftedStart(w, w, sd.value) else w;
          var n2 := if td.Some? then ShiftedEnd(w, n1, td.value) else n1;
          c.(waypoints := Some(n2))
  }

  /** `shiftStart`, in place on the copied waypoint array. */
  method ShiftStart(original: seq<Point>, points: array<Point>, delta: Point)
    requires points.Length == |original|
    modifies points
    ensures points[..] == ShiftedStart(original, old(points[..]), delta)
  {
    if points.Length == 0 {
      return;
    }
    ghost var before := points[..];
    var base := original[0];
    var axis := if |original| > 1 then AxisFrom(original[0], original[1]) else None;
    points[0] := AddP(points[0], delta);
    if axis.None? {
      assert points[..] == ShiftedStart(original, before, delta);
      return;
    }
    var i := 1;
    while i < points.Length
      invariant 1 <= i <= points.Length
      invariant i <= RunEnd(original, axis.value, base, 1)
      invariant forall j :: 0 <= j < i ==> points[j] == AddP(before[j], delta)
      invariant forall j :: i <= j < points.Length ==> points[j] == before[j]
    {
      var p := original[i];
      if axis == Some(AlongX) && !NearlyEqual(p.z, base.z) {
        break;
      }
      if axis == Some(AlongZ) && !NearlyEqual(p.x, base.x) {
        break;
      }
      points[i] := AddP(points[i], delta);
      i := i + 1;
    }
    assert i == StartRunLength(original);
    assert points[..] == ShiftedStart(original, before, delta);
  }

  /** `shiftEnd`, in place on the copied waypoint array. */
  method ShiftEnd(original: seq<Point>, points: array<Point>, delta: Point)
    requires points.Length == |original|
    modifies points
    ensures points[..] == ShiftedEnd(original, old(points[..]), delta)
  {
    if points.Length == 0 {
      return;
    }
    ghost var before := points[..];
    var lastIndex := points.Length - 1;
    var base := original[lastIndex];
    var axis := if |original| > 1 then AxisFrom(original[lastIndex - 1], original[lastIndex]) else None;
    points[lastIndex] := AddP(points[lastIndex], delta);
    if axis.None? {
      assert points[..] == ShiftedEnd(original, before, delta);
      return;
    }
    var i := lastIndex - 1;
    while i >= 0
      invariant -1 <= i < lastIndex
      invariant RunStart(original, axis.value, base, lastIndex - 1) <= i + 1
      invariant forall j :: i < j < points.Length ==> points[j] == AddP(before[j], delta)
      invariant forall j :: 0 <= j <= i ==> points[j] == before[j]
    {
      var p := original[i];
      if axis == Some(AlongX) && !NearlyEqual(p.z, base.z) {
        break;
      }
      if axis == Some(AlongZ) && !NearlyEqual(p.x, base.x) {
        break;
      }
      points[i] := AddP(points[i], delta);
      i := i - 1;
    }
    assert i + 1 == EndRunStart(original);
    assert points[..] == ShiftedEnd(original, before, delta);
  }

  /** The per-connection step of `moveNode`'s connection update. */
  method RerouteConnection(c: Connection, deltas: map<string, Point>) returns (r: Connection)
    ensures r == Reroute(c, deltas)
  {
    var sd := Get(deltas, c.sourceId);
    var td := Get(deltas, c.targetId);
    if sd.None? && td.None? {
      return c;
    }
    match c.waypoints {
      case None =>
        return c.(waypoints := None);
      case Some(w) =>
        if |w| < 2 {
          return c.(waypoints := None);
        }
        if sd.Some? && td.Some? && DeltasEqual(sd.value, td.value) {
          return c.(waypoints := Some(Translated(w, sd.value)));
        }
        var next := new Point[|w|](i requires 0 <= i < |w| => w[i]);
        assert next[..] == w;
        if sd.Some? {
          ShiftStart(w, next, sd.value);
        }
        ghost var n1 := next[..];
        if td.Some? {
          ShiftEnd(w, next, td.value);
        }
        return c.(waypoints := Some(next[..]));
    }
  }

  /**
   * The outcomes of rerouting one connection: an untouched connection is
   * returned as is; a touched one without two waypoints loses them; equal
   * deltas translate every waypoint; a single moved endpoint shifts exactly
   * its end run and leaves the other points where they were; two unequal
   * deltas shift the start run by the source's and then the end run by the
   * target's, a point in both runs by both.
   */
  lemma RerouteCases(c: Connection, deltas: map<string, Point>)
    ensures c.sourceId !in deltas && c.targetId !in deltas ==> Reroute(c, deltas) == c
    ensures (c.sourceId in deltas || c.targetId in deltas) && (c.waypoints.None? || |c.waypoints.value| < 2)
      ==> Reroute(c, deltas).waypoints.None?
    ensures c.sourceId in deltas && c.targetId in deltas && c.waypoints.Some? && |c.waypoints.value| >= 2
      && DeltasEqual(deltas[c.sourceId], deltas[c.targetId])
      ==> Reroute(c, deltas).waypoints == Some(Translated(c.waypoints.value, deltas[c.sourceId]))
    ensures c.sourceId in deltas && c.targetId !in deltas && c.waypoints.Some? && |c.waypoints.value| >= 2
      ==> var w := c.waypoints.value;
          var r := Reroute(c, deltas).waypoints;
          r.Some? && |r.value| == |w| &&
          forall i :: 0 <= i < |w| ==>
            r.value[i] == (if i < StartRunLength(w) then AddP(w[i], deltas[c.sourceId]) else w[i])
    ensures c.sourceId !in deltas && c.targetId in deltas && c.waypoints.Some? && |c.waypoints.value| >= 2
      ==> var w := c.waypoints.value;
          var r := Reroute(c, deltas).waypoints;
          r.Some? && |r.value| == |w| &&
          forall i :: 0 <= i < |w| ==>
            r.value[i] == (if i >= EndRunStart(w) then AddP(w[i], deltas[c.targetId]) else w[i])
    ensures c.sourceId in deltas && c.targetId in deltas && c.waypoints.Some? && |c.waypoints.value| >= 2
      && !DeltasEqual(deltas[c.sourceId], deltas[c.targetId])
      ==> var w := c.waypoints.value;
          var r := Reroute(c, deltas).waypoints;
          var sd, td := deltas[c.sourceId], deltas[c.targetId];
          r.Some? && |r.value| == |w| &&
          forall i :: 0 <= i < |w| ==>
            r.value[i] == (if i >= EndRunStart(w) then AddP(if i < StartRunLength(w) then AddP(w[i], sd) else w[i], td)
                           else if i < StartRunLength(w) then AddP(w[i], sd) else w[i])
  {
  }

  /**
   * The run `shiftStart` moves is exactly the first point and the maximal run
   * after it lying on the axis line of the first leg.
   */
  lemma StartRunIsMaximal(original: seq<Point>, axis: Axis)
    requires |original| >= 2 && AxisFrom(original[0], original[1]) == Some(axis)
    ensures forall i :: 0 <= i < StartRunLength(original) ==> OnLine(axis, original[i], original[0])
    ensures StartRunLength(original) >= 2
    ensures StartRunLength(original) < |original| ==>
      !OnLine(axis, original[StartRunLength(original)], original[0])
  {
    var k := StartRunLength(original);
    assert OnLine(axis, original[0], original[0]);
    assert OnLine(axis, original[1], original[0]);
  }

  lemma EndRunIsMaximal(original: seq<Point>, axis: Axis)
    requires |original| >= 2 && AxisFrom(original[|original| - 2], original[|original| - 1]) == Some(axis)
    ensures forall i :: EndRunStart(original) <= i < |original| ==> OnLine(axis, original[i], original[|original| - 1])
    ensures EndRunStart(original) <= |original| - 2
    ensures EndRunStart(original) > 0 ==>
      !OnLine(axis, original[EndRunStart(original) - 1], original[|original| - 1])
  {
    var last := |original| - 1;
    assert OnLine(axis, original[last], original[last]);
    assert OnLine(axis, original[last - 1], original[last]);
  }

  /**
   * Shifting a run moves its points rigidly: a leg inside the shifted run keeps
   * its exact direction, so an axis-parallel first leg stays axis-parallel.
   */
  lemma ShiftKeepsRunLegs(w: seq<Point>, delta: Point, i: nat)
    requires |w| >= 2 && i + 1 < StartRunLength(w)
    ensures var r := ShiftedStart(w, w, delta);
      SubP(r[i + 1], r[i]) == SubP(w[i + 1], w[i])
  {
  }
}

=== FILE: snapshot.dfy ===
/**
 * The JSON snapshot of a diagram, on the parsed record rather than on the
 * text: `exportDiagramJson` builds the record, `importDiagramJson` reads one
 * back, filling every absent field with its default and dropping the
 * connections whose endpoints are not among the imported nodes.
 */
module Snapshot {
  import opened Diagram
  import opened Graph
  import Text

  /** A `position` object; each coordinate may be absent. */
  datatype PositionRecord = PositionRecord(x: Option<real>, y: Option<real>, z: Option<real>)

  /**
   * One entry of `nodes`.  `multiInstance` and `parentId` fold the absent and
   * the `null` field together, as `?? null` does on import.
   */
  datatype NodeRecord = NodeRecord(
    id: string,
    nodeType: NodeType,
    name: Option<string>,
    description: Option<string>,
    multiInstance: MultiInstance,
    parentId: Option<string>,
    bounds: Option<Bounds>,
    position: Option<PositionRecord>)

  datatype ConnectionRecord = ConnectionRecord(
    id: string,
    sourceId: string,
    targetId: string,
    waypoints: Option<seq<Point>>)

  /** The whole payload; `nodes` or `connections` is `None` when missing or not an array. */
  datatype DiagramRecord = DiagramRecord(
    version: Option<int>,
    processId: Option<string>,
    processName: Option<string>,
    nodes: Option<seq<NodeRecord>>,
    connections: Option<seq<ConnectionRecord>>)

  /** The format version `exportDiagramJson` writes. */
  const SnapshotVersion: int := 1

  // ---------------------------------------------------------------------------
  // Export
  // ---------------------------------------------------------------------------

  function ExportNode(n: Node): NodeRecord {
    NodeRecord(n.id, n.nodeType, Some(n.name), Some(n.description), n.multiInstance, n.parentId, n.bounds,
      Some(PositionRecord(Some(n.position.x), Some(n.position.y), Some(n.position.z))))
  }

  function ExportConnection(c: Connection): ConnectionRecord {
    ConnectionRecord(c.id, c.sourceId, c.targetId, c.waypoints)
  }

  function ExportNodes(nodes: seq<Node>): (r: seq<NodeRecord>)
    ensures |r| == |nodes|
    decreases |nodes|
  {
    if nodes == [] then [] else [ExportNode(nodes[0])] + ExportNodes(nodes[1..])
  }

  function ExportConnections(conns: seq<Connection>): (r: seq<ConnectionRecord>)
    ensures |r| == |conns|
    decreases |conns|
  {
    if conns == [] then [] else [ExportConnection(conns[0])] + ExportConnections(conns[1..])
  }

  /** `exportDiagramJson`: version 1, the process id and name, every node and every connection. */
  function ExportDiagram(processId: string, processName: string, nodes: seq<Node>, conns: seq<Connection>)
    : DiagramRecord
  {
    DiagramRecord(Some(SnapshotVersion), Some(processId), Some(processName),
      Some(ExportNodes(nodes)), Some(ExportConnections(conns)))
  }

  // ---------------------------------------------------------------------------
  // Import
  // ---------------------------------------------------------------------------

  /** A node read back: a missing name is `Node <id>`, a missing description empty, a missing coordinate 0. */
  function ImportNode(r: NodeRecord): Node {
    var p := r.position.GetOr(PositionRecord(None, None, None));
    Node(r.id, r.nodeType, Vec3(p.x.GetOr(0.0), p.y.GetOr(0.0), p.z.GetOr(0.0)),
      r.name.GetOr("Node " + r.id), r.description.GetOr(""), r.multiInstance, r.parentId, r.bounds)
  }

  function ImportNodes(rs: seq<NodeRecord>): (r: seq<Node>)
    ensures |r| == |rs|
    ensures forall i :: 0 <= i < |rs| ==> r[i] == ImportNode(rs[i])
    decreases |rs|
  {
    if rs == [] then [] else [ImportNode(rs[0])] + ImportNodes(rs[1..])
  }

  function ImportConnection(r: ConnectionRecord): Connection {
    Connection(r.id, r.sourceId, r.targetId, r.waypoints)
  }

  /** `filter` on both endpoints being imported node ids, then `map`; order is kept. */
  function ImportConnections(rs: seq<ConnectionRecord>, ids: set<string>): (r: seq<Connection>)
    ensures forall c :: c in r ==> c.sourceId in ids && c.targetId in ids
    ensures forall x :: x in rs && x.sourceId in ids && x.targetId in ids ==> ImportConnection(x) in r
    ensures forall c :: c in r ==> exists x :: x in rs && ImportConnection(x) == c
    decreases |rs|
  {
    if rs == [] then []
    else
      var rest := ImportConnections(rs[1..], ids);
      assert forall x :: x in rs[1..] ==> x in rs;
      (if rs[0].sourceId in ids && rs[0].targetId in ids then [ImportConnection(rs[0])] else []) + rest
  }

  /** Why an import is refused before anything is changed. */
  datatype ImportError = NodesMissing | ConnectionsMissing

  /** The nodes and connections an accepted snapshot sets, or the reason it is refused. */
  datatype Imported = Imported(nodes: seq<Node>, connections: seq<Connection>)

  datatype ImportResult = Refused(error: ImportError) | Loaded(value: Imported)

  function ImportDiagram(data: DiagramRecord): (r: ImportResult)
    ensures data.nodes.None? <==> r == Refused(NodesMissing)
    ensures data.nodes.Some? && data.connections.None? <==> r == Refused(ConnectionsMissing)
    ensures r.Loaded? ==> EndpointsExist(r.value.nodes, r.value.connections)
  {
    match data.nodes
    case None => Refused(NodesMissing)
    case Some(nrs) =>
      match data.connections
      case None => Refused(ConnectionsMissing)
      case Some(crs) =>
        var nodes := ImportNodes(nrs);
        Loaded(Imported(nodes, ImportConnections(crs, Ids(nodes))))
  }

  /** The process id after import: the record's (or the current) id, when it is an XML name. */
  function ImportedProcessId(data: DiagramRecord, current: string): string {
    var next := data.processId.GetOr(current);
    if next != "" && Text.IsValidXmlId(next) then next else current
  }

  /** The process name after import: the record's (or the current) name, trimmed, unless blank. */
  function ImportedProcessName(data: DiagramRecord, current: string): string {
    var next := data.processName.GetOr(current);
    if next != "" && Text.Trim(next) != "" then Text.Trim(next) else current
  }

  // ---------------------------------------------------------------------------
  // Properties
  // ---------------------------------------------------------------------------

  lemma {:induction false} NodesRoundTrip(nodes: seq<Node>)
    ensures ImportNodes(ExportNodes(nodes)) == nodes
    decreases |nodes|
  {
    if nodes != [] {
      NodesRoundTrip(nodes[1..]);
      assert ImportNode(ExportNode(nodes[0])) == nodes[0];
    }
  }

  /** Connections whose endpoints all exist come back whole and in order. */
  lemma {:induction false} ConnectionsRoundTrip(conns: seq<Connection>, ids: set<string>)
    requires forall c :: c in conns ==> c.sourceId in ids && c.targetId in ids
    ensures ImportConnections(ExportConnections(conns), ids) == conns
    decreases |conns|
  {
    if conns != [] {
      assert forall c :: c in conns[1..] ==> c in conns;
      ConnectionsRoundTrip(conns[1..], ids);
      assert ExportConnections(conns)[1..] == ExportConnections(conns[1..]);
    }
  }

  /**
   * Exporting a diagram whose connections all end at existing nodes and
   * importing the record gives back the same nodes and connections, the same
   * valid process id and the same trimmed, non-blank process name.
   */
  lemma SnapshotRoundTrip(processId: string, processName: string, nodes: seq<Node>, conns: seq<Connection>,
    currentId: string, currentName: string)
    requires EndpointsExist(nodes, conns)
    ensures var data := ExportDiagram(processId, processName, nodes, conns);
      ImportDiagram(data) == Loaded(Imported(nodes, conns)) &&
      (Text.IsValidXmlId(processId) ==> ImportedProcessId(data, currentId) == processId) &&
      (processName != "" && Text.Trim(processName) == processName ==> ImportedProcessName(data, currentName) == processName)
  {
    NodesRoundTrip(nodes);
    ConnectionsRoundTrip(conns, Ids(nodes));
  }

  /**
   * Every accepted import satisfies the store's invariant once the counters
   * are recovered, so the next node id and the next connection id, whatever
   * its endpoints, are fresh.
   */
  lemma ImportIsConsistent(data: DiagramRecord, sourceId: string, targetId: string)
    requires ImportDiagram(data).Loaded?
    ensures var v := ImportDiagram(data).value;
      var nodeCounter := MaxNodeNumber(v.nodes);
      var connectionCounter := MaxConnectionNumber(v.connections);
      Consistent(v.nodes, v.connections, nodeCounter, connectionCounter) &&
      Text.NatToString(nodeCounter + 1) !in Ids(v.nodes) &&
      forall c :: c in v.connections ==> c.id != Text.FlowId(connectionCounter + 1, sourceId, targetId)
  {
    var v := ImportDiagram(data).value;
    NodeCoverIsMax(v.nodes, MaxNodeNumber(v.nodes));
    FreshNodeId(v.nodes, MaxNodeNumber(v.nodes));
    ConnectionCoverIsMax(v.connections, MaxConnectionNumber(v.connections));
    FreshConnectionId(v.connections, MaxConnectionNumber(v.connections), sourceId, targetId);
  }
}

=== FILE: state.dfy ===
/**
 * `ProcessStateService`: the single mutable store of a process diagram.  Its
 * node and connection lists, id counters, selection, drag and hover ids,
 * interaction mode, status and dirty flag are fields; every operation is a
 * method that states the new value of each field it may change.
 *
 * The store's invariant, `Graph.Consistent` (the counters cover every id
 * they could collide with and every endpoint names a node), is proved of the
 * effect functions the methods are specified by, in the `...KeepsConsistent`
 * lemmas, and of the initial diagram in `DefaultDiagramConsistent`.
 */
module State {
  import opened Diagram
  import opened Text
  import opened Graph
  import opened Hierarchy
  import opened Rerouting
  import opened Move
  import Snapshot
  import BpmnExport
  import BpmnImport
  import BpmnRoundTrip

  /** The status line; each constructor is one message the source writes. */
  datatype Status =
    | SystemReady
    | ModeChanged(mode: InteractionMode)
    | NodeTypeChanged(nodeType: NodeType)
    | NodeAdded(addedType: NodeType, at: Vec3)
    | NodeDeleted(deletedId: string)
    | ConnectionDeleted
    | SourceNotFound(sourceId: string)
    | TargetNotFound(targetId: string)
    | StartHasNoIncoming
    | TerminalHasNoOutgoing
    | Connected(fromId: string, toId: string)
    | SourceSelected
    | SourceDeselected
    | Dragging(draggedId: string)
    | NodeSelected(selectedId: string)
    | ConnectionSelected(connectionId: string)
    | SelectionCleared
    | SnapChanged(on: bool)
    | NodesSelected(count: nat)
    | NodeIdEmpty
    | NodeIdInvalid
    | NodeIdTaken(takenId: string)
    | ProcessIdEmpty
    | ProcessIdInvalid
    | ProcessIdUpdated
    | ProcessNameEmpty
    | ProcessNameUpdated
    | MissingNodes
    | MissingConnections
    | DiagramLoaded
    | BpmnImported
    | InvalidBpmnXml

  /** The status `addConnection` leaves for each verdict. */
  function LinkStatus(v: LinkVerdict, sourceId: string, targetId: string, previous: Status): Status {
    match v
    case SelfLoop => previous
    case Duplicate => previous
    case MissingSource => SourceNotFound(sourceId)
    case MissingTarget => TargetNotFound(targetId)
    case StartTarget => StartHasNoIncoming
    case TerminalSource => TerminalHasNoOutgoing
    case Accepted => Connected(sourceId, targetId)
  }

  function RenameStatus(v: RenameVerdict, nextId: string, previous: Status): Status {
    match v
    case IdEmpty => NodeIdEmpty
    case IdInvalid => NodeIdInvalid
    case IdUnchanged => previous
    case IdTaken => NodeIdTaken(nextId)
    case IdAccepted => previous
  }

  /** The type of the i-th node of the initial diagram, left to right. */
  function DefaultType(i: nat): NodeType
    requires i < 6
  {
    if i == 0 then Start
    else if i == 1 then UserTask
    else if i == 2 then ExclusiveGateway
    else if i == 3 then ServiceTask
    else if i == 4 then ExclusiveGateway
    else Terminal
  }

  /** A freshly added node: named after its id, no description, no parent, no bounds. */
  function NewNode(id: string, nodeType: NodeType, position: Vec3): Node {
    Node(id, nodeType, position, "Node " + id, "", NoMultiInstance, None, None)
  }

  /** The id of the i-th initial node, `(i + 1).toString()`: a single digit. */
  function DefaultId(i: nat): string
    requires i < 9
  {
    [DigitChar(i + 1)]
  }

  lemma DefaultIdIsCounter(i: nat)
    requires i < 9
    ensures NatToString(i + 1) == DefaultId(i)
  {
  }

  /** The i-th initial node: id `i+1`, spaced 5 apart and centred on the origin. */
  function DefaultNode(i: nat): Node
    requires i < 6
  {
    NewNode(DefaultId(i), DefaultType(i), Vec3(i as real * 5.0 - 12.5, 0.0, 0.0))
  }

  /** The i-th initial connection, from node `i+1` to node `i+2`. */
  function DefaultConnection(i: nat): Connection
    requires i < 5
  {
    Connection(FlowId(i + 1, DefaultId(i), DefaultId(i + 1)), DefaultId(i), DefaultId(i + 1), None)
  }

  /** `nodes` holds the first `n` initial nodes. */
  predicate DefaultNodesUpTo(nodes: seq<Node>, n: nat) {
    n <= 6 && |nodes| == n && forall j :: 0 <= j < n ==> nodes[j] == DefaultNode(j)
  }

  /** `conns` holds the first `n` initial connections. */
  predicate DefaultConnectionsUpTo(conns: seq<Connection>, n: nat) {
    n <= 5 && |conns| == n && forall j :: 0 <= j < n ==> conns[j] == DefaultConnection(j)
  }

  /** In the initial chain no start event is a target and no terminal a source. */
  lemma DefaultTypesLinkable(i: nat)
    requires 0 < i < 6
    ensures !IsStartType(DefaultType(i)) && DefaultType(i - 1) != Terminal
  {
  }

  /** The first `i` initial nodes, the first `i - 1` initial connections, and counters to match. */
  predicate DefaultBuilt(nodes: seq<Node>, conns: seq<Connection>, nodeCounter: nat, connectionCounter: nat, i: nat) {
    var links := if i == 0 then 0 else i - 1;
    DefaultNodesUpTo(nodes, i) && nodeCounter == i && DefaultConnectionsUpTo(conns, links) && connectionCounter == links
  }

  /**
   * While the initial chain is built, linking node `i` to node `i+1` passes
   * every check of `addConnection` (the ids differ, the pair is new, both
   * nodes exist, the target is no start event and the source no terminal),
   * so it appends the next initial connection.
   */
  lemma DefaultLinkStep(nodes: seq<Node>, conns: seq<Connection>, i: nat)
    requires 0 < i < 6 && DefaultNodesUpTo(nodes, i + 1) && DefaultConnectionsUpTo(conns, i - 1)
    ensures CheckLink(nodes, conns, DefaultId(i - 1), DefaultId(i)) == Accepted
    ensures Linked(nodes, conns, i - 1, DefaultId(i - 1), DefaultId(i)).0 == conns + [DefaultConnection(i - 1)]
  {
    forall c | c in conns ensures c.targetId != DefaultId(i) {
      var j :| 0 <= j < i - 1 && conns[j] == c;
    }
    FindAt(nodes, i - 1);
    FindAt(nodes, i);
    DefaultTypesLinkable(i);
  }

  lemma DefaultConnectionsExtend(conns: seq<Connection>, i: nat)
    requires 0 < i < 6 && DefaultConnectionsUpTo(conns, i - 1)
    ensures DefaultConnectionsUpTo(conns + [DefaultConnection(i - 1)], i)
  {
  }

  /** One round of the initial loop: the next node, and from the second round on the link to it. */
  lemma DefaultBuiltStep(nodes: seq<Node>, conns: seq<Connection>, i: nat)
    requires i < 6 && DefaultBuilt(nodes, conns, i, if i == 0 then 0 else i - 1, i)
    ensures DefaultBuilt(nodes + [DefaultNode(i)], if i == 0 then conns else conns + [DefaultConnection(i - 1)], i + 1, i, i + 1)
  {
    if i > 0 {
      DefaultConnectionsExtend(conns, i);
    }
  }

  /** The initial diagram satisfies the store's invariant under counters 6 and 5. */
  lemma DefaultDiagramConsistent(nodes: seq<Node>, conns: seq<Connection>)
    requires DefaultNodesUpTo(nodes, 6) && DefaultConnectionsUpTo(conns, 5)
    ensures Consistent(nodes, conns, 6, 5)
  {
    forall j | 0 <= j < 6 ensures NodeNumber(nodes[j].id) <= 6 {
      DefaultIdIsCounter(j);
      NatToStringValue(j + 1);
    }
    NodeCoverIsMax(nodes, 6);
    forall j | 0 <= j < 5 ensures ConnectionNumber(conns[j].id) <= 5 {
      FlowNumberOfFlowId(j + 1, DefaultId(j), DefaultId(j + 1));
    }
    ConnectionCoverIsMax(conns, 5);
    forall j | 0 <= j < 5 ensures conns[j].sourceId in Ids(nodes) && conns[j].targetId in Ids(nodes) {
      assert nodes[j].id == conns[j].sourceId && nodes[j + 1].id == conns[j].targetId;
    }
  }

  class ProcessStateService {
    var nodes: seq<Node>
    var connections: seq<Connection>
    var processId: string
    var processName: string
    var interactionMode: InteractionMode
    var currentNodeType: NodeType
    var selectedNodeId: Option<string>
    var selectedNodeIds: seq<string>
    var selectedConnectionId: Option<string>
    var draggedNodeId: Option<string>
    var hoveredNodeId: Option<string>
    var hoveredConnectionId: Option<string>
    var showModal: bool
    var statusMessage: Status
    var isDirty: bool
    var snapToGrid: bool
    var nodeCounter: nat
    var connectionCounter: nat

    /** The service starts with six nodes chained by five connections. */
    constructor ()
      ensures DefaultNodesUpTo(nodes, 6) && DefaultConnectionsUpTo(connections, 5)
      ensures nodeCounter == 6 && connectionCounter == 5
      ensures processId == "Process_1" && processName == "SPEAR Process"
      ensures interactionMode == Move && currentNodeType == UserTask
      ensures selectedNodeId == None && selectedNodeIds == [] && selectedConnectionId == None
      ensures draggedNodeId == None && hoveredNodeId == None && hoveredConnectionId == None
      ensures !showModal && isDirty && snapToGrid
      ensures statusMessage == Connected("5", "6")
    {
      nodes := [];
      connections := [];
      processId := "Process_1";
      processName := "SPEAR Process";
      interactionMode := Move;
      currentNodeType := UserTask;
      selectedNodeId := None;
      selectedNodeIds := [];
      selectedConnectionId := None;
      draggedNodeId := None;
      hoveredNodeId := None;
      hoveredConnectionId := None;
      showModal := false;
      statusMessage := SystemReady;
      isDirty := false;
      snapToGrid := true;
      nodeCounter := 0;
      connectionCounter := 0;
      new;
      InitializeDefaultNodes();
    }

    /**
     * `initializeDefaultNodes`: adds the six default nodes left to right and
     * links each one to the one before it through `addConnection`.
     */
    method InitializeDefaultNodes()
      requires nodes == [] && connections == [] && nodeCounter == 0 && connectionCounter == 0
      modifies this`nodes, this`connections, this`nodeCounter, this`connectionCounter, this`isDirty, this`statusMessage
      ensures DefaultNodesUpTo(nodes, 6) && DefaultConnectionsUpTo(connections, 5)
      ensures nodeCounter == 6 && connectionCounter == 5
      ensures isDirty && statusMessage == Connected("5", "6")
    {
      var i := 0;
      while i < 6
        invariant 0 <= i <= 6
        invariant DefaultBuilt(nodes, connections, nodeCounter, connectionCounter, i)
        invariant i > 0 ==> isDirty
        invariant i > 1 ==> statusMessage == Connected(DefaultId(i - 2), DefaultId(i - 1))
      {
        AddDefaultNode(i);
        i := i + 1;
      }
    }

    /**
     * The `forEach` callback of `initializeDefaultNodes` for index `i`: adds
     * the i-th node and, after the first, links the previous node to it.
     */
    method AddDefaultNode(i: nat)
      requires i < 6 && DefaultBuilt(nodes, connections, nodeCounter, connectionCounter, i)
      modifies this`nodes, this`connections, this`nodeCounter, this`connectionCounter, this`isDirty, this`statusMessage
      ensures DefaultBuilt(nodes, connections, nodeCounter, connectionCounter, i + 1)
      ensures isDirty
      ensures statusMessage == if i == 0 then old(statusMessage) else Connected(DefaultId(i - 1), DefaultId(i))
    {
      ghost var nodes0, connections0 := nodes, connections;
      DefaultBuiltStep(nodes0, connections0, i);
      var id := GetNextId();
      DefaultIdIsCounter(i);
      var node := NewNode(id, DefaultType(i), Vec3(i as real * 5.0 - 12.5, 0.0, 0.0));
      assert node == DefaultNode(i);
      nodes := nodes + [node];
      isDirty := true;
      assert nodes == nodes0 + [DefaultNode(i)];
      if i > 0 {
        LinkDefault(i);
      }
    }

    /** The second half of a round of the initial loop: the link from the previous node to the new one. */
    method LinkDefault(i: nat)
      requires 0 < i < 6 && DefaultNodesUpTo(nodes, i + 1)
      requires DefaultConnectionsUpTo(connections, i - 1) && connectionCounter == i - 1
      modifies this`connections, this`connectionCounter, this`isDirty, this`statusMessage
      ensures connections == old(connections) + [DefaultConnection(i - 1)] && connectionCounter == i
      ensures isDirty && statusMessage == Connected(DefaultId(i - 1), DefaultId(i))
    {
      DefaultLinkStep(nodes, connections, i);
      var prevNode, node := nodes[|nodes| - 2], nodes[|nodes| - 1];
      assert prevNode == DefaultNode(i - 1) && node == DefaultNode(i);
      AddConnection(prevNode.id, node.id);
    }

    /** `getNextId`: the counter's next value, as a decimal string. */
    method GetNextId() returns (id: string)
      modifies this`nodeCounter
      ensures nodeCounter == old(nodeCounter) + 1
      ensures id == NatToString(nodeCounter)
    {
      nodeCounter := nodeCounter + 1;
      id := NatToString(nodeCounter);
    }

    /** `makeConnectionId`: `Flow_<next counter>_<source>_<target>`. */
    method MakeConnectionId(sourceId: string, targetId: string) returns (id: string)
      modifies this`connectionCounter
      ensures connectionCounter == old(connectionCounter) + 1
      ensures id == FlowId(connectionCounter, sourceId, targetId)
    {
      connectionCounter := connectionCounter + 1;
      id := FlowId(connectionCounter, sourceId, targetId);
    }

    method HoverNode(id: Option<string>, isHovered: bool)
      modifies this`hoveredNodeId
      ensures hoveredNodeId == if isHovered then id else None
    {
      hoveredNodeId := if isHovered then id else None;
    }

    method HoverConnection(id: Option<string>, isHovered: bool)
      modifies this`hoveredConnectionId
      ensures hoveredConnectionId == if isHovered then id else None
    {
      hoveredConnectionId := if isHovered then id else None;
    }

    /** `setMode`: leaving link mode clears the node selection; delete mode clears all selection. */
    method SetMode(mode: InteractionMode)
      modifies this`interactionMode, this`statusMessage, this`selectedNodeId, this`selectedNodeIds, this`selectedConnectionId
      ensures interactionMode == mode && statusMessage == ModeChanged(mode)
      ensures selectedNodeId == (if mode != Link then None else old(selectedNodeId))
      ensures selectedNodeIds == (if mode != Link then [] else old(selectedNodeIds))
      ensures selectedConnectionId == (if mode == Delete then None else old(selectedConnectionId))
    {
      interactionMode := mode;
      statusMessage := ModeChanged(mode);
      if mode != Link {
        selectedNodeId := None;
        selectedNodeIds := [];
      }
      if mode == Delete {
        selectedNodeId := None;
        selectedNodeIds := [];
        selectedConnectionId := None;
      }
    }

    method SetNodeType(nodeType: NodeType)
      modifies this`currentNodeType, this`statusMessage
      ensures currentNodeType == nodeType && statusMessage == NodeTypeChanged(nodeType)
    {
      currentNodeType := nodeType;
      statusMessage := NodeTypeChanged(nodeType);
    }

    /** `addNode`: appends a node of the current type under the next numeric id, which no node has. */
    method AddNode(position: Vec3)
      modifies this`nodes, this`nodeCounter, this`isDirty, this`statusMessage
      ensures nodeCounter == old(nodeCounter) + 1
      ensures nodes == old(nodes) + [NewNode(NatToString(nodeCounter), currentNodeType, position)]
      ensures isDirty && statusMessage == NodeAdded(currentNodeType, position)
    {
      var nodeType := currentNodeType;
      var id := GetNextId();
      var newNode := NewNode(id, nodeType, position);
      nodes := nodes + [newNode];
      isDirty := true;
      statusMessage := NodeAdded(nodeType, position);
    }

    /**
     * `moveNode`: the target takes `position`; the breadth-first walk over
     * `parentId` translates every descendant by the same delta; connections
     * touching a moved node are rerouted.  `rank` witnesses that the
     * hierarchy has no cycle, without which the walk does not terminate.
     */
    method MoveNode(id: string, position: Vec3, ghost rank: map<string, nat>)
      requires Ranked(nodes, rank)
      modifies this`nodes, this`connections, this`isDirty
      ensures MoveEffect(old(nodes), nodes, rank, id, position)
      ensures connections == MovedConnections(old(nodes), rank, id, position, old(connections))
      ensures isDirty == (old(isDirty) || id in Ids(old(nodes)))
    {
      var before := nodes;
      var after, movedDeltas, changed := MoveInList(before, rank, id, position);
      nodes := after;
      if changed {
        isDirty := true;
      }
      if |movedDeltas| > 0 {
        var updated := RerouteAll(connections, movedDeltas);
        connections := updated;
      } else {
        MoveUnknownId(before, rank, id, position, connections);
      }
    }

    /**
     * `deleteNode`: removes the node and exactly its incident connections,
     * leaving children's `parentId` dangling; drops the id from the
     * multi-selection, clears the primary selection if it was the node and
     * the connection selection unconditionally.  Drag and hover ids are kept.
     */
    method DeleteNode(id: string)
      modifies this`nodes, this`connections, this`selectedNodeId, this`selectedNodeIds, this`selectedConnectionId, this`isDirty, this`statusMessage
      ensures nodes == WithoutNode(old(nodes), id)
      ensures connections == WithoutIncident(old(connections), id)
      ensures selectedNodeId == (if old(selectedNodeId) == Some(id) then None else old(selectedNodeId))
      ensures selectedNodeIds == Remove(old(selectedNodeIds), id)
      ensures selectedConnectionId == (if Truthy(old(selectedConnectionId)) then None else old(selectedConnectionId))
      ensures isDirty && statusMessage == NodeDeleted(id)
    {
      nodes := WithoutNode(nodes, id);
      connections := WithoutIncident(connections, id);
      if selectedNodeId == Some(id) {
        selectedNodeId := None;
      }
      selectedNodeIds := Remove(selectedNodeIds, id);
      if Truthy(selectedConnectionId) {
        selectedConnectionId := None;
      }
      isDirty := true;
      statusMessage := NodeDeleted(id);
    }

    method DeleteConnection(id: string)
      modifies this`connections, this`selectedConnectionId, this`isDirty, this`statusMessage
      ensures connections == WithoutConnection(old(connections), id)
      ensures selectedConnectionId == (if old(selectedConnectionId) == Some(id) then None else old(selectedConnectionId))
      ensures isDirty && statusMessage == ConnectionDeleted
    {
      connections := WithoutConnection(connections, id);
      if selectedConnectionId == Some(id) {
        selectedConnectionId := None;
      }
      isDirty := true;
      statusMessage := ConnectionDeleted;
    }

    /**
     * `addConnection`: refuses a self-loop or an existing pair silently, and a
     * missing endpoint, a start target or a terminal source with a status;
     * otherwise appends one connection under the next `Flow_` id.  The
     * guards, in the order the service tests them, are `CheckLink`.
     */
    method AddConnection(sourceId: string, targetId: string)
      modifies this`connections, this`connectionCounter, this`isDirty, this`statusMessage
      ensures (connections, connectionCounter) == Linked(nodes, old(connections), old(connectionCounter), sourceId, targetId)
      ensures var v := CheckLink(nodes, old(connections), sourceId, targetId);
        isDirty == (old(isDirty) || v == Accepted) &&
        statusMessage == LinkStatus(v, sourceId, targetId, old(statusMessage))
    {
      var v := CheckLink(nodes, connections, sourceId, targetId);
      ghost var linked := Linked(nodes, connections, connectionCounter, sourceId, targetId);
      if v != Accepted {
        assert linked == (connections, connectionCounter);
        statusMessage := LinkStatus(v, sourceId, targetId, statusMessage);
        return;
      }
      assert linked.0 == connections + [Connection(FlowId(connectionCounter + 1, sourceId, targetId), sourceId, targetId, None)];
      var id := MakeConnectionId(sourceId, targetId);
      connections := connections + [Connection(id, sourceId, targetId, None)];
      isDirty := true;
      statusMessage := Connected(sourceId, targetId);
    }

    /**
     * `selectNode`, driven by the interaction mode: in link mode the first
     * click picks the source, a second click on it deselects it and a click on
     * another node connects the two; delete mode deletes the node; move mode
     * selects it and starts a drag; add mode selects it.  The connection
     * selection is cleared first in every mode.
     */
    method SelectNode(id: string)
      modifies this`nodes, this`connections, this`connectionCounter, this`selectedNodeId, this`selectedNodeIds,
        this`selectedConnectionId, this`draggedNodeId, this`isDirty, this`statusMessage
      ensures selectedConnectionId == None
      ensures interactionMode == Link ==> LinkClicked(id, old(nodes), old(connections), old(connectionCounter),
        old(selectedNodeId), old(draggedNodeId), old(isDirty), old(statusMessage))
      ensures interactionMode == Delete ==>
        nodes == WithoutNode(old(nodes), id) && connections == WithoutIncident(old(connections), id) &&
        connectionCounter == old(connectionCounter) && draggedNodeId == old(draggedNodeId) &&
        selectedNodeId == (if old(selectedNodeId) == Some(id) then None else old(selectedNodeId)) &&
        selectedNodeIds == Remove(old(selectedNodeIds), id) &&
        isDirty && statusMessage == NodeDeleted(id)
      ensures interactionMode == Move ==>
        nodes == old(nodes) && connections == old(connections) && connectionCounter == old(connectionCounter) &&
        selectedNodeId == Some(id) && selectedNodeIds == [id] && draggedNodeId == Some(id) &&
        isDirty == old(isDirty) && statusMessage == Dragging(id)
      ensures interactionMode == Add ==>
        nodes == old(nodes) && connections == old(connections) && connectionCounter == old(connectionCounter) &&
        selectedNodeId == Some(id) && selectedNodeIds == [id] && draggedNodeId == old(draggedNodeId) &&
        isDirty == old(isDirty) && statusMessage == NodeSelected(id)
    {
      selectedConnectionId := None;
      if interactionMode == Link {
        LinkClick(id);
      } else if interactionMode == Delete {
        DeleteNode(id);
      } else if interactionMode == Move {
        selectedNodeId := Some(id);
        selectedNodeIds := [id];
        draggedNodeId := Some(id);
        statusMessage := Dragging(id);
      } else {
        selectedNodeId := Some(id);
        selectedNodeIds := [id];
        statusMessage := NodeSelected(id);
      }
    }

    /**
     * The state after a link-mode click on `id`, given the fields before it:
     * with no source yet `id` becomes the source; a click on the source
     * deselects it; a click elsewhere connects the source to `id`.
     */
    ghost predicate LinkClicked(id: string, nodes0: seq<Node>, connections0: seq<Connection>, counter0: nat,
      selected0: Option<string>, dragged0: Option<string>, dirty0: bool, status0: Status)
      reads this
    {
      nodes == nodes0 && draggedNodeId == dragged0 &&
      if !Truthy(selected0) then
        selectedNodeId == Some(id) && selectedNodeIds == [id] && statusMessage == SourceSelected &&
        connections == connections0 && connectionCounter == counter0 && isDirty == dirty0
      else if selected0 == Some(id) then
        selectedNodeId == None && selectedNodeIds == [] && statusMessage == SourceDeselected &&
        connections == connections0 && connectionCounter == counter0 && isDirty == dirty0
      else
        var v := CheckLink(nodes0, connections0, selected0.value, id);
        selectedNodeId == None && selectedNodeIds == [] &&
        (connections, connectionCounter) == Linked(nodes0, connections0, counter0, selected0.value, id) &&
        isDirty == (dirty0 || v == Accepted) &&
        statusMessage == LinkStatus(v, selected0.value, id, status0)
    }

    /** The link-mode branch of `selectNode`. */
    method LinkClick(id: string)
      modifies this`connections, this`connectionCounter, this`selectedNodeId, this`selectedNodeIds,
        this`isDirty, this`statusMessage
      ensures LinkClicked(id, old(nodes), old(connections), old(connectionCounter),
        old(selectedNodeId), old(draggedNodeId), old(isDirty), old(statusMessage))
    {
      var sourceId := selectedNodeId;
      if !Truthy(sourceId) {
        selectedNodeId := Some(id);
        selectedNodeIds := [id];
        statusMessage := SourceSelected;
      } else if sourceId.value == id {
        selectedNodeId := None;
        selectedNodeIds := [];
        statusMessage := SourceDeselected;
      } else {
        AddConnection(sourceId.value, id);
        selectedNodeId := None;
        selectedNodeIds := [];
      }
    }

    method EndDrag()
      modifies this`draggedNodeId
      ensures draggedNodeId == None
    {
      draggedNodeId := None;
    }

    method SelectConnection(id: string)
      modifies this`selectedNodeId, this`selectedNodeIds, this`selectedConnectionId, this`statusMessage
      ensures selectedNodeId == None && selectedNodeIds == [] && selectedConnectionId == Some(id)
      ensures statusMessage == ConnectionSelected(id)
    {
      selectedNodeId := None;
      selectedNodeIds := [];
      selectedConnectionId := Some(id);
      statusMessage := ConnectionSelected(id);
    }

    method ClearSelection()
      modifies this`selectedNodeId, this`selectedNodeIds, this`selectedConnectionId, this`draggedNodeId, this`statusMessage
      ensures selectedNodeId == None && selectedNodeIds == [] && selectedConnectionId == None && draggedNodeId == None
      ensures statusMessage == SelectionCleared
    {
      selectedNodeId := None;
      selectedNodeIds := [];
      selectedConnectionId := None;
      draggedNodeId := None;
      statusMessage := SelectionCleared;
    }

    method ToggleSnap()
      modifies this`snapToGrid, this`statusMessage
      ensures snapToGrid == !old(snapToGrid) && statusMessage == SnapChanged(snapToGrid)
    {
      snapToGrid := !snapToGrid;
      statusMessage := SnapChanged(snapToGrid);
    }

    /**
     * `deleteSelected`: deletes every selected node in turn and clears the
     * node selection; with no node selected, deletes the selected connection.
     */
    method DeleteSelected()
      modifies this`nodes, this`connections, this`selectedNodeId, this`selectedNodeIds, this`selectedConnectionId, this`isDirty, this`statusMessage
      ensures old(selectedNodeIds) != [] ==>
        nodes == WithoutNodes(old(nodes), old(selectedNodeIds)) &&
        connections == WithoutIncidentAll(old(connections), old(selectedNodeIds)) &&
        selectedNodeId == None && selectedNodeIds == [] &&
        selectedConnectionId == (if Truthy(old(selectedConnectionId)) then None else old(selectedConnectionId)) &&
        isDirty && statusMessage == NodeDeleted(old(selectedNodeIds)[|old(selectedNodeIds)| - 1])
      ensures old(selectedNodeIds) == [] && Truthy(old(selectedConnectionId)) ==>
        nodes == old(nodes) && connections == WithoutConnection(old(connections), old(selectedConnectionId).value) &&
        selectedNodeId == old(selectedNodeId) && selectedNodeIds == [] && selectedConnectionId == None &&
        isDirty && statusMessage == ConnectionDeleted
      ensures old(selectedNodeIds) == [] && !Truthy(old(selectedConnectionId)) ==>
        nodes == old(nodes) && connections == old(connections) && selectedNodeId == old(selectedNodeId) &&
        selectedNodeIds == [] && selectedConnectionId == old(selectedConnectionId) &&
        isDirty == old(isDirty) && statusMessage == old(statusMessage)
    {
      var selectedNodes := selectedNodeIds;
      var selectedConnection := selectedConnectionId;
      if |selectedNodes| > 0 {
        DeleteNodes(selectedNodes);
        selectedNodeId := None;
        selectedNodeIds := [];
        return;
      }
      if Truthy(selectedConnection) {
        DeleteConnection(selectedConnection.value);
        selectedConnectionId := None;
      }
    }

    /** The loop of `deleteSelected`: `deleteNode` on each of `ids` in turn. */
    method DeleteNodes(ids: seq<string>)
      requires |ids| > 0
      modifies this`nodes, this`connections, this`selectedNodeId, this`selectedNodeIds, this`selectedConnectionId, this`isDirty, this`statusMessage
      ensures nodes == WithoutNodes(old(nodes), ids) && connections == WithoutIncidentAll(old(connections), ids)
      ensures selectedConnectionId == (if Truthy(old(selectedConnectionId)) then None else old(selectedConnectionId))
      ensures isDirty && statusMessage == NodeDeleted(ids[|ids| - 1])
    {
      ghost var nodes0, conns0, selected0 := nodes, connections, selectedConnectionId;
      var i := 0;
      while i < |ids|
        invariant 0 <= i <= |ids|
        invariant WithoutNodes(nodes0, ids) == WithoutNodes(nodes, ids[i..])
        invariant WithoutIncidentAll(conns0, ids) == WithoutIncidentAll(connections, ids[i..])
        invariant selectedConnectionId == (if i > 0 && Truthy(selected0) then None else selected0)
        invariant i > 0 ==> isDirty && statusMessage == NodeDeleted(ids[i - 1])
      {
        assert ids[i..] == [ids[i]] + ids[i + 1..];
        DeleteNode(ids[i]);
        i := i + 1;
      }
      assert ids[i..] == [];
    }

    /** `toggleNodeSelection`, in move mode only: adds or removes the id from the de-duplicated selection. */
    method ToggleNodeSelection(id: string)
      modifies this`selectedNodeId, this`selectedNodeIds, this`selectedConnectionId, this`statusMessage
      ensures interactionMode != Move ==>
        selectedNodeId == old(selectedNodeId) && selectedNodeIds == old(selectedNodeIds) &&
        selectedConnectionId == old(selectedConnectionId) && statusMessage == old(statusMessage)
      ensures interactionMode == Move ==>
        selectedNodeIds == ToggledIds(old(selectedNodeIds), id) &&
        selectedNodeId == ToggledPrimary(old(selectedNodeIds), old(selectedNodeId), id) &&
        selectedConnectionId == None && statusMessage == NodesSelected(|selectedNodeIds|)
    {
      if interactionMode != Move {
        return;
      }
      var selected := Dedup(selectedNodeIds);
      if id in selected {
        selected := Remove(selected, id);
        if selectedNodeId == Some(id) {
          var next := At(selected, |selected| - 1);
          selectedNodeId := next;
        }
      } else {
        selected := selected + [id];
        selectedNodeId := Some(id);
      }
      selectedNodeIds := selected;
      selectedConnectionId := None;
      statusMessage := NodesSelected(|selectedNodeIds|);
    }

    /** `updateNodeName`: the trimmed name, or the old one when it trims to nothing. */
    method UpdateNodeName(id: string, name: string)
      modifies this`nodes, this`isDirty
      ensures |nodes| == |old(nodes)|
      ensures forall i :: 0 <= i < |nodes| ==>
        nodes[i] == (if old(nodes)[i].id == id then old(nodes)[i].(name := if Trim(name) != "" then Trim(name) else old(nodes)[i].name)
         else old(nodes)[i])
      ensures isDirty
    {
      var nextName := Trim(name);
      var before := nodes;
      nodes := seq(|before|, i requires 0 <= i < |before| =>
        if before[i].id == id then before[i].(name := if nextName != "" then nextName else before[i].name) else before[i]);
      isDirty := true;
    }

    method UpdateNodeDescription(id: string, description: string)
      modifies this`nodes, this`isDirty
      ensures |nodes| == |old(nodes)|
      ensures forall i :: 0 <= i < |nodes| ==>
        nodes[i] == (if old(nodes)[i].id == id then old(nodes)[i].(description := description) else old(nodes)[i])
      ensures isDirty
    {
      var before := nodes;
      nodes := seq(|before|, i requires 0 <= i < |before| =>
        if before[i].id == id then before[i].(description := description) else before[i]);
      isDirty := true;
    }

    method UpdateNodeMultiInstance(id: string, multiInstance: MultiInstance)
      modifies this`nodes, this`isDirty
      ensures |nodes| == |old(nodes)|
      ensures forall i :: 0 <= i < |nodes| ==>
        nodes[i] == (if old(nodes)[i].id == id then old(nodes)[i].(multiInstance := multiInstance) else old(nodes)[i])
      ensures isDirty
    {
      var before := nodes;
      nodes := seq(|before|, i requires 0 <= i < |before| =>
        if before[i].id == id then before[i].(multiInstance := multiInstance) else before[i]);
      isDirty := true;
    }

    /**
     * `updateNodeId`: rejects an empty, non-XML-name, unchanged or taken id;
     * otherwise renames the node, rewrites every endpoint equal to the old id
     * and gives every connection a fresh id, so the connection counter grows
     * by the number of connections.  Children keep their old `parentId`, and
     * the multi-selection is not rewritten.
     */
    method UpdateNodeId(id: string, nextIdRaw: string)
      modifies this`nodes, this`connections, this`connectionCounter, this`isDirty, this`statusMessage,
        this`selectedNodeId, this`draggedNodeId, this`hoveredNodeId
      ensures var nextId := Trim(nextIdRaw);
        var v := CheckRename(old(nodes), id, nextId);
        statusMessage == RenameStatus(v, nextId, old(statusMessage)) &&
        if v == IdAccepted then
          nodes == RenameNodes(old(nodes), id, nextId) &&
          connections == Regenerated(old(connections), id, nextId, old(connectionCounter)) &&
          connectionCounter == old(connectionCounter) + |old(connections)| && isDirty &&
          selectedNodeId == (if old(selectedNodeId) == Some(id) then Some(nextId) else old(selectedNodeId)) &&
          draggedNodeId == (if old(draggedNodeId) == Some(id) then Some(nextId) else old(draggedNodeId)) &&
          hoveredNodeId == (if old(hoveredNodeId) == Some(id) then Some(nextId) else old(hoveredNodeId))
        else
          nodes == old(nodes) && connections == old(connections) && connectionCounter == old(connectionCounter) &&
          isDirty == old(isDirty) && selectedNodeId == old(selectedNodeId) &&
          draggedNodeId == old(draggedNodeId) && hoveredNodeId == old(hoveredNodeId)
    {
      var nextId := Trim(nextIdRaw);
      var verdict := CheckRename(nodes, id, nextId);
      if verdict != IdAccepted {
        statusMessage := RenameStatus(verdict, nextId, statusMessage);
        return;
      }
      var renamed := RenameNodes(nodes, id, nextId);
      var updated := RegenerateConnections(connections, id, nextId);
      nodes := renamed;
      connections := updated;
      isDirty := true;
      selectedNodeId := if selectedNodeId == Some(id) then Some(nextId) else selectedNodeId;
      draggedNodeId := if draggedNodeId == Some(id) then Some(nextId) else draggedNodeId;
      hoveredNodeId := if hoveredNodeId == Some(id) then Some(nextId) else hoveredNodeId;
    }

    /**
     * The connection loop of `updateNodeId`: renames the endpoints of each
     * connection and gives it the next id from `makeConnectionId`.
     */
    method RegenerateConnections(conns: seq<Connection>, id: string, nextId: string) returns (updated: seq<Connection>)
      modifies this`connectionCounter
      ensures connectionCounter == old(connectionCounter) + |conns|
      ensures updated == Regenerated(conns, id, nextId, old(connectionCounter))
    {
      ghost var target := Regenerated(conns, id, nextId, connectionCounter);
      updated := [];
      var i := 0;
      while i < |conns|
        invariant 0 <= i <= |conns|
        invariant connectionCounter == old(connectionCounter) + i
        invariant |updated| == i && forall j :: 0 <= j < i ==> updated[j] == target[j]
      {
        var conn := conns[i];
        var sourceId := RenameEnd(conn.sourceId, id, nextId);
        var targetId := RenameEnd(conn.targetId, id, nextId);
        var newId := MakeConnectionId(sourceId, targetId);
        updated := updated + [conn.(id := newId, sourceId := sourceId, targetId := targetId)];
        i := i + 1;
      }
    }

    /** `updateProcessId`: accepts a trimmed XML name that differs from the current id. */
    method UpdateProcessId(nextIdRaw: string)
      modifies this`processId, this`isDirty, this`statusMessage
      ensures var nextId := Trim(nextIdRaw);
        if nextId == "" then processId == old(processId) && isDirty == old(isDirty) && statusMessage == ProcessIdEmpty
        else if !IsValidXmlId(nextId) then
          processId == old(processId) && isDirty == old(isDirty) && statusMessage == ProcessIdInvalid
        else if nextId == old(processId) then
          processId == old(processId) && isDirty == old(isDirty) && statusMessage == old(statusMessage)
        else processId == nextId && isDirty && statusMessage == ProcessIdUpdated
    {
      var nextId := Trim(nextIdRaw);
      if nextId == "" {
        statusMessage := ProcessIdEmpty;
        return;
      }
      if !IsValidXmlId(nextId) {
        statusMessage := ProcessIdInvalid;
        return;
      }
      if nextId == processId {
        return;
      }
      processId := nextId;
      isDirty := true;
      statusMessage := ProcessIdUpdated;
    }

    /** `updateProcessName`: accepts a name that is not blank, stored trimmed. */
    method UpdateProcessName(nextNameRaw: string)
      modifies this`processName, this`isDirty, this`statusMessage
      ensures var nextName := Trim(nextNameRaw);
        if nextName == "" then processName == old(processName) && isDirty == old(isDirty) && statusMessage == ProcessNameEmpty
        else if nextName == old(processName) then
          processName == old(processName) && isDirty == old(isDirty) && statusMessage == old(statusMessage)
        else processName == nextName && isDirty && statusMessage == ProcessNameUpdated
    {
      var nextName := Trim(nextNameRaw);
      if nextName == "" {
        statusMessage := ProcessNameEmpty;
        return;
      }
      if nextName == processName {
        return;
      }
      processName := nextName;
      isDirty := true;
      statusMessage := ProcessNameUpdated;
    }

    /** `openModal`: only with a (truthy) selected node. */
    method OpenModal()
      modifies this`showModal
      ensures showModal == (old(showModal) || Truthy(selectedNodeId))
    {
      if Truthy(selectedNodeId) {
        showModal := true;
      }
    }

    method CloseModal()
      modifies this`showModal
      ensures !showModal
    {
      showModal := false;
    }

    /**
     * `exportDiagramJson`, on the record before `JSON.stringify`: when every
     * connection ends at an existing node, importing it gives back exactly
     * the current nodes and connections.
     */
    method ExportDiagramJson() returns (data: Snapshot.DiagramRecord)
      ensures data == Snapshot.ExportDiagram(processId, processName, nodes, connections)
      ensures EndpointsExist(nodes, connections) ==>
        Snapshot.ImportDiagram(data) == Snapshot.Loaded(Snapshot.Imported(nodes, connections))
    {
      data := Snapshot.ExportDiagram(processId, processName, nodes, connections);
      if EndpointsExist(nodes, connections) {
        Snapshot.SnapshotRoundTrip(processId, processName, nodes, connections, processId, processName);
      }
    }

    /**
     * `importDiagramJson`, on the parsed record: a record without a node or a
     * connection array is refused and changes only the status; otherwise the
     * imported lists replace the diagram, the process id and name are taken
     * when acceptable, the primary selection, drag and hover ids are cleared,
     * both counters are recovered from the imported ids and the diagram is clean.
     */
    method ImportDiagramJson(data: Snapshot.DiagramRecord) returns (ok: bool)
      modifies this`nodes, this`connections, this`processId, this`processName, this`selectedNodeId,
        this`draggedNodeId, this`hoveredNodeId, this`hoveredConnectionId, this`nodeCounter,
        this`connectionCounter, this`isDirty, this`statusMessage
      ensures ok == Snapshot.ImportDiagram(data).Loaded?
      ensures !ok ==>
        nodes == old(nodes) && connections == old(connections) && processId == old(processId) &&
        processName == old(processName) && selectedNodeId == old(selectedNodeId) &&
        draggedNodeId == old(draggedNodeId) && hoveredNodeId == old(hoveredNodeId) &&
        hoveredConnectionId == old(hoveredConnectionId) && nodeCounter == old(nodeCounter) &&
        connectionCounter == old(connectionCounter) && isDirty == old(isDirty) &&
        statusMessage == (if data.nodes.None? then MissingNodes else MissingConnections)
      ensures ok ==> nodes == Snapshot.ImportDiagram(data).value.nodes
      ensures ok ==> connections == Snapshot.ImportDiagram(data).value.connections
      ensures ok ==> processId == Snapshot.ImportedProcessId(data, old(processId))
      ensures ok ==> processName == Snapshot.ImportedProcessName(data, old(processName))
      ensures ok ==> selectedNodeId == None && draggedNodeId == None
      ensures ok ==> hoveredNodeId == None && hoveredConnectionId == None
      ensures ok ==> nodeCounter == MaxNodeNumber(nodes) && connectionCounter == MaxConnectionNumber(connections)
      ensures ok ==> !isDirty && statusMessage == DiagramLoaded
    {
      var result := Snapshot.ImportDiagram(data);
      if result.Refused? {
        statusMessage := if result.error == Snapshot.NodesMissing then MissingNodes else MissingConnections;
        return false;
      }
      var newId := Snapshot.ImportedProcessId(data, processId);
      var newName := Snapshot.ImportedProcessName(data, processName);
      Load(result.value, newId, newName);
      statusMessage := DiagramLoaded;
      return true;
    }

    /** The assignments `importDiagramJson` makes once a diagram is accepted. */
    method Load(v: Snapshot.Imported, newId: string, newName: string)
      modifies this`nodes, this`connections, this`processId, this`processName, this`selectedNodeId,
        this`draggedNodeId, this`hoveredNodeId, this`hoveredConnectionId, this`nodeCounter,
        this`connectionCounter, this`isDirty
      ensures nodes == v.nodes && connections == v.connections && processId == newId && processName == newName
      ensures selectedNodeId == None && draggedNodeId == None && hoveredNodeId == None && hoveredConnectionId == None
      ensures nodeCounter == MaxNodeNumber(v.nodes) && connectionCounter == MaxConnectionNumber(v.connections)
      ensures !isDirty
    {
      var nodeMax := DeriveNodeCounter(v.nodes);
      var connectionMax := DeriveConnectionCounter(v.connections);
      nodes, connections, processId, processName := v.nodes, v.connections, newId, newName;
      nodeCounter, connectionCounter, isDirty := nodeMax, connectionMax, false;
      ClearFocus();
    }

    /**
     * `exportBpmnXml`, on the structure before it becomes text: the process
     * element reads back with the store's id and name, and when every node id
     * is non-empty and free of markup, reading its children back gives the
     * top-level nodes, each top-level subprocess followed by its children.
     */
    method ExportBpmnXml() returns (doc: BpmnExport.ExportedDocument)
      ensures doc == BpmnExport.ExportDocument(processId, processName, nodes, connections)
      ensures IsValidXmlId(processId) ==> doc.processId == processId
      ensures doc.processName == Text.NormalizeSpaces(processName)
      ensures (forall m :: m in nodes ==> BpmnImport.WritableId(m.id)) ==>
        forall boxes :: BpmnImport.ImportElements(doc.elements, boxes) == BpmnRoundTrip.Reimported(nodes, nodes, boxes)
    {
      doc := BpmnExport.ExportDocument(processId, processName, nodes, connections);
      BpmnRoundTrip.ProcessAttributesRoundTrip(processId, processName, nodes, connections);
      if forall m :: m in nodes ==> BpmnImport.WritableId(m.id) {
        forall boxes ensures BpmnImport.ImportElements(doc.elements, boxes) == BpmnRoundTrip.Reimported(nodes, nodes, boxes) {
          BpmnRoundTrip.ProcessRoundTrip(nodes, connections, boxes);
        }
      }
    }

    /**
     * `importBpmnXml`, on the parsed document: a document with a parse error
     * changes only the status. Otherwise the process id and name are taken
     * when acceptable, the nodes are read, recentred on the origin in place,
     * the waypoints moved with them when the centre is not the origin, each
     * subprocess refitted around its children, both counters recovered and
     * the diagram is clean. Unlike the JSON import, the selection, drag and
     * hover ids are left as they were.
     */
    method ImportBpmnXml(doc: BpmnImport.BpmnDocument) returns (ok: bool)
      modifies this`nodes, this`connections, this`processId, this`processName, this`nodeCounter,
        this`connectionCounter, this`isDirty, this`statusMessage
      ensures ok == !doc.parseError
      ensures !ok ==>
        nodes == old(nodes) && connections == old(connections) && processId == old(processId) &&
        processName == old(processName) && nodeCounter == old(nodeCounter) &&
        connectionCounter == old(connectionCounter) && isDirty == old(isDirty) && statusMessage == InvalidBpmnXml
      ensures ok ==> processId == BpmnImport.ImportedProcessId(doc, old(processId))
      ensures ok ==> processName == BpmnImport.ImportedProcessName(doc, old(processName))
      ensures ok ==> BpmnImport.ImportedDiagram(nodes, connections) == BpmnImport.Import(doc)
      ensures ok ==> nodeCounter == MaxNodeNumber(nodes) && connectionCounter == MaxConnectionNumber(connections)
      ensures ok ==> !isDirty && statusMessage == BpmnImported
    {
      if doc.parseError {
        statusMessage := InvalidBpmnXml;
        return false;
      }
      LoadBpmn(doc);
      statusMessage := BpmnImported;
      return true;
    }

    /** The in-place passes of `importBpmnXml` over the nodes and connections it read. */
    static method ReadBpmn(doc: BpmnImport.BpmnDocument) returns (read: seq<Node>, flows: seq<Connection>)
      ensures BpmnImport.ImportedDiagram(read, flows) == BpmnImport.Import(doc)
    {
      read, flows := BpmnImport.ReadDiagram(BpmnImport.RawNodes(doc), BpmnImport.RawConnections(doc));
    }

    /** The assignments `importBpmnXml` makes once the document is parsed. */
    method LoadBpmn(doc: BpmnImport.BpmnDocument)
      modifies this`nodes, this`connections, this`processId, this`processName, this`nodeCounter,
        this`connectionCounter, this`isDirty
      ensures processId == BpmnImport.ImportedProcessId(doc, old(processId))
      ensures processName == BpmnImport.ImportedProcessName(doc, old(processName))
      ensures BpmnImport.ImportedDiagram(nodes, connections) == BpmnImport.Import(doc)
      ensures nodeCounter == MaxNodeNumber(nodes) && connectionCounter == MaxConnectionNumber(connections)
      ensures !isDirty
    {
      processId := BpmnImport.ImportedProcessId(doc, processId);
      processName := BpmnImport.ImportedProcessName(doc, processName);
      var read, flows := ReadBpmn(doc);
      var nodeMax := DeriveNodeCounter(read);
      var connectionMax := DeriveConnectionCounter(flows);
      nodes, connections := read, flows;
      nodeCounter, connectionCounter, isDirty := nodeMax, connectionMax, false;
    }

    /** An import forgets the primary selection and the dragged and hovered ids. */
    method ClearFocus()
      modifies this`selectedNodeId, this`draggedNodeId, this`hoveredNodeId, this`hoveredConnectionId
      ensures selectedNodeId == None && draggedNodeId == None && hoveredNodeId == None && hoveredConnectionId == None
    {
      selectedNodeId, draggedNodeId, hoveredNodeId, hoveredConnectionId := None, None, None, None;
    }
  }
}

=== FILE: text.dfy ===
/**
 * String rules used by the graph store: decimal ids, the `Flow_<n>_` connection
 * id scheme, XML-name validation, JavaScript's `String.prototype.trim` and the
 * escaping of the five predefined XML entities and the white-space
 * normalisation of attribute values.
 */
module Text {

  import opened Diagram

  // ---------------------------------------------------------------------------
  // Decimal numerals (`/^\d+$/`, `Number(...)` and `n.toString()`)
  // ---------------------------------------------------------------------------

  /** `\d` in a JavaScript regular expression without the `u` flag: ASCII digits. */
  predicate IsDigit(c: char) {
    '0' <= c <= '9'
  }

  predicate DigitsOnly(s: string) {
    forall i :: 0 <= i < |s| ==> IsDigit(s[i])
  }

  /** `/^\d+$/.test(s)`: one or more digits and nothing else. */
  predicate IsNumeral(s: string) {
    |s| > 0 && DigitsOnly(s)
  }

  /** `Number(s)` for a string of digits (leading zeros allowed). */
  function DigitsValue(s: string): nat
    requires DigitsOnly(s)
  {
    if s == [] then 0
    else DigitsValue(s[..|s| - 1]) * 10 + (s[|s| - 1] as int - '0' as int)
  }

  function DigitChar(d: nat): (c: char)
    requires d < 10
    ensures IsDigit(c) && c as int - '0' as int == d
  {
    (d + '0' as int) as char
  }

  /** `n.toString()` for a natural number: its shortest decimal numeral. */
  function NatToString(n: nat): string
    decreases n
  {
    if n < 10 then [DigitChar(n)] else NatToString(n / 10) + [DigitChar(n % 10)]
  }

  /** `Number(n.toString()) == n`: the counter value can be read back from the id it produced. */
  lemma {:induction false} NatToStringValue(n: nat)
    ensures IsNumeral(NatToString(n))
    ensures DigitsValue(NatToString(n)) == n
    decreases n
  {
    if n >= 10 {
      NatToStringValue(n / 10);
      var s := NatToString(n);
      assert s[..|s| - 1] == NatToString(n / 10);
    }
  }

  // ---------------------------------------------------------------------------
  // Connection ids: `Flow_${counter}_${sourceId}_${targetId}`
  // ---------------------------------------------------------------------------

  function FlowId(n: nat, sourceId: string, targetId: string): string {
    "Flow_" + NatToString(n) + "_" + sourceId + "_" + targetId
  }

  /** The length of the longest prefix of `s` made of digits. */
  function LeadingDigits(s: string): (k: nat)
    ensures k <= |s|
    ensures DigitsOnly(s[..k])
    ensures k < |s| ==> !IsDigit(s[k])
  {
    if s == [] || !IsDigit(s[0]) then 0
    else
      var k := 1 + LeadingDigits(s[1..]);
      assert s[..k] == [s[0]] + s[1..][..k - 1];
      k
  }

  /**
   * `/^Flow_(\d+)_/.exec(id)` followed by `Number(match[1])`: the greedy digit run
   * after `Flow_` must be followed by `_`.
   */
  function FlowNumber(id: string): Option<nat> {
    if |id| >= 5 && id[..5] == "Flow_" then
      var rest := id[5..];
      var k := LeadingDigits(rest);
      if 0 < k < |rest| && rest[k] == '_' then Some(DigitsValue(rest[..k])) else None
    else None
  }

  lemma LeadingDigitsOfNumeral(d: string, rest: string)
    requires IsNumeral(d)
    requires |rest| > 0 && !IsDigit(rest[0])
    ensures LeadingDigits(d + rest) == |d|
    decreases |d|
  {
    if |d| > 1 {
      assert (d + rest)[1..] == d[1..] + rest;
      LeadingDigitsOfNumeral(d[1..], rest);
    } else {
      assert (d + rest)[1..] == rest;
    }
  }

  /** Every generated connection id carries its counter value where `deriveConnectionCounter` looks for it. */
  lemma {:induction false} FlowNumberOfFlowId(n: nat, sourceId: string, targetId: string)
    ensures FlowNumber(FlowId(n, sourceId, targetId)) == Some(n)
  {
    var id := FlowId(n, sourceId, targetId);
    var d := NatToString(n);
    NatToStringValue(n);
    var tail := "_" + sourceId + "_" + targetId;
    assert id == "Flow_" + (d + tail);
    assert id[..5] == "Flow_";
    assert id[5..] == d + tail;
    LeadingDigitsOfNumeral(d, tail);
    assert (d + tail)[..|d|] == d;
  }

  // ---------------------------------------------------------------------------
  // XML names: `/^[A-Za-z_][A-Za-z0-9._-]*$/`
  // ---------------------------------------------------------------------------

  predicate IsNameStart(c: char) {
    'A' <= c <= 'Z' || 'a' <= c <= 'z' || c == '_'
  }

  predicate IsNameChar(c: char) {
    IsNameStart(c) || IsDigit(c) || c == '.' || c == '-'
  }

  /** `isValidXmlId`: an ASCII subset of the NCName production of Namespaces in XML 1.0, section 3. */
  predicate IsValidXmlId(s: string) {
    |s| > 0 && IsNameStart(s[0]) && forall i :: 1 <= i < |s| ==> IsNameChar(s[i])
  }

  /** A valid XML id is never a numeral, so renaming a node can never collide with a generated node id. */
  lemma ValidXmlIdIsNotNumeral(s: string)
    requires IsValidXmlId(s)
    ensures !IsNumeral(s)
  {
    assert !IsDigit(s[0]);
  }

  // ---------------------------------------------------------------------------
  // `String.prototype.trim`
  // ---------------------------------------------------------------------------

  /** ECMAScript WhiteSpace and LineTerminator code points. */
  predicate IsJsWhitespace(c: char) {
    c == '\t' || c == '\n' || c == '\U{B}' || c == '\U{C}' || c == '\r' || c == ' '
    || c == '\U{A0}' || c == '\U{1680}' || ('\U{2000}' <= c <= '\U{200A}')
    || c == '\U{2028}' || c == '\U{2029}' || c == '\U{202F}' || c == '\U{205F}'
    || c == '\U{3000}' || c == '\U{FEFF}'
  }

  /** The first index from `i` on that is not white space, or `|s|`. */
  function WhiteBefore(s: string, i: nat): (k: nat)
    requires i <= |s|
    ensures i <= k <= |s| && (k < |s| ==> !IsJsWhitespace(s[k]))
    ensures forall j :: i <= j < k ==> IsJsWhitespace(s[j])
    decreases |s| - i
  {
    if i < |s| && IsJsWhitespace(s[i]) then WhiteBefore(s, i + 1) else i
  }

  /** The end of the text before `i` once trailing white space is dropped. */
  function WhiteAfter(s: string, i: nat): (k: nat)
    requires i <= |s|
    ensures k <= i && (0 < k ==> !IsJsWhitespace(s[k - 1]))
    ensures forall j :: k <= j < i ==> IsJsWhitespace(s[j])
  {
    if 0 < i && IsJsWhitespace(s[i - 1]) then WhiteAfter(s, i - 1) else i
  }

  function TrimStart(s: string): string {
    s[WhiteBefore(s, 0)..]
  }

  function TrimEnd(s: string): string {
    s[..WhiteAfter(s, |s|)]
  }

  /** `s.trim()`: `s` without its leading and trailing white space. */
  function Trim(s: string): string {
    TrimEnd(TrimStart(s))
  }

  predicate IsTrimmed(s: string) {
    s == [] || (!IsJsWhitespace(s[0]) && !IsJsWhitespace(s[|s| - 1]))
  }

  /** The trimmed string is a substring of the input, has no white space at either end, and only white space was cut. */
  lemma TrimProperties(s: string) returns (k: nat)
    ensures IsTrimmed(Trim(s))
    ensures k + |Trim(s)| <= |s| && Trim(s) == s[k..k + |Trim(s)|]
    ensures Trim(s) == [] <==> forall i :: 0 <= i < |s| ==> IsJsWhitespace(s[i])
  {
    k := WhiteBefore(s, 0);
    var a := s[k..];
    var e := WhiteAfter(a, |a|);
    var r := a[..e];
    assert Trim(s) == r;
    assert r == s[k..k + e];
    if r != [] {
      assert r[0] == s[k] && r[|r| - 1] == a[e - 1];
    }
  }

  /** Trimming twice is trimming once. */
  lemma TrimIdempotent(s: string)
    ensures Trim(Trim(s)) == Trim(s)
  {
    var _ := TrimProperties(s);
    TrimOfTrimmed(Trim(s));
  }

  lemma TrimOfTrimmed(s: string)
    requires IsTrimmed(s)
    ensures Trim(s) == s
  {
    assert WhiteBefore(s, 0) == 0;
    assert s[0..] == s;
    assert WhiteAfter(s, |s|) == |s|;
  }

  // ---------------------------------------------------------------------------
  // `escapeXml`: the five predefined entities of XML 1.0, section 4.6
  // ---------------------------------------------------------------------------

  /** `value.replace(/c/g, rep)` for a single character `c`. */
  function ReplaceAll(s: string, c: char, rep: string): string {
    if s == [] then []
    else (if s[0] == c then rep else [s[0]]) + ReplaceAll(s[1..], c, rep)
  }

  /** The chain of five global replacements, `&` first. */
  function EscapeXml(s: string): string {
    ReplaceAll(ReplaceAll(ReplaceAll(ReplaceAll(ReplaceAll(s,
      '&', "&amp;"), '<', "&lt;"), '>', "&gt;"), '"', "&quot;"), '\'', "&apos;")
  }

  /** The entity each markup character is written as. */
  function EscapeChar(c: char): string {
    match c
    case '&' => "&amp;"
    case '<' => "&lt;"
    case '>' => "&gt;"
    case '"' => "&quot;"
    case '\'' => "&apos;"
    case _ => [c]
  }

  function EscapeEach(s: string): string {
    if s == [] then [] else EscapeChar(s[0]) + EscapeEach(s[1..])
  }

  lemma {:induction false} ReplaceAllAppend(a: string, b: string, c: char, rep: string)
    ensures ReplaceAll(a + b, c, rep) == ReplaceAll(a, c, rep) + ReplaceAll(b, c, rep)
    decreases |a|
  {
    if a != [] {
      assert (a + b)[1..] == a[1..] + b;
      ReplaceAllAppend(a[1..], b, c, rep);
    } else {
      assert a + b == b;
    }
  }

  lemma EscapeXmlAppend(a: string, b: string)
    ensures EscapeXml(a + b) == EscapeXml(a) + EscapeXml(b)
  {
    var s1a, s1b := ReplaceAll(a, '&', "&amp;"), ReplaceAll(b, '&', "&amp;");
    ReplaceAllAppend(a, b, '&', "&amp;");
    var s2a, s2b := ReplaceAll(s1a, '<', "&lt;"), ReplaceAll(s1b, '<', "&lt;");
    ReplaceAllAppend(s1a, s1b, '<', "&lt;");
    var s3a, s3b := ReplaceAll(s2a, '>', "&gt;"), ReplaceAll(s2b, '>', "&gt;");
    ReplaceAllAppend(s2a, s2b, '>', "&gt;");
    var s4a, s4b := ReplaceAll(s3a, '"', "&quot;"), ReplaceAll(s3b, '"', "&quot;");
    ReplaceAllAppend(s3a, s3b, '"', "&quot;");
    ReplaceAllAppend(s4a, s4b, '\'', "&apos;");
  }

  lemma ReplaceAllSingle(c: char, x: char, rep: string)
    ensures ReplaceAll([c], x, rep) == if c == x then rep else [c]
  {
    assert [c][1..] == [];
  }

  /** The steps after the one that wrote entity `e` leave it alone. */
  lemma EntityUntouched(e: string)
    requires '<' !in e && '>' !in e && '"' !in e && '\'' !in e
    ensures ReplaceAll(e, '<', "&lt;") == e
    ensures ReplaceAll(e, '>', "&gt;") == e
    ensures ReplaceAll(e, '"', "&quot;") == e
    ensures ReplaceAll(e, '\'', "&apos;") == e
  {
    ReplaceAllAbsent(e, '<', "&lt;");
    ReplaceAllAbsent(e, '>', "&gt;");
    ReplaceAllAbsent(e, '"', "&quot;");
    ReplaceAllAbsent(e, '\'', "&apos;");
  }

  /** The chain applied to one character yields that character's entity. */
  lemma EscapeXmlOneChar(c: char)
    ensures EscapeXml([c]) == EscapeChar(c)
  {
    ReplaceAllSingle(c, '&', "&amp;");
    if c == '&' {
      EntityUntouched("&amp;");
    } else {
      ReplaceAllSingle(c, '<', "&lt;");
      if c == '<' {
        EntityUntouched("&lt;");
      } else {
        ReplaceAllSingle(c, '>', "&gt;");
        if c == '>' {
          EntityUntouched("&gt;");
        } else {
          ReplaceAllSingle(c, '"', "&quot;");
          if c == '"' {
            ReplaceAllAbsent("&quot;", '\'', "&apos;");
          } else {
            ReplaceAllSingle(c, '\'', "&apos;");
          }
        }
      }
    }
  }

  lemma {:induction false} ReplaceAllAbsent(s: string, c: char, rep: string)
    requires c !in s
    ensures ReplaceAll(s, c, rep) == s
    decreases |s|
  {
    if s != [] {
      ReplaceAllAbsent(s[1..], c, rep);
    }
  }

  /**
   * Because `&` is replaced first and no entity contains another markup
   * character, the replacement chain escapes each character on its own.
   */
  lemma {:induction false} EscapeXmlIsPerCharacter(s: string)
    ensures EscapeXml(s) == EscapeEach(s)
    decreases |s|
  {
    if s != [] {
      assert s == [s[0]] + s[1..];
      EscapeXmlAppend([s[0]], s[1..]);
      EscapeXmlOneChar(s[0]);
      EscapeXmlIsPerCharacter(s[1..]);
    }
  }

  /** Reading back the five entities, as an XML parser does. */
  function Unescape(s: string): string
    decreases |s|
  {
    if s == [] then []
    else if |s| >= 5 && s[..5] == "&amp;" then "&" + Unescape(s[5..])
    else if |s| >= 4 && s[..4] == "&lt;" then "<" + Unescape(s[4..])
    else if |s| >= 4 && s[..4] == "&gt;" then ">" + Unescape(s[4..])
    else if |s| >= 6 && s[..6] == "&quot;" then "\"" + Unescape(s[6..])
    else if |s| >= 6 && s[..6] == "&apos;" then "'" + Unescape(s[6..])
    else [s[0]] + Unescape(s[1..])
  }

  predicate IsMarkup(c: char) {
    c == '<' || c == '>' || c == '"' || c == '\''
  }

  lemma UnescapeEntity(e: string, c: char, rest: string)
    requires (e, c) in {("&amp;", '&'), ("&lt;", '<'), ("&gt;", '>'), ("&quot;", '"'), ("&apos;", '\'')}
    ensures Unescape(e + rest) == [c] + Unescape(rest)
  {
    var s := e + rest;
    assert s[..|e|] == e && s[|e|..] == rest;
    assert s[0] == '&' && s[1] == e[1];
    if e == "&quot;" || e == "&apos;" {
      assert s[..4] != "&lt;" && s[..4] != "&gt;";
    }
    if e == "&apos;" {
      assert s[..6] != "&quot;";
    }
  }

  lemma UnescapePlain(c: char, rest: string)
    requires c != '&'
    ensures Unescape([c] + rest) == [c] + Unescape(rest)
  {
    var s := [c] + rest;
    assert s[0] == c && s[1..] == rest;
  }

  lemma UnescapeChar(c: char, rest: string)
    ensures Unescape(EscapeChar(c) + rest) == [c] + Unescape(rest)
  {
    if c == '&' {
      UnescapeEntity("&amp;", c, rest);
    } else if c == '<' {
      UnescapeEntity("&lt;", c, rest);
    } else if c == '>' {
      UnescapeEntity("&gt;", c, rest);
    } else if c == '"' {
      UnescapeEntity("&quot;", c, rest);
    } else if c == '\'' {
      UnescapeEntity("&apos;", c, rest);
    } else {
      UnescapePlain(c, rest);
    }
  }

  // ---------------------------------------------------------------------------
  // White space in attribute values (sections 2.11 and 3.3.3 of XML 1.0)
  // ---------------------------------------------------------------------------

  /** The characters a parser replaces by a space in an attribute value. */
  predicate IsAttributeSpace(c: char) {
    c == '\t' || c == '\n' || c == '\r'
  }

  predicate NoAttributeSpace(s: string) {
    forall i :: 0 <= i < |s| ==> !IsAttributeSpace(s[i])
  }

  /**
   * What a conforming parser makes of the white space in an attribute value:
   * a CR LF pair becomes one line feed at the end-of-line step, and every
   * tab, line feed and carriage return then becomes a space.
   */
  function NormalizeSpaces(s: string): string
    decreases |s|
  {
    if s == [] then []
    else if |s| >= 2 && s[0] == '\r' && s[1] == '\n' then " " + NormalizeSpaces(s[2..])
    else if IsAttributeSpace(s[0]) then " " + NormalizeSpaces(s[1..])
    else [s[0]] + NormalizeSpaces(s[1..])
  }

  /**
   * The normalised value holds none of those characters, is the text itself
   * when the text holds none, and is empty exactly when the text is.
   */
  lemma {:induction false} NormalizeSpacesProperties(s: string)
    ensures var r := NormalizeSpaces(s);
      NoAttributeSpace(r) && (NoAttributeSpace(s) ==> r == s) && |r| <= |s| && (r == [] <==> s == [])
    decreases |s|
  {
    if s != [] {
      var k := if |s| >= 2 && s[0] == '\r' && s[1] == '\n' then 2 else 1;
      var tail := s[k..];
      NormalizeSpacesProperties(tail);
      var head := if IsAttributeSpace(s[0]) then ' ' else s[0];
      var r := NormalizeSpaces(s);
      assert r == [head] + NormalizeSpaces(tail);
      assert NoAttributeSpace(r) by {
        forall i | 0 <= i < |r| ensures !IsAttributeSpace(r[i]) {
          if i > 0 { assert r[i] == NormalizeSpaces(tail)[i - 1]; }
        }
      }
      if NoAttributeSpace(s) {
        assert k == 1 && head == s[0];
        assert NoAttributeSpace(tail) by {
          forall i | 0 <= i < |tail| ensures !IsAttributeSpace(tail[i]) {
            assert tail[i] == s[i + 1];
          }
        }
        assert [s[0]] + tail == s;
      }
    }
  }

  /** Text without those characters passes through unchanged in front of whatever follows. */
  lemma {:induction false} NormalizePrefix(a: string, b: string)
    requires NoAttributeSpace(a)
    ensures NormalizeSpaces(a + b) == a + NormalizeSpaces(b)
    decreases |a|
  {
    if a != [] {
      var ab := a + b;
      assert ab[0] == a[0] && ab[1..] == a[1..] + b;
      assert NoAttributeSpace(a[1..]) by {
        forall i | 0 <= i < |a[1..]| ensures !IsAttributeSpace(a[1..][i]) {
          assert a[1..][i] == a[i + 1];
        }
      }
      NormalizePrefix(a[1..], b);
      assert [a[0]] + a[1..] == a;
    } else {
      assert a + b == b;
    }
  }

  /** Escaping touches no white space, so it commutes with the normalisation. */
  lemma {:induction false} EscapeEachNormalized(s: string)
    ensures NormalizeSpaces(EscapeEach(s)) == EscapeEach(NormalizeSpaces(s))
    decreases |s|
  {
    if s == [] {
    } else if |s| >= 2 && s[0] == '\r' && s[1] == '\n' {
      EscapeEachNormalized(s[2..]);
      CrLfStep(s);
    } else if IsAttributeSpace(s[0]) {
      EscapeEachNormalized(s[1..]);
      assert s == [s[0]] + s[1..];
      SpaceStep(s[0], s[1..]);
    } else {
      EscapeEachNormalized(s[1..]);
      PlainStep(s);
    }
  }

  lemma CrLfStep(s: string)
    requires |s| >= 2 && s[0] == '\r' && s[1] == '\n'
    requires NormalizeSpaces(EscapeEach(s[2..])) == EscapeEach(NormalizeSpaces(s[2..]))
    ensures NormalizeSpaces(EscapeEach(s)) == EscapeEach(NormalizeSpaces(s))
  {
    var tail := s[2..];
    assert s == "\r\n" + tail;
    EscapeEachCrLf(tail);
    calc {
      NormalizeSpaces(EscapeEach(s));
      NormalizeSpaces("\r\n" + EscapeEach(tail));
      { NormalizeCrLf(EscapeEach(tail)); }
      " " + EscapeEach(NormalizeSpaces(tail));
      { EscapeEachCons(' ', NormalizeSpaces(tail)); EscapeCharPlain(' '); }
      EscapeEach(" " + NormalizeSpaces(tail));
      { NormalizeCrLf(tail); }
      EscapeEach(NormalizeSpaces(s));
    }
  }

  lemma EscapeEachCrLf(s: string)
    ensures EscapeEach("\r\n" + s) == "\r\n" + EscapeEach(s)
  {
    var t := "\r\n" + s;
    assert t == [t[0]] + ("\n" + s);
    EscapeEachCons('\n', s);
    EscapeCharPlain('\n');
    EscapeEachCons('\r', "\n" + s);
    EscapeCharPlain('\r');
  }

  lemma SpaceStep(c: char, tail: string)
    requires IsAttributeSpace(c) && !(c == '\r' && tail != [] && tail[0] == '\n')
    requires NormalizeSpaces(EscapeEach(tail)) == EscapeEach(NormalizeSpaces(tail))
    ensures NormalizeSpaces(EscapeEach([c] + tail)) == EscapeEach(NormalizeSpaces([c] + tail))
  {
    var r := EscapeEach(tail);
    EscapeEachCons(c, tail);
    EscapeCharPlain(c);
    if tail != [] {
      EscapeEachHead(tail);
    }
    NormalizeSpaceHead(c, r);
    NormalizeSpaceHead(c, tail);
    EscapeEachCons(' ', NormalizeSpaces(tail));
    EscapeCharPlain(' ');
  }

  /** A character other than `&` and markup is written as itself. */
  lemma EscapeCharPlain(c: char)
    requires c != '&' && !IsMarkup(c)
    ensures EscapeChar(c) == [c]
  {
  }

  lemma EscapeEachCons(c: char, s: string)
    ensures EscapeEach([c] + s) == EscapeChar(c) + EscapeEach(s)
  {
    var t := [c] + s;
    assert t[0] == c && t[1..] == s;
  }

  /** An escaped text starts with a line feed only where the text does. */
  lemma EscapeEachHead(s: string)
    requires s != []
    ensures EscapeEach(s) != [] && (EscapeEach(s)[0] == '\n' <==> s[0] == '\n')
  {
    assert s == [s[0]] + s[1..];
    EscapeEachCons(s[0], s[1..]);
    var e := EscapeChar(s[0]);
    assert e != [] && (e[0] == '\n' <==> s[0] == '\n');
    assert EscapeEach(s)[0] == e[0];
  }

  lemma NormalizeCrLf(s: string)
    ensures NormalizeSpaces("\r\n" + s) == " " + NormalizeSpaces(s)
  {
    var t := "\r\n" + s;
    assert t[0] == '\r' && t[1] == '\n' && t[2..] == s;
  }

  lemma NormalizeSpaceHead(c: char, s: string)
    requires IsAttributeSpace(c) && !(c == '\r' && s != [] && s[0] == '\n')
    ensures NormalizeSpaces([c] + s) == " " + NormalizeSpaces(s)
  {
    var t := [c] + s;
    assert t[0] == c && t[1..] == s;
  }

  lemma EscapeCharNoSpace(c: char)
    requires !IsAttributeSpace(c)
    ensures NoAttributeSpace(EscapeChar(c))
  {
    if c == '&' || c == '<' || c == '>' || c == '"' || c == '\'' {
      var e := EscapeChar(c);
      assert forall i :: 0 <= i < |e| ==> e[i] == '&' || e[i] == ';' || 'a' <= e[i] <= 'z';
    } else {
      assert EscapeChar(c) == [c];
    }
  }

  lemma PlainStep(s: string)
    requires s != [] && !IsAttributeSpace(s[0])
    requires NormalizeSpaces(EscapeEach(s[1..])) == EscapeEach(NormalizeSpaces(s[1..]))
    ensures NormalizeSpaces(EscapeEach(s)) == EscapeEach(NormalizeSpaces(s))
  {
    var c := EscapeChar(s[0]);
    EscapeCharNoSpace(s[0]);
    NormalizePrefix(c, EscapeEach(s[1..]));
    var t := NormalizeSpaces(s);
    assert t == [s[0]] + NormalizeSpaces(s[1..]);
    assert t[0] == s[0] && t[1..] == NormalizeSpaces(s[1..]);
  }

  /**
   * An escaped attribute value reads back as the original with its white
   * space normalised: the parser normalises, then expands the entities.
   */
  lemma EscapedAttributeRoundTrip(s: string)
    ensures Unescape(NormalizeSpaces(EscapeXml(s))) == NormalizeSpaces(s)
  {
    EscapeXmlIsPerCharacter(s);
    EscapeEachNormalized(s);
    EscapeEachRoundTrip(NormalizeSpaces(s));
  }

  /** Escaped text reads back as the original, and holds no raw `<`, `>`, `"` or `'`. */
  lemma {:induction false} EscapeXmlRoundTrip(s: string)
    ensures Unescape(EscapeXml(s)) == s
    ensures forall i :: 0 <= i < |EscapeXml(s)| ==> !IsMarkup(EscapeXml(s)[i])
  {
    EscapeXmlIsPerCharacter(s);
    EscapeEachRoundTrip(s);
  }

  lemma EscapeCharNoMarkup(c: char)
    ensures forall i :: 0 <= i < |EscapeChar(c)| ==> !IsMarkup(EscapeChar(c)[i])
  {
  }

  lemma {:induction false} EscapeEachRoundTrip(s: string)
    ensures Unescape(EscapeEach(s)) == s
    ensures forall i :: 0 <= i < |EscapeEach(s)| ==> !IsMarkup(EscapeEach(s)[i])
    decreases |s|
  {
    if s != [] {
      EscapeEachRoundTrip(s[1..]);
      var e := EscapeChar(s[0]);
      var r := EscapeEach(s[1..]);
      assert EscapeEach(s) == e + r;
      UnescapeChar(s[0], r);
      assert [s[0]] + s[1..] == s;
      EscapeCharNoMarkup(s[0]);
      forall i | 0 <= i < |e + r| ensures !IsMarkup((e + r)[i]) {
        if i >= |e| { assert (e + r)[i] == r[i - |e|]; } else { assert (e + r)[i] == e[i]; }
      }
    }
  }
}

=== FILE: types.dfy ===
/**
 * The entities of the process diagram: node types, nodes, connections and
 * the planar points they are drawn with, plus the small value helpers that
 * stand in for JavaScript's optional values and `Math` functions.
 */
module Diagram {

  datatype Option<+T> = None | Some(value: T) {
    function GetOr(default: T): T {
      match this
      case Some(v) => v
      case None => default
    }
  }

  /** The closed set of node kinds a diagram can hold. */
  datatype NodeType =
    | Start
    | UserTask
    | ServiceTask
    | ExclusiveGateway
    | ParallelGateway
    | Terminal
    | Subprocess
    | EventGateway
    | MessageStart
    | MessageCatch

  datatype InteractionMode = Move | Add | Link | Delete

  /** `MultiInstanceType`: parallel, sequential, or none (`null`). */
  datatype MultiInstance = NoMultiInstance | Parallel | Sequential

  /** A node position; y is the display elevation. */
  datatype Vec3 = Vec3(x: real, y: real, z: real)

  /** A point on the drawing plane: waypoints and routed path vertices. */
  datatype Point = Point(x: real, z: real)

  datatype Bounds = Bounds(width: real, height: real)

  datatype Node = Node(
    id: string,
    nodeType: NodeType,
    position: Vec3,
    name: string,
    description: string,
    multiInstance: MultiInstance,
    parentId: Option<string>,
    bounds: Option<Bounds>)

  /** `waypoints` is `None` where the source leaves the field undefined. */
  datatype Connection = Connection(
    id: string,
    sourceId: string,
    targetId: string,
    waypoints: Option<seq<Point>>)

  /**
   * The round node kinds, events and gateways: `shapeForType`, `getNodeSize`
   * and the path builder's `isRound` all single out this set.
   */
  predicate IsRound(t: NodeType) {
    t != UserTask && t != ServiceTask && t != Subprocess
  }

  function Abs(r: real): real {
    if r < 0.0 then -r else r
  }

  function Min(a: real, b: real): real {
    if a <= b then a else b
  }

  function Max(a: real, b: real): real {
    if a >= b then a else b
  }

  function Add3(a: Vec3, b: Vec3): Vec3 {
    Vec3(a.x + b.x, a.y + b.y, a.z + b.z)
  }

  function Sub3(a: Vec3, b: Vec3): Vec3 {
    Vec3(a.x - b.x, a.y - b.y, a.z - b.z)
  }

  /** The planar (x, z) part of a position. */
  function Planar(v: Vec3): Point {
    Point(v.x, v.z)
  }

  function AddP(a: Point, b: Point): Point {
    Point(a.x + b.x, a.z + b.z)
  }

  function SubP(a: Point, b: Point): Point {
    Point(a.x - b.x, a.z - b.z)
  }

  function ScaleP(a: Point, k: real): Point {
    Point(a.x * k, a.z * k)
  }

  function DistSq(a: Point, b: Point): real {
    (a.x - b.x) * (a.x - b.x) + (a.z - b.z) * (a.z - b.z)
  }

  /** JavaScript array indexing: an index out of range yields `undefined`. */
  function At<T>(s: seq<T>, k: int): (r: Option<T>)
    ensures r.Some? <==> 0 <= k < |s|
    ensures r.Some? ==> r.value == s[k]
  {
    if 0 <= k < |s| then Some(s[k]) else None
  }

  /** A lookup in a JavaScript `Map`: `get` yields `undefined` for a missing key. */
  function Get<K, V>(m: map<K, V>, k: K): Option<V> {
    if k in m then Some(m[k]) else None
  }

  /** JavaScript truthiness of an optional string: `null` and `""` are falsy. */
  predicate Truthy(s: Option<string>) {
    s.Some? && s.value != ""
  }

  /** A JavaScript square-root function over the reals, given to the geometry as a parameter. */
  ghost predicate IsSqrt(sqrt: real -> real) {
    forall x :: 0.0 <= x ==> 0.0 <= sqrt(x) && sqrt(x) * sqrt(x) == x
  }
}
